=== FILE: README.md ===
# Scripture Burrito store: the storage engine, in Dafny

This project models the storage engine of a file-system Scripture Burrito
store, plus its two converters from legacy metadata, and proves properties
of the model.

The engine is one immutable `Store` record (`store_state.dfy`) with four parts:

- the metadata index: publisher URL → entry → revision → variant → document;
- the id-server records;
- the ingredient buffer: staging handle → ingredient url;
- a file tree for everything under the storage directory.

Every operation is a pure function from a store to a `Step`, which pairs the
new store with a result or a thrown error. A throw that follows a mutation
keeps the mutation, as the code does.

The modules follow the program's files:

| module | file | what it models |
|---|---|---|
| `JsonValue`, `Js`, `Errors` | — | JSON values; `undefined`; JavaScript property reads, `in`, `includes`, loose `==`, `String()`; `BurritoError` |
| `FileTree`, `Uri` | — | the synchronous `fs` calls; `encodeURIComponent` and `decodeURIComponent` (section 19.2.6 of ECMA-262) |
| `Identity` | `code/metadata_store.js` | deriving `(publisher, entry, revision)` from a document |
| `MetadataIndex` | `code/fs_metadata_store.js`, `code/metadata_store.js` | the four-level index, its on-disk mirror, listings, the write-once variant rule |
| `Config`, `Validator` | `code/config_reader.js`, `code/burrito_validator.js` | configuration defaults and the `metadataCompatible` admission decision |
| `Buffer` | `code/fs_ingredient_buffer.js` | the staging buffer |
| `IngredientsStore` | `code/fs_ingredients_store.js` | content-addressed ingredient files and the checksum seed map |
| `BurritoStore` | `code/burrito_store.js` | import, export, the checksum gate, ingredient add/update/delete, zip import |
| `FsBurritoStore` | `fs_burrito_store.js` | store initialisation, id-server names, export to a directory |
| `XmlTree`, `DblRecipe`, `DblImport` | `code/dbl_metadata_import.js` | the DBL metadata converter, over an abstract element tree instead of a DOM |
| `Sb01Import` | `code/sb01_import.js` | the Scripture Burrito 0.1 converter |

Foreign libraries are parameters:

- the md5 digest, `JSON.stringify`, `semver.satisfies` and the JSON-schema
  validator are fields of the `Env` record;
- uuid generation is the caller's choice of a fresh handle;
- the key order of objects is an explicit list where the code depends on it.

## Model

| member | source | states |
|---|---|---|
| Errors.RaiseWith | code/burrito_error.js:5-10 | an error carries its argument exactly when that argument is truthy |
| Identity.IdFromMetadata | code/metadata_store.js:15-37 | the documented rule, which the code misses at line 25 (`Identity.TwoRevisionsAccepted`): when exactly one system id has a `revision`, the answer is that id's publisher URL, entry id and revision (all null if the `idServers` lookup throws); a truthy publisher URL is only ever returned for such a document |
| Identity.PickIdentifies | code/metadata_store.js:22-33 | choosing among all system ids picks the one revisioned record's triple, and any truthy URL comes from a uniquely revisioned id |
| Identity.TwoRevisionsAccepted | code/metadata_store.js:22-31 | as written, a document with two revisioned system ids is keyed by the second when the first one's id server has no `id`, where the documented rule gives nulls |
| Identity.ScanAfterMatch | code/metadata_store.js:22-32 | once a truthy URL is found, the scan keeps it unless a later record has a revision or is not an object that `in` can inspect, either of which gives nulls |
| Identity.ScanBeforeMatch | code/metadata_store.js:22-33 | before a match, the scan over any key order equals the order-free choice over those keys, provided no revisioned id resolves to a falsy URL |
| Identity.ScanHeadThrows | code/metadata_store.js:28-36 | a revisioned record whose `idServers` entry is missing makes both readings answer nulls |
| Identity.AsWrittenAgrees | code/metadata_store.js:15-37 | for every key order, the code as written agrees with the documented rule on documents whose revisioned ids never resolve to a falsy URL |
| MetadataIndex.Init | code/fs_metadata_store.js:13-26 | an empty storage directory is refused with `StorageDirNotDefined`; otherwise the index starts empty and the metadata directory exists afterwards |
| MetadataIndex.InitEmpty | code/fs_metadata_store.js:18-25 | after construction every variant lookup is null, no publisher is listed, and the index agrees with the disk |
| MetadataIndex.SysUrlRecord | code/fs_metadata_store.js:224-232 | the publisher record is truthy exactly when the publisher is indexed |
| MetadataIndex.EntryRecord | code/fs_metadata_store.js:239-249 | the entry record is truthy exactly when the entry is indexed under its publisher |
| MetadataIndex.RevisionRecord | code/fs_metadata_store.js:257-269 | the revision record is truthy exactly when the revision is indexed |
| MetadataIndex.MkdirFresh | code/fs_metadata_store.js:295-300 | a level directory that already exists raises the level's clash error and changes nothing; otherwise exactly that directory is created |
| MetadataIndex.AddSysUrlRecord | code/fs_metadata_store.js:293-301 | the publisher is indexed with no entries, whether or not its directory can be created |
| MetadataIndex.AddEntryRecord | code/fs_metadata_store.js:308-316 | the entry is indexed with no revisions under an indexed publisher; an unindexed publisher throws and changes nothing |
| MetadataIndex.AddRevisionRecord | code/fs_metadata_store.js:324-332 | the revision is indexed with no variants under an indexed entry; a missing entry throws and changes nothing |
| MetadataIndex.UpdateIdServerRecord | code/fs_metadata_store.js:361-365 | the id-server record `idServers[identification.idServer]` is stored under its own `id`, and nothing else in the store changes |
| MetadataIndex.AddSysUrlRecordEffect | code/fs_metadata_store.js:293-301 | adding a publisher keeps every variant and level, and on success the disk still mirrors the index |
| MetadataIndex.AddEntryRecordEffect | code/fs_metadata_store.js:308-316 | adding an entry keeps every variant and level, and on success the disk still mirrors the index |
| MetadataIndex.AddRevisionRecordEffect | code/fs_metadata_store.js:324-332 | adding a revision keeps every variant and level, and on success the disk still mirrors the index |
| MetadataIndex.TouchEffect | code/metadata_store.js:65-75 | touching creates only missing levels, keeps every stored variant, ends with the revision indexed, and keeps the disk mirror |
| MetadataIndex.TouchIndexed | code/metadata_store.js:65-75 | touching an already indexed revision changes nothing |
| MetadataIndex.TouchIdempotent | code/metadata_store.js:65-75 | touching twice is touching once |
| MetadataIndex.AddVariantOutcome | code/fs_metadata_store.js:340-359 | re-adding an equal document is a no-op; re-adding a different one throws `CannotModifyExistingVariant` and changes nothing; a success stores the document |
| MetadataIndex.AddVariantFrame | code/fs_metadata_store.js:340-359 | adding a variant keeps every other stored variant and adds none but its own |
| MetadataIndex.AddVariantMirror | code/fs_metadata_store.js:346-357 | a new variant's `metadata.json` holds the serialised document under the four encoded path segments, so the disk still mirrors the index |
| MetadataIndex.IndexBeforeDiskCheck | code/fs_metadata_store.js:347-350 | when the variant directory already exists, the add throws yet the index holds the new document and the disk is untouched |
| MetadataIndex.AddEntryRevisionVariantOutcome | code/metadata_store.js:45-53 | a document without an identity is refused with `UnableToFindMetadataId` and changes nothing; a success stores the document at its key and records its id server; the key is the corrected identity `Identity.IdFromMetadata`, not the scan as written |
| MetadataIndex.AddEntryRevisionVariantFrame | code/metadata_store.js:45-53 | an add keeps every stored variant and adds at most the document's own key |
| MetadataIndex.AddEntryRevisionVariantMirror | code/metadata_store.js:45-53 | a successful add keeps the disk mirroring the index |
| MetadataIndex.ConflictingDocumentRefused | code/fs_metadata_store.js:342-345 | a different document at an occupied key is refused with `CannotModifyExistingVariant` and the store is unchanged |
| MetadataIndex.AddEntryRevisionVariantIdempotent | code/fs_metadata_store.js:340-345 | adding the same document a second time succeeds and changes nothing |
| MetadataIndex.ListingsAgree | code/fs_metadata_store.js:102-218 | each listing is null exactly when a requested level is missing; otherwise it lists exactly the next level's keys, consistently with the variant lookup |
| MetadataIndex.AddKeepsDocsTruthy | code/fs_metadata_store.js:340-359 | adding a truthy document keeps every stored document truthy, which the listings rely on |
| MetadataIndex.DetailsShowRecordedServer | code/fs_metadata_store.js:108-123 | after an import, the id-server details of the publisher are the record the document gave |
| Config.ReadConfig | code/config_reader.js:13-41 | a null or `undefined` configuration throws `TypeError`; a missing `storeClass` throws `NoStoreClassInConfig`; a rejected configuration throws `ConfigFileInvalid` with the schema errors; otherwise every standard key is copied when present and defaulted when absent |
| Config.MinimalData | code/config_reader.js:48-64 | the minimal data read off a document has the flavour it names, and an `x-` flag that holds exactly when the flavour starts with `x-` |
| Config.AcceptedAbbreviationsEach | code/config_reader.js:79-86 | when nothing throws, the accepted abbreviations are exactly those whose id-server URL is on the accepted list |
| Config.CheckOrder | code/config_reader.js:48-101 | for the id-server check as written (whole records) and as intended (`id`s) alike: missing minimal data is reported first and a rejected version next, and the document is compatible exactly when the data is present and the version, flavour and id-server checks all pass |
| Config.VersionNeedsStar | code/config_reader.js:65-67 | an accepted-version range without `*` rejects every document with `RejectedVersion` |
| Config.DefaultFlavors | code/config_reader.js:68-77 | with the default flavour list, a truthy `allowXFlavors` accepts every flavour; otherwise the flavour is accepted exactly when it is not an `x-` flavour or it or its flavour type is `*` |
| Config.ListedFlavorAccepted | code/config_reader.js:72 | a flavour on the accepted list is accepted |
| Config.ExplicitIdServers | code/config_reader.js:78-99 | comparing each record's `id`, an explicit list accepts a document exactly when one of its system-id abbreviations names a listed id server |
| Config.RecordNeverListed | code/config_reader.js:83 | as written, an id-server record object is never found on a list of URLs |
| Config.ListedServerRefusedAsWritten | code/config_reader.js:78-99 | as written, a DBL document whose id server is on the accepted list is refused, while the `id` comparison accepts it |
| Validator.SchemaValidateAsWritten | code/burrito_validator.js:22-33 | as written, the verdict does not depend on the document passed second |
| Validator.UnknownKeyAcceptedAsWritten | code/burrito_validator.js:22-33 | as written, a configuration with an unknown key reads exactly as the minimal one does |
| Validator.UnknownKeyRejected | code/config_reader.js:19-22 | a validator that checks the document refuses such a configuration with `ConfigFileInvalid` |
| Buffer.Init | code/fs_ingredient_buffer.js:14-26 | an empty storage directory is refused; otherwise the buffer starts with no handle, and the rest of the tree is kept |
| Buffer.DeleteAll | code/fs_ingredient_buffer.js:81-85 | every staged file is removed and every handle forgotten, and nothing outside the buffer changes |
| Buffer.ImportFilePath | code/fs_ingredient_buffer.js:31-38 | the import succeeds exactly when the handle directory can be created and the source file exists; it then returns the handle, maps it to the url, and stages a copy of the source bytes under it |
| Buffer.Read | code/fs_ingredient_buffer.js:48-55 | an unknown handle throws `IngredientNotInBuffer`; a known one reads its staged file |
| Buffer.Stats | code/fs_ingredient_buffer.js:57-71 | an unknown handle throws `IngredientNotInBuffer`; a known one reports its url, and the size and md5 of the staged bytes |
| Buffer.Delete | code/fs_ingredient_buffer.js:73-79 | an unknown handle is a no-op; a known one loses its handle and its staged directory |
| Buffer.FsRenameIngredient | code/fs_ingredient_buffer.js:90-94 | the staged bytes move to the destination and the handle is released; a failed move changes nothing |
| Buffer.ImportThenRead | code/fs_ingredient_buffer.js:31-71 | after an import, the handle is listed, reads back the source bytes, and has stats computed from them |
| Buffer.InitEmpties | code/fs_ingredient_buffer.js:19-25 | construction over an existing buffer discards every staged file and handle |
| Buffer.ImportKeepsStaged | code/fs_ingredient_buffer.js:31-38 | an import keeps every live handle backed by a staged file |
| Buffer.DeleteKeepsOthers | code/fs_ingredient_buffer.js:73-79 | deleting one handle leaves every other handle's content readable and unchanged |
| Buffer.DeleteAllForgets | code/fs_ingredient_buffer.js:81-85 | after deleting all, no handle is listed or readable |
| Buffer.RenameMoves | code/fs_ingredient_buffer.js:90-94 | after a move, the destination holds the staged bytes and the handle is neither listed nor readable |
| IngredientsStore.Init | code/fs_ingredients_store.js:13-22 | an empty storage directory is refused; otherwise the ingredients path exists afterwards, and no file and nothing outside the file tree changes |
| IngredientsStore.EntryIngredientChecksums | code/fs_ingredients_store.js:32-43 | the seed map has every stored ingredient url, decoded, as a key, and every stored checksum under it, with count 0, with the entry id encoded in the path (the corrected layout) |
| IngredientsStore.WriteIngredient | code/fs_ingredients_store.js:45-56 | the buffered content moves to `ingredientDir(url)/md5`, the handle is released, and no other file changes, with the entry id encoded in the path (the corrected layout) |
| IngredientsStore.ListIngredients | code/fs_ingredients_store.js:58-65 | the listing has exactly the declared ingredient urls, each true exactly when content exists at its declared checksum, with the entry id encoded in the path (the corrected layout) |
| IngredientsStore.IngredientLocation | code/fs_ingredients_store.js:73-76 | the location is `ingredientDir(url)/declared md5`, with the entry id encoded in the path (the corrected layout) |
| IngredientsStore.IngredientContent | code/fs_ingredients_store.js:67-71 | content is read from the ingredient's location, with the entry id encoded in the path (the corrected layout) |
| IngredientsStore.DeleteEntryRevision | code/fs_ingredients_store.js:82-84 | deleting a revision or a variant leaves the content untouched |
| IngredientsStore.ContentAddressed | code/fs_ingredients_store.js:28-30 | two content paths of one entry coincide only for the same url and checksum, when checksums hold no `/` |
| IngredientsStore.WrittenIsListed | code/fs_ingredients_store.js:45-65 | a written ingredient is listed as present when the metadata declares the checksum it was written under |
| IngredientsStore.EntryCollisionAsWritten | code/fs_ingredients_store.js:24-30 | as written, entry `a/b` and ingredient `b` of entry `a` have the same directory |
| IngredientsStore.DeleteCollisionAsWritten | code/fs_ingredients_store.js:78-80 | as written, deleting entry `a/b` deletes the content of ingredient `b` of entry `a` |
| IngredientsStore.EntryDirsDisjoint | code/fs_ingredients_store.js:24-30 | with the entry id encoded, no path under one entry's directory lies under another's |
| IngredientsStore.DeleteEntryKeepsOthers | code/fs_ingredients_store.js:78-80 | with the entry id encoded in the path (the corrected layout; the code as written is `IngredientsStore.DeleteCollisionAsWritten`), deleting an entry keeps every other entry's content |
| IngredientsStore.DeleteEntryRemovesOwn | code/fs_ingredients_store.js:78-80 | deleting an entry removes all of its own content |
| IngredientsStore.ChecksumsSeed | code/fs_ingredients_store.js:32-43 | every stored content file appears in the seed map under its url and checksum with count 0 |
| Uri.DecodeEncode | code/fs_ingredients_store.js:34 | decoding an encoded name gives back the name |
| Uri.EncodeInjective | code/fs_metadata_store.js:348 | distinct identifiers get distinct directory names |
| Uri.EncodeNoSlash | code/fs_ingredients_store.js:29 | an encoded name never contains `/`, so it is one path segment |
| BurritoStore.Construct | code/burrito_store.js:20-32 | the base class throws `CannotConstructDirectly`; configuration errors propagate; a `storeClass` other than the class name throws `ConfigJsonForWrongClass` |
| BurritoStore.MetadataVariant | code/burrito_store.js:476-481 | the variant is `meta.variant` when present, else `default` |
| BurritoStore.ImportFromObject | code/burrito_store.js:59-80 | the checks fail in order (`NoMetadataSupplied`, `UnableToFindMetadataId`, `ImportedMetadataNotConfigCompatible` with the reason, `ImportedMetadataNotSchemaValid` with the errors), all before any write; a success returns the key and makes the one write; the key and the compatibility test are the corrected `Identity.IdFromMetadata` and `Config.MetadataCompatible` |
| BurritoStore.ImportStores | code/burrito_store.js:59-80 | an imported document can be read back by export and by `metadataContent`, and every previously stored variant is kept |
| BurritoStore.ImportTwice | code/burrito_store.js:59-80 | importing the same document twice gives the same answer and changes nothing the second time |
| BurritoStore.ImportConflictRefused | code/burrito_store.js:77-78 | an admissible document that differs from the one stored at its key is refused with `CannotModifyExistingVariant` |
| BurritoStore.ExportToObject | code/burrito_store.js:180-186 | export returns the stored document exactly when it is truthy, else throws `VariantNotFoundInStore` |
| BurritoStore.MetadataContent | code/burrito_store.js:309-315 | the read returns the stored document exactly when it is truthy, else throws `VariantMetadataNotFound` |
| BurritoStore.LookupsFindStored | code/burrito_store.js:180-186 | when every stored document is truthy, both reads succeed exactly for stored variants |
| BurritoStore.Ingredients | code/burrito_store.js:302-305 | the listing is the ingredients store's listing for the variant's metadata, and a missing variant throws `VariantMetadataNotFound` |
| BurritoStore.IngredientContent | code/burrito_store.js:322-325 | content is read at the declared checksum's path, with the entry id encoded in the path (the corrected layout) |
| BurritoStore.IngredientOf | code/burrito_store.js:437 | a truthy answer is the metadata's record for that url |
| BurritoStore.CacheIngredient | code/burrito_store.js:379-394 | the gates fail in order (`VariantNotFound`, `IngredientNotFoundInMetadata`, `IngredientChecksumMismatch`) with no write; a success moves the buffered content to its address and releases the handle, and the metadata never changes |
| BurritoStore.TamperedContentRefused | code/burrito_store.js:388-391 | buffered content whose md5 differs from the declared checksum is refused and the store is unchanged |
| BurritoStore.CachedIsListed | code/burrito_store.js:379-394 | after caching, the ingredient is listed as present and its handle is gone |
| BurritoStore.CachedSurvivesRelease | code/burrito_store.js:392-393 | releasing a buffer handle keeps the stored content |
| BurritoStore.FsUpdate | code/metadata_store.js:148-150 | a metadata update throws `MethodNotOverriddenBySubclass` and changes nothing |
| BurritoStore.IngredientRecord | code/burrito_store.js:409-418 | the record has the checksum and size, the mime type defaulting to `application/octet-stream`, and role and scope only when given |
| BurritoStore.WithIngredient | code/burrito_store.js:419 | exactly one ingredient entry is set and everything else in the document is kept |
| BurritoStore.WithoutIngredient | code/burrito_store.js:439 | exactly the named ingredient entry is removed and everything else is kept |
| BurritoStore.AddOrUpdateIngredient | code/burrito_store.js:400-423 | a missing variant throws `VariantNotFound`; failures of the update propagate; a success stores the updated metadata and releases the handle |
| BurritoStore.DeleteIngredient | code/burrito_store.js:428-442 | a missing variant throws `VariantNotFound`; an undeclared url needs no update; a declared one is removed through the metadata update |
| BurritoStore.UpdateChangesOneIngredient | code/burrito_store.js:409-419 | the updated metadata differs from the stored one in exactly the named ingredient |
| BurritoStore.FsAddOrUpdateRefused | code/burrito_store.js:400-423 | on the file-system store, adding an ingredient to an existing variant throws `MethodNotOverriddenBySubclass` before any write |
| BurritoStore.FsDeleteIngredient | code/burrito_store.js:428-442 | on the file-system store, deleting an ingredient never changes the store, and succeeds exactly when the url is not declared |
| BurritoStore.DeleteEntry | code/burrito_store.js:460-463 | the entry's content is removed and then the missing metadata-side delete throws `TypeError`, with the entry id encoded in the path (the corrected layout) |
| BurritoStore.DeleteEntryRevision | code/burrito_store.js:465-468 | the revision delete changes nothing and throws `TypeError` |
| BurritoStore.CacheZipEntry | code/burrito_store.js:140-144 | caching a zip entry asks the buffer for the handle `undefined`, so with no such handle it throws `IngredientNotInBuffer` and changes nothing |
| BurritoStore.ImportFromZipfile | code/burrito_store.js:130-147 | the zip import first imports the archive's metadata, returns that import's failure unchanged, and otherwise returns its key after caching the declared entries |
| BurritoStore.CacheArchive | code/burrito_store.js:138-146 | caching the entries returns the imported key when it succeeds |
| BurritoStore.ZipEntriesNotBuffered | code/burrito_store.js:139-145 | the entry loop changes nothing, and fails exactly when the archive holds a declared ingredient |
| BurritoStore.ArchiveStopsAtDeclaredEntry | code/burrito_store.js:139-145 | caching an archive that holds any declared ingredient throws `IngredientNotInBuffer` and changes nothing, so the zip import fails after the metadata is stored |
| FsBurritoStore.InitializeStores | fs_burrito_store.js:20-30 | an empty storage directory is refused; otherwise the storage, metadata, ingredients and buffer directories exist and the index and buffer are empty |
| FsBurritoStore.InitializedStoreEmpty | fs_burrito_store.js:20-30 | a freshly initialised store lists no publisher, no variant can be read, and the buffer is empty |
| FsBurritoStore.IdServerName | fs_burrito_store.js:38-45 | an unrecorded id server throws `TypeError`; a recorded one gives its name in the requested language (default `en`) if it has names, else its id |
| FsBurritoStore.NameDefaultsToEnglish | fs_burrito_store.js:39 | no language and the empty language both mean `en` |
| FsBurritoStore.IngredientLocation | fs_burrito_store.js:62-65 | the location is the content path at the declared checksum, with the entry id encoded in the path (the corrected layout) |
| FsBurritoStore.ContentAtLocation | fs_burrito_store.js:62-65 | reading the reported location gives the ingredient's content |
| FsBurritoStore.ExportIngredients | fs_burrito_store.js:77-103 | the loop writes only `toPath/url` files of present ingredients and leaves every other file as it was |
| FsBurritoStore.ExportedContent | fs_burrito_store.js:77-103 | run over the listing's keys, every ingredient flagged present ends up at `toPath/url` with its stored content, unless that content is itself stored at one of the written paths |
| FsBurritoStore.WrittenListed | fs_burrito_store.js:77-85 | run over the listing's keys, the loop writes exactly `toPath/url` for the urls flagged present |
| FsBurritoStore.ExportStart | fs_burrito_store.js:72-76 | the start succeeds only for a fresh, non-empty target, which it creates with `metadata.json` holding the serialised document and nothing else |
| FsBurritoStore.ExportToDir | fs_burrito_store.js:67-104 | a missing variant throws `VariantNotFoundInStore`, an existing target throws `ExportPathAlreadyExists`, and a success is the directory creation followed by the ingredient loop over the metadata's ingredient keys in their key order |
| FsBurritoStore.WrittenBelow | fs_burrito_store.js:86-94 | for ingredient urls that are plain relative paths, every file the export writes lies below the target directory |
| FileTree.ClimbingNotPlain | fs_burrito_store.js:91-94 | a url beginning with `../` is not a plain relative path, so the confinement above does not cover it |
| FsBurritoStore.ExportWrites | fs_burrito_store.js:67-104 | for ingredient urls that are plain relative paths, after an export the target holds the metadata and every ingredient flagged present holds its stored content, and no file outside the target changes |
| XmlTree.ElementsIn | code/dbl_metadata_import.js:39-41 | every element found has the tag, and every node of the list itself that is an element with the tag is found |
| XmlTree.ElementsInExact | code/dbl_metadata_import.js:39-41 | a node is found exactly when it is an element with the tag that occurs at any depth below the list |
| XmlTree.ElementsInConcat | code/dbl_metadata_import.js:39-41 | elements are found in document order |
| XmlTree.ChildElementByName | code/dbl_metadata_import.js:30-37 | the answer is null exactly when no descendant has the tag, else an element with the tag |
| XmlTree.TextOf | code/dbl_metadata_import.js:122 | reading an element's text throws `TypeError` exactly when it has no child node |
| XmlTree.ParseIntRoundTrip | code/dbl_metadata_import.js:714 | `parseInt` reads back the decimal notation of every integer |
| DblRecipe.RecipeKeepsOrder | code/dbl_metadata_import.js:808-835 | the recipe of consecutive node lists is the concatenation of their recipes |
| DblRecipe.TextIgnored | code/dbl_metadata_import.js:812-813 | inserting a non-element node anywhere leaves the recipe unchanged |
| DblRecipe.RecipeRoundTrip | code/dbl_metadata_import.js:808-835 | every recipe is built from some element tree |
| DblImport.Lookup | code/dbl_metadata_import.js:43-114 | a listed key maps to its table value and any other input is returned unchanged |
| DblImport.LookupSettles | code/dbl_metadata_import.js:43-114 | looking up twice in a table whose values are not keys is looking up once |
| DblImport.TablesSettled | code/dbl_metadata_import.js:43-114 | no table maps to one of its own keys, so all five lookups settle |
| DblImport.Namelike | code/dbl_metadata_import.js:116-132 | a name-like field is set, and non-empty, exactly when the element or its `Local` variant exists |
| DblImport.VersionTwoIsParseInt | code/dbl_metadata_import.js:138 | the version test is `parseInt` of the first character being 2 |
| DblImport.RootDoc | code/dbl_metadata_import.js:140-168 | the root document has variant `source`, the `dbl` id server, and the root's id and revision as its system id |
| DblImport.ProcessRoot | code/dbl_metadata_import.js:134-169 | failures are assertion errors; it succeeds exactly for a `DBLMetadata` root with id, revision and a version starting with 2 |
| DblImport.FlavorDetails | code/dbl_metadata_import.js:338-362 | an unknown medium throws exactly when the flavour is not one of the five known; a text translation defaults `projectType` to `standard` |
| DblImport.ProcessType | code/dbl_metadata_import.js:314-375 | failures of the type and medium elements propagate; an unknown flavour throws `Unknown medium`; a success keeps everything else, sets `type` to the flavour with its details (a text translation defaulting `projectType` to `standard`), and sets `confidentiality` to private exactly when the `isConfidential` text is `true` |
| DblImport.ProcessTypeIdempotent | code/dbl_metadata_import.js:327-375 | reading the `type` element into its own result changes nothing more |
| DblImport.NormaliseUrl | code/dbl_metadata_import.js:284-288 | a url starting with `http://`, `https://` or `ftp://` is unchanged, and any other url gets exactly `http://` in front |
| DblImport.Existing | code/dbl_metadata_import.js:274-281 | an agency's id is `dbl::` followed by its uid |
| DblImport.Uids | code/dbl_metadata_import.js:270-272 | the uids are read exactly when every agency element has a readable uid, and the i-th is the uid text of the i-th element |
| DblImport.Merge | code/dbl_metadata_import.js:282-306 | merging keeps the agency's id and appends this occurrence's roles; the url becomes the normalised text of the first `url` element when there is one and is kept otherwise; a name found replaces the old one, and an abbreviation found (looked for only when an `abbr` element exists) replaces the old one |
| DblImport.AgencyStep | code/dbl_metadata_import.js:271-307 | one agency element adds or updates exactly its uid's agency, whose roles accumulate, and leaves all others |
| DblImport.AgencySteps | code/dbl_metadata_import.js:270-308 | the agencies afterwards are exactly those seen before plus those of the elements |
| DblImport.AgencyLookup | code/dbl_metadata_import.js:259-310 | the lookup has exactly one agency per uid found among rights holders, contributors and rights admins |
| DblImport.ProcessAgencies | code/dbl_metadata_import.js:259-312 | no `agencies` element throws `TypeError`; otherwise `agencies` lists one agency per uid, and nothing else changes |
| DblImport.AgencyListIds | code/dbl_metadata_import.js:311 | the agency list has exactly one entry per uid |
| DblImport.ManifestIngredients | code/dbl_metadata_import.js:703-718 | the ingredients are exactly the manifest uris other than `source/source.zip`, each with the record of its last resource |
| DblImport.ProcessManifest | code/dbl_metadata_import.js:699-720 | a missing manifest is an assertion error; otherwise `ingredients` is replaced by the manifest's ingredients |
| DblImport.ManifestSize | code/dbl_metadata_import.js:714 | an ingredient's size is the integer its resource's `size` attribute writes |
| DblImport.RoleScope | code/dbl_metadata_import.js:744-747 | a book role scopes its first three characters, with no part exactly when the role is three characters long |
| DblImport.RoleStep | code/dbl_metadata_import.js:740-755 | a content element changes at most its own ingredient and adds exactly its book to the scope |
| DblImport.RoleSteps | code/dbl_metadata_import.js:738-756 | the scope found is exactly the books the contents name for declared ingredients |
| DblImport.PublicationRoles | code/dbl_metadata_import.js:734-757 | across publications, the scope found is exactly the books their structures name |
| DblImport.BookCodes | code/dbl_metadata_import.js:759-771 | a publication without canonical content throws `AssertionError`; otherwise the fallback scope is exactly the set of `code` attributes of the canonical books of all publications |
| DblImport.CurrentScope | code/dbl_metadata_import.js:758-772 | the scope found is used when non-empty, else the canonical book codes |
| DblImport.RecipeSpec | code/dbl_metadata_import.js:780-804 | a recipe spec has the publication's id, identification, and the recipe of its structure |
| DblImport.RecipeSpecs | code/dbl_metadata_import.js:779-805 | there is one recipe spec per publication, in order |
| DblImport.WithScope | code/dbl_metadata_import.js:773 | the current scope is set on `flavorType`, a `TypeError` if there is none |
| DblImport.ScopePublications | code/dbl_metadata_import.js:728-773 | only `type` and the ingredients' roles and scopes change, and the current scope is the scope found, or else the canonical books |
| DblImport.ProcessPublications | code/dbl_metadata_import.js:722-806 | a missing `publications` element is an assertion error; otherwise the scoped document gains the recipe specs |
| DblImport.BookRoleScoped | code/dbl_metadata_import.js:742-754 | a declared ingredient with a book role gets a scope, and its book joins the current scope |
| DblImport.OtherRoleKept | code/dbl_metadata_import.js:749-751 | a declared ingredient with any other role keeps it as `role`, and the scope is unchanged |
| DblImport.RoleScopeRoundTrip | code/dbl_metadata_import.js:744-747 | a three-character book, with or without a part after a separator, is recovered from the scope |
| DblImport.DateCreated | code/dbl_metadata_import.js:636-640 | a non-string date throws `TypeError`; a date with `+` is kept as it is, and any other date gets exactly `+00:00` appended |
| DblImport.DateCreatedIdempotent | code/dbl_metadata_import.js:636-640 | normalising a date twice is normalising it once |
| DblImport.ProcessArchiveStatus | code/dbl_metadata_import.js:627-644 | no `archiveStatus` throws `AssertionError`; otherwise only `meta` changes: the generator's `userName` is the archivist's name text, `dateCreated` is the normalised `dateUpdated` text, `comments` is a list holding just the comment text, and every other field is kept |
| DblImport.ArchiveStatusIdempotent | code/dbl_metadata_import.js:627-644 | reading the archive status into its own result changes nothing more |
| DblImport.PromotionNeverRuns | code/dbl_metadata_import.js:24-26 | before the promotion test the variant is always `source`, so the promotion step never runs |
| DblImport.ConvertedEntry | code/dbl_metadata_import.js:7-28 | a converted document is a `source` variant whose creation date carries a time-zone offset |
| Sb01Import.BuildMeta | code/sb01_import.js:26-37 | the meta block is a `source` variant of version `0.2.0` whose one comment is the snapshot's comment, and the conversion throws exactly when reading `snapshot.comments` throws |
| Sb01Import.FirstKey | code/sb01_import.js:40 | the first key throws only for an `undefined` or null id-server value, names a key of the object, and exists when the object has keys |
| Sb01Import.FirstValue | code/sb01_import.js:41 | the first value is the value of the first key |
| Sb01Import.BuildIdServersAsWritten | code/sb01_import.js:39-47 | as written, the one id server is always named `idServerKey` |
| Sb01Import.BuildIdServers | code/sb01_import.js:39-47 | with the computed key (the code as written always uses the literal key `idServerKey`, `Sb01Import.BuildIdServersAsWritten`): the one id server is named by the first 0.1 key and has the first 0.1 value as its id |
| Sb01Import.CopyPresent | code/sb01_import.js:54-60 | exactly the listed fields the 0.1 identification has are copied, with their values |
| Sb01Import.BuildIdentification | code/sb01_import.js:49-61 | the identification is the first id-server key plus exactly the present name, abbreviation, description and system id |
| Sb01Import.BuildLanguages | code/sb01_import.js:63-69 | the languages are the one entry of the tag and name of `languages[0]`: the first element of an array, or the property `"0"` of an object |
| Sb01Import.ObjectLanguagesRead | code/sb01_import.js:62-69 | a `languages` object whose property `"0"` is French converts to the one language `fr`, French |
| Sb01Import.Convert | code/sb01_import.js:7-24 | with the corrected id-server key, a converted document has exactly meta, id servers, identification and languages |
| Sb01Import.ConvertAsWritten | code/sb01_import.js:7-24 | as written, a converted document has exactly meta, id servers, identification and languages |
| Sb01Import.ConvertParts | code/sb01_import.js:7-69 | a converted document's meta, id servers, identification and languages are what the four builders give, in either id-server version |
| Sb01Import.ConvertedNamedAsWritten | code/sb01_import.js:39-53 | as written, a converted document's `identification.idServer` names one of its `idServers` exactly when the 0.1 key is literally `idServerKey` |
| Sb01Import.ConvertedNamed | code/sb01_import.js:39-53 | with the corrected key, a converted document whose 0.1 id server has a key names one of its own id servers, whose id is the first 0.1 value |
| Sb01Import.IdServerNamedAsWritten | code/sb01_import.js:39-53 | as written, `identification.idServer` names one of the new `idServers` exactly when the 0.1 key is literally `idServerKey` |
| Sb01Import.EbibleServerMissingAsWritten | code/sb01_import.js:39-53 | as written, a 0.1 document with id server `ebible` converts to one naming an id server it does not define |
| Sb01Import.IdServerNamedCorrected | code/sb01_import.js:39-53 | with the computed key, `identification.idServer` always names an id server whose id is the first 0.1 value |
| Sb01Import.DefaultLanguageIsTag | code/sb01_import.js:63-71 | the default language is the tag of the one language, and the variant is `source` |

## Left out

- I/O details of `fs-extra`: file errors other than `ENOENT`, `EEXIST` and `EISDIR` are folded into those three, and file metadata such as `birthtime` is dropped.
- `FSMetadataStore.loadEntries` (code/fs_metadata_store.js:30-98): this asynchronous rebuild of the index from disk is not modelled.
- MetadataIndex.Init: the index always starts empty, even over an existing metadata directory, because that rebuild is asynchronous.
- `__idServerEntriesLatestRevision` (code/fs_metadata_store.js:145-172): its `reduce` callback returns a boolean and it calls `Date` without `new`, so "latest" has no definite meaning.
- Listings return key sets, not arrays, because the order of `Object.keys` is not modelled there.
- `importFromDir`, `importFromDblDir`, `importBundleIngredient`, `__metadataFromBundlePath` and `__metadataFromDblBundlePath` are left out. They read bundle files through `path.join`, which this model does not include.
- Zip archives (AdmZip): `importFromZipfile` takes the parsed `metadata.json` and the entry names as parameters. `importFromDblZipfile` and `exportToZipfile` are left out.
- `importJSBuffer` is an empty stub. Its `undefined` result is the handle the zip import then asks about (`BurritoStore.CacheZipEntry`).
- The `MethodNotYetImplemented` stubs and the abstract base-class methods have no behaviour to model.
- `FSMetadataStore` defines no `__updateVariantMetadata` or `__deleteEntry*`. The inherited update throws (`BurritoStore.FsUpdate`), and a missing delete is a `TypeError` (`BurritoStore.DeleteEntry`).
- `AddOrUpdateIngredient` and `DeleteIngredient` take the metadata update as a parameter.
- The JSON-schema engine (Ajv), the md5 digest, `semver.satisfies`, `JSON.stringify` and uuid generation are parameters.
- BurritoStore.CacheIngredient: the checksum comparison is JavaScript's loose `!=`, modelled on strings, numbers, booleans and null. Objects compare by reference and count as unequal.
- BurritoStore.IngredientRecord: a property whose value is `undefined` is absent from the record, which is what serialising it would give.
- FsBurritoStore.ExportToDir: the ingredient order (the key order of `Object.entries`) is a parameter, required to list the metadata's ingredient keys once each. `path.join` and `path.dirname` are plain `/` concatenation and the parent path.
- FsBurritoStore.WrittenBelow: the confinement is promised only for plain relative ingredient urls. `path.join` resolves `..`, and nothing in the store checks imported urls, so an ingredient url `../x` is written beside the target directory.
- FsBurritoStore.ExportWrites: "no file outside the target changes" is promised only for plain relative ingredient urls, for the reason given for `WrittenBelow`.
- MetadataIndex.AddEntryRevisionVariant: the key comes from the corrected `Identity.IdFromMetadata`, not from the scan as written (`Identity.IdFromMetadataAsWritten`). A document with two revisioned system ids is refused where the code would store it under the later one (`Identity.TwoRevisionsAccepted`).
- MetadataIndex.AddEntryRevisionVariantOutcome: states the outcome of that corrected keying, for the reason given for `AddEntryRevisionVariant`.
- BurritoStore.ImportFromObject: admission uses the corrected `Identity.IdFromMetadata` and `Config.MetadataCompatible`. The code as written would store a document with two revisioned system ids, and would refuse a DBL-shaped document under an explicit accepted id-server list (`Config.ListedServerRefusedAsWritten`).
- IngredientsStore.EntryDir: content paths encode the entry id, as the corrected layout does. The code as written leaves it raw (`IngredientsStore.EntryDirAsWritten`), so for an entry id that `encodeURIComponent` changes, every path below differs from the code's.
- IngredientsStore.EntryIngredientChecksums: reads the entry directory of the corrected layout, for the reason given for `EntryDir`.
- IngredientsStore.WriteIngredient: writes under the entry directory of the corrected layout, for the reason given for `EntryDir`.
- IngredientsStore.ListIngredients: tests existence under the entry directory of the corrected layout, for the reason given for `EntryDir`. An `ingredients` value that is an array lists as empty, where the code throws a `TypeError` reading `checksum` of its first element.
- IngredientsStore.IngredientLocation: returns the path of the corrected layout, for the reason given for `EntryDir`.
- IngredientsStore.IngredientContent: reads at the path of the corrected layout, for the reason given for `EntryDir`.
- BurritoStore.IngredientContent: reads at the path of the corrected layout, for the reason given for `EntryDir`.
- BurritoStore.DeleteEntry: removes the entry directory of the corrected layout, for the reason given for `EntryDir`.
- FsBurritoStore.IngredientLocation: reports the path of the corrected layout, for the reason given for `EntryDir`.
- Sb01Import.Convert: builds the id servers with the computed key. The code as written is `Sb01Import.ConvertAsWritten`, whose only id server is always keyed `idServerKey`.
- Config.IdServersAccepted: arrays have no own keys in this model, so an `idServers` array is refused, where the code lists its index `"0"` and may accept it.
- Js.ObjectEntries: `Object.keys`, `Object.entries` and the `in` operator treat an array as having no own keys. The code sees its indices `"0"`, `"1"`, … as keys.
- Property reads on strings and arrays (`"abc"[0]`, `[].length`) read as `undefined`. `Object.keys` of a string is taken as empty.
- The `in` operator does not see properties inherited from `Object.prototype` (such as `"toString" in {}`).
- Strings are sequences of Unicode scalar values, where JavaScript strings are sequences of UTF-16 code units. A lone surrogate (an ingredient url parsed from `"\ud800"`, say) cannot be represented, so `Uri.Encode` never fails where `encodeURIComponent` throws `URIError`.
- DblImport.RoleScope: `substring` and `length` count UTF-16 code units and the model counts scalar values, so a role whose part holds a character outside the Basic Multilingual Plane (`GEN😀`) gets a different part.
- Numbers are integers. `parseInt` returning `NaN` is held as `null`, which is what serialising it would give.
- DblImport.ProcessAgencies: agencies are listed in order of first appearance. `Object.values` would list integer-like uids first.
- The DBL steps `processLanguage`, `processIdentification`, `processRelationships`, `processCountries`, `processFormat` (and its four format handlers), `processNames` and `processCopyright` are left out. The language the DBL document declares is the parameter `local`.
- DblImport.Convert: because those steps are left out, it does not model the exceptions they can throw.
- `processPromotion` is never reached: `DblImport.PromotionNeverRuns` proves that the variant is always `source`.
- XML parsing (xmldom) and `XMLSerializer` are left out. The element tree stands for the parsed document, and other node kinds are text nodes.
- The Express application, the build scripts and the schema files are left out.

## Findings

| source | as written | input that shows it | evidently intended | confidence | as-written member | corrected member |
|---|---|---|---|---|---|---|
| code/burrito_validator.js:22-33 | `schemaValidate(data)` takes one argument, but callers pass a schema name and a document, so the name is validated and the document never is | the configuration `{"storeClass": "FSBurritoStore", "foo": "baa"}` reads exactly like `{"storeClass": "FSBurritoStore"}` | validate the document against the named schema | high (not executed) | Validator.UnknownKeyAcceptedAsWritten | Validator.UnknownKeyRejected |
| code/metadata_store.js:25 | a second revisioned system id is refused only when the publisher URL found so far is truthy | system ids `a` and `b`, both with a revision, where `idServers.a` has no `id`: the document is keyed by `b` | refuse any document with more than one revisioned system id | medium (not executed) | Identity.TwoRevisionsAccepted | Identity.IdFromMetadata |
| code/config_reader.js:83 | the accepted id-server list is searched for the whole record `idServers[abbr]` rather than its `id` | `acceptedIdServers: ["https://thedigitalbiblelibrary.org"]` and a document whose `idServers.dbl.id` is that URL: rejected with `NoAcceptableId` | compare `idServers[abbr].id` | high (not executed) | Config.ListedServerRefusedAsWritten | Config.ExplicitIdServers |
| code/fs_ingredients_store.js:25 | `entryDir` does not percent-encode the entry id | deleting entry `a/b` removes the content of ingredient `b` of entry `a` under the same publisher | encode the entry id, as every other level is | medium (not executed) | IngredientsStore.DeleteCollisionAsWritten | IngredientsStore.DeleteEntryKeepsOthers |
| code/sb01_import.js:42-46 | the object literal key `idServerKey` is a literal name, not the variable | a 0.1 document with `idServer: {"ebible": "https://ebible.org"}` converts to `idServers: {"idServerKey": …}` with `identification.idServer: "ebible"` | a computed key `[idServerKey]` | high (not executed) | Sb01Import.EbibleServerMissingAsWritten | Sb01Import.IdServerNamedCorrected |

=== FILE: buffer.dfy ===
/**
 * The file-system ingredient buffer: a staging area where ingredient
 * content waits, under a fresh handle, before it moves into the ingredients
 * store. The handle map `uuidUrls` records each live handle's ingredient
 * url; the content of handle `h` for url `u` sits in
 * `sDir/buffer/h/encodeURIComponent(u)`.
 *
 * Fresh handles (uuid v4 strings) are a parameter of `ImportFilePath`.
 */
module Buffer {

  import opened Wrappers
  import opened JsonValue
  import opened Errors
  import opened FileTree
  import opened Uri
  import opened StoreState

  function BufferDir(sDir: string): string { sDir + "/buffer" }
  function HandleDir(sDir: string, h: string): string { BufferDir(sDir) + "/" + h }
  function StagedPath(sDir: string, h: string, url: string): string { HandleDir(sDir, h) + "/" + Encode(url) }

  /** The staged file of a live handle. */
  function StagedFile(s: Store, h: string): string
    requires h in s.uuidUrls
  {
    StagedPath(s.sDir, h, s.uuidUrls[h])
  }

  /** Every live handle is a single path segment whose content is staged. */
  ghost predicate Staged(s: Store) {
    forall h | h in s.uuidUrls :: '/' !in h && StagedFile(s, h) in s.fs.files
  }

  // ---------------------------------------------------------------------
  // Operations

  /** `deleteAll`: empties the buffer directory and forgets every handle. */
  function DeleteAll(s: Store): (st: Step<()>)
    ensures st.state.urls == s.urls && st.state.idServers == s.idServers && st.state.sDir == s.sDir
    ensures st.result.Success? <==> Mkdir(Remove(s.fs, BufferDir(s.sDir)), BufferDir(s.sDir)).Success?
    ensures st.result.Success? ==> st.state.uuidUrls == map[] && BufferDir(s.sDir) in st.state.fs.dirs
    ensures forall q | q in st.state.fs.files :: !Under(BufferDir(s.sDir), q)
    ensures forall q | q in s.fs.files && !Under(BufferDir(s.sDir), q) ::
              q in st.state.fs.files && st.state.fs.files[q] == s.fs.files[q]
    ensures forall q | q in s.fs.dirs && !Under(BufferDir(s.sDir), q) :: q in st.state.fs.dirs
  {
    var fs1 := Remove(s.fs, BufferDir(s.sDir));
    match Mkdir(fs1, BufferDir(s.sDir))
    case Failure(err) => Step(s.(fs := fs1), Failure(err))
    case Success(fs2) => Step(s.(fs := fs2, uuidUrls := map[]), Success(()))
  }

  /** The constructor: an empty storage directory is refused; an existing buffer directory is emptied. */
  function Init(s: Store): (st: Step<()>)
    ensures s.sDir == "" ==> st == Failed(s, StorageDirNotDefined)
    ensures st.state.urls == s.urls && st.state.idServers == s.idServers && st.state.sDir == s.sDir
    ensures st.result.Success? ==> st.state.uuidUrls == map[] && BufferDir(s.sDir) in st.state.fs.dirs
    ensures forall q | q in s.fs.dirs && !Under(BufferDir(s.sDir), q) :: q in st.state.fs.dirs
    ensures forall q | q in s.fs.files && !Under(BufferDir(s.sDir), q) :: q in st.state.fs.files
  {
    if s.sDir == "" then Failed(s, StorageDirNotDefined)
    else
      var s0 := s.(uuidUrls := map[]);
      if !Exists(s0.fs, BufferDir(s.sDir)) then
        match Mkdir(s0.fs, BufferDir(s.sDir))
        case Failure(err) => Step(s0, Failure(err))
        case Success(fs) => Step(s0.(fs := fs), Success(()))
      else DeleteAll(s0)
  }

  /** `importFilePath`: stages a copy of the file at `src` under the fresh handle `h`. */
  function ImportFilePath(s: Store, h: string, url: string, src: string): (st: Step<string>)
    ensures st.state.urls == s.urls && st.state.idServers == s.idServers && st.state.sDir == s.sDir
    ensures st.result.Success? <==>
              && Mkdir(s.fs, HandleDir(s.sDir, h)).Success?
              && src in s.fs.files
              && StagedPath(s.sDir, h, url) !in s.fs.dirs
    ensures st.result.Success? ==>
              && st.result.value == h
              && st.state.uuidUrls == s.uuidUrls[h := url]
              && st.state.fs == Fs(s.fs.dirs + {HandleDir(s.sDir, h)}, s.fs.files[StagedPath(s.sDir, h, url) := s.fs.files[src]])
    ensures st.result.Failure? ==> st.state.uuidUrls == s.uuidUrls
  {
    var dir := HandleDir(s.sDir, h);
    match Mkdir(s.fs, dir)
    case Failure(err) => Step(s, Failure(err))
    case Success(fs1) =>
      EncodeNoSlash(url);
      ParentOfJoin(dir, Encode(url));
      match CopyFile(fs1, src, StagedPath(s.sDir, h, url))
      case Failure(err) => Step(s.(fs := fs1), Failure(err))
      case Success(fs2) => Step(s.(fs := fs2, uuidUrls := s.uuidUrls[h := url]), Success(h))
  }

  /** `list`: the live handles. */
  function List(s: Store): set<string> {
    s.uuidUrls.Keys
  }

  /** `read`: the staged content of a live handle. */
  function Read(s: Store, h: string): (r: Res<Bytes>)
    ensures h !in s.uuidUrls ==> r == Fail(IngredientNotInBuffer)
    ensures h in s.uuidUrls ==> r == ReadFile(s.fs, StagedFile(s, h))
  {
    if h !in s.uuidUrls then Fail(IngredientNotInBuffer)
    else ReadFile(s.fs, StagedFile(s, h))
  }

  /** The stats record of staged content: handle, url, size and md5 (the file's birth time is left out). */
  function StatsRecord(h: string, url: string, content: Bytes, md5: Bytes -> string): Json {
    JObj(map["id" := JStr(h), "url" := JStr(url), "size" := JNum(|content|),
             "checksum" := Obj1("md5", JStr(md5(content)))])
  }

  /** `stats`: what the staged file of a live handle measures. */
  function Stats(s: Store, h: string, md5: Bytes -> string): (r: Res<Json>)
    ensures h !in s.uuidUrls ==> r == Fail(IngredientNotInBuffer)
    ensures r.Success? <==> Read(s, h).Success?
    ensures r.Success? ==> r.value == StatsRecord(h, s.uuidUrls[h], Read(s, h).value, md5)
  {
    var content :- Read(s, h);
    Success(StatsRecord(h, s.uuidUrls[h], content, md5))
  }

  /** `delete`: forgets a live handle and removes its directory; an unknown handle is ignored. */
  function Delete(s: Store, h: string): (t: Store)
    ensures h !in s.uuidUrls ==> t == s
    ensures t.uuidUrls == s.uuidUrls - {h}
    ensures t.urls == s.urls && t.idServers == s.idServers && t.sDir == s.sDir
    ensures h in s.uuidUrls ==> t.fs == Remove(s.fs, HandleDir(s.sDir, h))
  {
    if h in s.uuidUrls then s.(fs := Remove(s.fs, HandleDir(s.sDir, h)), uuidUrls := s.uuidUrls - {h})
    else s
  }

  /**
   * `fsRenameIngredient`: moves the staged content to `dest` and forgets the
   * handle. The staged path of an unknown handle names the url "undefined".
   */
  function FsRenameIngredient(s: Store, h: string, dest: string): (st: Step<()>)
    ensures st.state.urls == s.urls && st.state.idServers == s.idServers && st.state.sDir == s.sDir
    ensures st.result.Failure? ==> st.state == s
    ensures h in s.uuidUrls ==>
              (st.result.Success? <==> StagedFile(s, h) in s.fs.files && WriteFile(s.fs, dest, s.fs.files[StagedFile(s, h)]).Success?)
    ensures st.result.Success? ==> st.state.uuidUrls == s.uuidUrls - {h} && dest in st.state.fs.files
    ensures h in s.uuidUrls && st.result.Success? ==>
              && st.state.fs.dirs == s.fs.dirs
              && st.state.fs.files == (s.fs.files - {StagedFile(s, h)})[dest := s.fs.files[StagedFile(s, h)]]
  {
    var url := if h in s.uuidUrls then s.uuidUrls[h] else "undefined";
    match Rename(s.fs, StagedPath(s.sDir, h, url), dest)
    case Failure(err) => Step(s, Failure(err))
    case Success(fs) => Step(s.(fs := fs, uuidUrls := s.uuidUrls - {h}), Success(()))
  }

  // ---------------------------------------------------------------------
  // Properties

  /** Staged content reads back as the imported file, and its stats measure that content. */
  lemma ImportThenRead(s: Store, h: string, url: string, src: string, md5: Bytes -> string)
    requires ImportFilePath(s, h, url, src).result.Success?
    ensures var t := ImportFilePath(s, h, url, src).state;
            && List(t) == List(s) + {h}
            && Read(t, h) == Success(s.fs.files[src])
            && Stats(t, h, md5) == Success(StatsRecord(h, url, s.fs.files[src], md5))
  {
  }

  /** Construction over a well-formed tree leaves no staged content and no handle. */
  lemma InitEmpties(s: Store, h: string)
    requires Wf(s.fs)
    requires Init(s).result.Success?
    ensures var t := Init(s).state;
            && List(t) == {} && Read(t, h) == Fail(IngredientNotInBuffer)
            && forall q | q in t.fs.files :: !Under(BufferDir(s.sDir), q)
  {
    if !Exists(s.fs, BufferDir(s.sDir)) {
      forall q | q in s.fs.files && Under(BufferDir(s.sDir), q)
        ensures false
      {
        NothingBelowMissing(s.fs, BufferDir(s.sDir), q);
      }
    }
  }

  /** A handle that imports well keeps the buffer staged. */
  lemma ImportKeepsStaged(s: Store, h: string, url: string, src: string)
    requires Staged(s) && '/' !in h
    ensures Staged(ImportFilePath(s, h, url, src).state)
  {
  }

  /** Deleting a handle leaves every other handle's content in place. */
  lemma DeleteKeepsOthers(s: Store, h: string)
    requires Staged(s)
    ensures var t := Delete(s, h);
            && Staged(t)
            && forall h2 | h2 in t.uuidUrls :: Read(t, h2) == Read(s, h2)
  {
    if h in s.uuidUrls {
      var t := Delete(s, h);
      forall h2 | h2 in t.uuidUrls
        ensures StagedFile(t, h2) in t.fs.files && t.fs.files[StagedFile(t, h2)] == s.fs.files[StagedFile(s, h2)]
      {
        var rest := "/" + Encode(s.uuidUrls[h2]);
        assert StagedFile(s, h2) == BufferDir(s.sDir) + "/" + h2 + rest;
        if Under(HandleDir(s.sDir, h), StagedFile(s, h2)) {
          UnderSegment(BufferDir(s.sDir), h, h2, rest);
        }
      }
    }
  }

  /** After `deleteAll` (or a fresh start), nothing is listed, nothing can be read and nothing is staged. */
  lemma DeleteAllForgets(s: Store, h: string)
    requires DeleteAll(s).result.Success?
    ensures var t := DeleteAll(s).state;
            List(t) == {} && Read(t, h) == Fail(IngredientNotInBuffer) && Staged(t)
  {
  }

  /** A rename moves exactly the staged bytes to the destination and drops the handle from the listing. */
  lemma RenameMoves(s: Store, h: string, dest: string)
    requires h in s.uuidUrls
    requires FsRenameIngredient(s, h, dest).result.Success?
    ensures var t := FsRenameIngredient(s, h, dest).state;
            && List(t) == List(s) - {h}
            && dest in t.fs.files && t.fs.files[dest] == s.fs.files[StagedFile(s, h)]
            && Read(t, h) == Fail(IngredientNotInBuffer)
  {
  }
}

=== FILE: burrito_store.dfy ===
/**
 * The store's public operations, shared by every storage back end: the
 * constructor's class check, importing a document (with its admission
 * checks), caching and adding ingredients, the lookups, and the zip import
 * loop. The metadata store's `__updateVariantMetadata` is a parameter
 * `update`: the file-system store does not override the abstract method,
 * whose only behaviour is to throw (see `FsUpdate`).
 */
module BurritoStore {

  import opened Wrappers
  import opened JsonValue
  import opened Errors
  import opened Js
  import opened FileTree
  import opened StoreState
  import opened Config
  import opened Identity
  import MetadataIndex
  import IngredientsStore
  import Buffer

  // ---------------------------------------------------------------------
  // Construction

  /** The class being constructed: the abstract base or the file-system store. */
  datatype StoreClass = AbstractStore | FileSystemStore

  function ClassName(c: StoreClass): string {
    match c
    case AbstractStore => "BurritoStore"
    case FileSystemStore => "FSBurritoStore"
  }

  /**
   * The constructor: the base class cannot be constructed, the configuration
   * must read, and it must name the class being constructed.
   */
  function Construct(target: StoreClass, configJson: Value, validate: (string, Json) -> Report): (r: Res<Config>)
    ensures target == AbstractStore ==> r == Fail(CannotConstructDirectly)
    ensures target != AbstractStore && ReadConfig(configJson, validate).Failure? ==> r == ReadConfig(configJson, validate)
    ensures r.Success? <==>
              && target != AbstractStore
              && ReadConfig(configJson, validate).Success?
              && ReadConfig(configJson, validate).value.storeClass == JStr(ClassName(target))
    ensures r.Failure? && target != AbstractStore && ReadConfig(configJson, validate).Success? ==>
              r == Fail(ConfigJsonForWrongClass)
    ensures r.Success? ==> r == ReadConfig(configJson, validate)
  {
    if target == AbstractStore then Fail(CannotConstructDirectly)
    else
      var cfg :- ReadConfig(configJson, validate);
      if cfg.storeClass != JStr(ClassName(target)) then Fail(ConfigJsonForWrongClass)
      else Success(cfg)
  }

  // ---------------------------------------------------------------------
  // Importing metadata

  /** What a successful import returns: the document's identity and its variant. */
  datatype Imported = Imported(sysUrl: Value, entryId: Value, revision: Value, variant: Value)

  /** `_metadataVariant`: `meta.variant` when `meta` has that key, else "default". */
  function MetadataVariant(metadata: Value): (r: Res<Value>)
    ensures r.Failure? <==>
              Get(metadata, "meta").Failure? || HasProperty(Get(metadata, "meta").value, "variant").Failure?
    ensures r.Success? && Field(Field(metadata, "meta"), "variant").Some? ==>
              r.value == Field(Field(metadata, "meta"), "variant")
    ensures r.Success? && Field(Field(metadata, "meta"), "variant").None? ==> r.value == Str("default")
  {
    var meta :- Get(metadata, "meta");
    var has :- HasProperty(meta, "variant");
    if has then Get(meta, "variant") else Success(Str("default"))
  }

  /** The checks `importFromObject` makes before it writes anything. */
  predicate Admissible(cfg: Config, env: Env, metadata: Value) {
    && metadata.Some?
    && Truthy(metadata)
    && Truthy(IdFromMetadata(metadata).sysUrl)
    && MetadataCompatible(cfg, metadata.value, env.satisfies) == Success(Compatible)
    && env.validate("metadata", metadata.value).Accepted?
  }

  /**
   * `importFromObject`: refuses a missing document, one without an identity,
   * one the configuration does not accept and one the schema rejects, in
   * that order, and only then adds the document under its identity and
   * variant.
   */
  function ImportFromObject(s: Store, cfg: Config, env: Env, metadata: Value): (st: Step<Imported>)
    ensures !Truthy(metadata) ==> st == Failed(s, NoMetadataSupplied)
    ensures Truthy(metadata) && !Truthy(IdFromMetadata(metadata).sysUrl) ==> st == Failed(s, UnableToFindMetadataId)
    ensures Truthy(metadata) && Truthy(IdFromMetadata(metadata).sysUrl) ==>
              match MetadataCompatible(cfg, metadata.value, env.satisfies)
              case Failure(err) => st == Step(s, Failure(err))
              case Success(Incompatible(reason, _)) =>
                st == Step(s, Failure(RaiseWith(ImportedMetadataNotConfigCompatible, Str(reason))))
              case Success(Compatible) =>
                env.validate("metadata", metadata.value).Rejected? ==>
                  st == Step(s, Failure(RaiseWith(ImportedMetadataNotSchemaValid,
                                                  env.validate("metadata", metadata.value).schemaErrors)))
    ensures !Admissible(cfg, env, metadata) ==> st.state == s && st.result.Failure?
    ensures st.result.Success? ==>
              && Admissible(cfg, env, metadata)
              && MetadataVariant(metadata).Success?
              && var id := IdFromMetadata(metadata);
              && st.result.value == Imported(id.sysUrl, id.entryId, id.revision, MetadataVariant(metadata).value)
              && st.state == MetadataIndex.AddEntryRevisionVariant(s, metadata.value, MetadataVariant(metadata).value, env.stringify).state
  {
    if !Truthy(metadata) then Failed(s, NoMetadataSupplied)
    else
      var id := IdFromMetadata(metadata);
      if !Truthy(id.sysUrl) then Failed(s, UnableToFindMetadataId)
      else match MetadataCompatible(cfg, metadata.value, env.satisfies)
        case Failure(err) => Step(s, Failure(err))
        case Success(Incompatible(reason, _)) =>
          Step(s, Failure(RaiseWith(ImportedMetadataNotConfigCompatible, Str(reason))))
        case Success(Compatible) =>
          match env.validate("metadata", metadata.value)
          case Rejected(errors) => Step(s, Failure(RaiseWith(ImportedMetadataNotSchemaValid, errors)))
          case Accepted =>
            match MetadataVariant(metadata)
            case Failure(err) => Step(s, Failure(err))
            case Success(variant) =>
              var st1 := MetadataIndex.AddEntryRevisionVariant(s, metadata.value, variant, env.stringify);
              match st1.result
              case Failure(err) => Step(st1.state, Failure(err))
              case Success(_) => Step(st1.state, Success(Imported(id.sysUrl, id.entryId, id.revision, variant)))
  }

  /** The index key of an import's result. */
  function KeyOfImported(ids: Imported): MetadataIndex.VariantKey {
    MetadataIndex.VariantKey(ToStr(ids.sysUrl), ToStr(ids.entryId), ToStr(ids.revision), ToStr(ids.variant))
  }

  /**
   * A successful import stores the document under the key it returns, where
   * both lookups find it, keeps every document stored before, and leaves
   * the buffer alone.
   */
  lemma ImportStores(s: Store, cfg: Config, env: Env, metadata: Value)
    requires ImportFromObject(s, cfg, env, metadata).result.Success?
    ensures var st := ImportFromObject(s, cfg, env, metadata);
            var k := KeyOfImported(st.result.value);
            && MetadataIndex.VariantMetadata(st.state, k.url, k.entry, k.revision, k.variant) == metadata
            && ExportToObject(st.state, k.url, k.entry, k.revision, k.variant) == Success(metadata.value)
            && MetadataContent(st.state, k.url, k.entry, k.revision, k.variant) == Success(metadata.value)
            && st.state.uuidUrls == s.uuidUrls
            && forall u, e, r, v | HasVariant(s, u, e, r, v) ::
                 HasVariant(st.state, u, e, r, v) && st.state.urls[u][e][r][v] == s.urls[u][e][r][v]
  {
    var variant := MetadataVariant(metadata).value;
    MetadataIndex.AddEntryRevisionVariantOutcome(s, metadata.value, variant, env.stringify);
    MetadataIndex.AddEntryRevisionVariantFrame(s, metadata.value, variant, env.stringify);
  }

  /** Importing the same document again succeeds, returns the same identity and changes nothing. */
  lemma ImportTwice(s: Store, cfg: Config, env: Env, metadata: Value)
    requires ImportFromObject(s, cfg, env, metadata).result.Success?
    ensures var st := ImportFromObject(s, cfg, env, metadata);
            ImportFromObject(st.state, cfg, env, metadata) == st
  {
    var variant := MetadataVariant(metadata).value;
    MetadataIndex.AddEntryRevisionVariantIdempotent(s, metadata.value, variant, env.stringify);
  }

  /** A different document that claims a stored identity is refused after all checks pass, and nothing changes. */
  lemma ImportConflictRefused(s: Store, cfg: Config, env: Env, metadata: Value)
    requires Admissible(cfg, env, metadata) && MetadataVariant(metadata).Success?
    requires var k := MetadataIndex.KeyOf(metadata.value, MetadataVariant(metadata).value).value;
             HasVariant(s, k.url, k.entry, k.revision, k.variant) && s.urls[k.url][k.entry][k.revision][k.variant] != metadata.value
    ensures ImportFromObject(s, cfg, env, metadata) == Failed(s, CannotModifyExistingVariant)
  {
    MetadataIndex.ConflictingDocumentRefused(s, metadata.value, MetadataVariant(metadata).value, env.stringify);
  }

  // ---------------------------------------------------------------------
  // Lookups

  /** `exportToObject`: the stored document, or `VariantNotFoundInStore`. */
  function ExportToObject(s: Store, u: string, e: string, r: string, v: string): (res: Res<Json>)
    ensures res.Success? <==> Truthy(MetadataIndex.VariantMetadata(s, u, e, r, v))
    ensures res.Success? ==> HasVariant(s, u, e, r, v) && res.value == s.urls[u][e][r][v]
    ensures res.Failure? ==> res == Fail(VariantNotFoundInStore)
  {
    var md := MetadataIndex.VariantMetadata(s, u, e, r, v);
    if Truthy(md) then Success(md.value) else Fail(VariantNotFoundInStore)
  }

  /** `metadataContent`: the stored document, or `VariantMetadataNotFound`. */
  function MetadataContent(s: Store, u: string, e: string, r: string, v: string): (res: Res<Json>)
    ensures res.Success? <==> Truthy(MetadataIndex.VariantMetadata(s, u, e, r, v))
    ensures res.Success? ==> HasVariant(s, u, e, r, v) && res.value == s.urls[u][e][r][v]
    ensures res.Failure? ==> res == Fail(VariantMetadataNotFound)
  {
    var md := MetadataIndex.VariantMetadata(s, u, e, r, v);
    if Truthy(md) then Success(md.value) else Fail(VariantMetadataNotFound)
  }

  /** In a store whose documents are all truthy, both lookups find exactly the stored variants. */
  lemma LookupsFindStored(s: Store, u: string, e: string, r: string, v: string)
    requires MetadataIndex.DocsTruthy(s)
    ensures ExportToObject(s, u, e, r, v).Success? <==> HasVariant(s, u, e, r, v)
    ensures MetadataContent(s, u, e, r, v).Success? <==> HasVariant(s, u, e, r, v)
  {
  }

  /** `ingredients`: each declared ingredient url with whether its content is stored. */
  function Ingredients(s: Store, u: string, e: string, r: string, v: string): (res: Res<map<string, bool>>)
    ensures MetadataContent(s, u, e, r, v).Failure? ==> res == Fail(VariantMetadataNotFound)
    ensures res.Success? ==>
              && HasVariant(s, u, e, r, v)
              && res == IngredientsStore.ListIngredients(s, u, e, Some(s.urls[u][e][r][v]))
  {
    var md :- MetadataContent(s, u, e, r, v);
    IngredientsStore.ListIngredients(s, u, e, Some(md))
  }

  /** `ingredientContent`: the stored content of an ingredient at its declared checksum. */
  function IngredientContent(s: Store, u: string, e: string, r: string, v: string, url: string): (res: Res<Bytes>)
    ensures res.Success? ==>
              var md := MetadataIndex.VariantMetadata(s, u, e, r, v);
              && IngredientsStore.DeclaredMd5(md, url).Success?
              && var p := IngredientsStore.ContentPath(s.sDir, u, e, url, ToStr(IngredientsStore.DeclaredMd5(md, url).value));
              && p in s.fs.files && res.value == s.fs.files[p]
  {
    IngredientsStore.IngredientContent(s, u, e, url, MetadataIndex.VariantMetadata(s, u, e, r, v))
  }

  // ---------------------------------------------------------------------
  // Caching an ingredient the metadata declares

  /** `metadata.ingredients[url]`: a declared ingredient is truthy only when the ingredients are an object holding the url. */
  function IngredientOf(metadata: Value, url: string): (r: Res<Value>)
    ensures r.Success? && Truthy(r.value) ==>
              && Field(metadata, "ingredients").Some?
              && Field(metadata, "ingredients").value.JObj?
              && url in Field(metadata, "ingredients").value.fields
              && r.value == Some(Field(metadata, "ingredients").value.fields[url])
  {
    var ingredients :- Get(metadata, "ingredients");
    Get(ingredients, url)
  }

  /** `metadata.ingredients[stats.url]` */
  function DeclaredIngredient(metadata: Value, stats: Json): Res<Value> {
    var ingredients :- Get(metadata, "ingredients");
    var url :- Get(Some(stats), "url");
    Get(ingredients, ToStr(url))
  }

  /** `declared.checksum.md5 != stats.checksum.md5`, inverted. */
  function ChecksumsAgree(declared: Value, stats: Json): Res<bool> {
    var expected :- IngredientsStore.Md5Of(declared);
    var actual :- IngredientsStore.Md5Of(Some(stats));
    Success(LooseEquals(expected, actual))
  }

  /** The gates `cacheIngredient` passes before it writes: the variant, the declared ingredient, the checksum. */
  predicate CacheAdmits(s: Store, u: string, e: string, r: string, v: string, stats: Json) {
    var metadata := MetadataIndex.VariantMetadata(s, u, e, r, v);
    && Truthy(metadata)
    && DeclaredIngredient(metadata, stats).Success?
    && Truthy(DeclaredIngredient(metadata, stats).value)
    && ChecksumsAgree(DeclaredIngredient(metadata, stats).value, stats) == Success(true)
  }

  /**
   * `cacheIngredient`: moves buffered content into the ingredients store
   * once the variant exists, declares the ingredient, and declares the md5
   * the buffer measured; it then releases the buffer handle. Metadata is
   * never changed.
   */
  function CacheIngredient(s: Store, u: string, e: string, r: string, v: string, stats: Json): (st: Step<()>)
    ensures !Truthy(MetadataIndex.VariantMetadata(s, u, e, r, v)) ==> st == Failed(s, VariantNotFound)
    ensures Truthy(MetadataIndex.VariantMetadata(s, u, e, r, v))
            && DeclaredIngredient(MetadataIndex.VariantMetadata(s, u, e, r, v), stats).Success?
            && !Truthy(DeclaredIngredient(MetadataIndex.VariantMetadata(s, u, e, r, v), stats).value)
            ==> st == Failed(s, IngredientNotFoundInMetadata)
    ensures Truthy(MetadataIndex.VariantMetadata(s, u, e, r, v))
            && DeclaredIngredient(MetadataIndex.VariantMetadata(s, u, e, r, v), stats).Success?
            && Truthy(DeclaredIngredient(MetadataIndex.VariantMetadata(s, u, e, r, v), stats).value)
            && ChecksumsAgree(DeclaredIngredient(MetadataIndex.VariantMetadata(s, u, e, r, v), stats).value, stats) == Success(false)
            ==> st == Failed(s, IngredientChecksumMismatch)
    ensures !CacheAdmits(s, u, e, r, v, stats) ==> st.state == s && st.result.Failure?
    ensures st.state.urls == s.urls && st.state.idServers == s.idServers && st.state.sDir == s.sDir
    ensures st.result.Success? ==>
              var h := ToStr(Field(Some(stats), "id"));
              && CacheAdmits(s, u, e, r, v, stats)
              && st.state.uuidUrls == s.uuidUrls - {h}
              && (h in s.uuidUrls ==>
                    var dest := IngredientsStore.ContentPath(s.sDir, u, e, ToStr(Field(Some(stats), "url")),
                                                             ToStr(IngredientsStore.Md5Of(Some(stats)).value));
                    && Buffer.StagedFile(s, h) in s.fs.files
                    && dest in st.state.fs.files
                    && st.state.fs.files[dest] == s.fs.files[Buffer.StagedFile(s, h)])
  {
    var metadata := MetadataIndex.VariantMetadata(s, u, e, r, v);
    if !Truthy(metadata) then Failed(s, VariantNotFound)
    else match DeclaredIngredient(metadata, stats)
      case Failure(err) => Step(s, Failure(err))
      case Success(ingredient) =>
        if !Truthy(ingredient) then Failed(s, IngredientNotFoundInMetadata)
        else match ChecksumsAgree(ingredient, stats)
          case Failure(err) => Step(s, Failure(err))
          case Success(agree) =>
            if !agree then Failed(s, IngredientChecksumMismatch)
            else
              var st1 := IngredientsStore.WriteIngredient(s, u, e, stats);
              if st1.result.Failure? then st1
              else Step(Buffer.Delete(st1.state, ToStr(Field(Some(stats), "id"))), Success(()))
  }

  /**
   * The checksum gate: buffered content whose measured md5 is not the md5
   * the metadata declares for its url is refused, and nothing changes.
   */
  lemma TamperedContentRefused(s: Store, u: string, e: string, r: string, v: string, h: string, md5: Bytes -> string, declared: string)
    requires h in s.uuidUrls && Buffer.Read(s, h).Success?
    requires var metadata := MetadataIndex.VariantMetadata(s, u, e, r, v);
             && Truthy(metadata)
             && IngredientOf(metadata, s.uuidUrls[h]).Success?
             && Truthy(IngredientOf(metadata, s.uuidUrls[h]).value)
             && IngredientsStore.DeclaredMd5(metadata, s.uuidUrls[h]) == Success(Str(declared))
    requires declared != md5(Buffer.Read(s, h).value)
    ensures CacheIngredient(s, u, e, r, v, Buffer.Stats(s, h, md5).value) == Failed(s, IngredientChecksumMismatch)
  {
    var stats := Buffer.Stats(s, h, md5).value;
    var metadata := MetadataIndex.VariantMetadata(s, u, e, r, v);
    var url := s.uuidUrls[h];
    assert Field(Some(stats), "url") == Str(url);
    assert ToStr(Str(url)) == url;
    assert DeclaredIngredient(metadata, stats) == IngredientOf(metadata, url);
    assert IngredientsStore.Md5Of(Some(stats)) == Success(Str(md5(Buffer.Read(s, h).value)));
    assert IngredientsStore.Md5Of(IngredientOf(metadata, url).value) == Success(Str(declared));
    assert ChecksumsAgree(DeclaredIngredient(metadata, stats).value, stats) == Success(false);
  }

  /**
   * Content that passes the gate is listed as present afterwards: the
   * variant's ingredient listing flags its url, and the buffer handle is gone.
   */
  lemma CachedIsListed(s: Store, u: string, e: string, r: string, v: string, stats: Json, url: string, md5: string)
    requires CacheIngredient(s, u, e, r, v, stats).result.Success?
    requires Field(Some(stats), "url") == Str(url)
    requires IngredientsStore.Md5Of(Some(stats)) == Success(Str(md5))
    requires Ingredients(CacheIngredient(s, u, e, r, v, stats).state, u, e, r, v).Success?
    ensures var t := CacheIngredient(s, u, e, r, v, stats).state;
            && url in Ingredients(t, u, e, r, v).value
            && Ingredients(t, u, e, r, v).value[url]
            && ToStr(Field(Some(stats), "id")) !in Buffer.List(t)
  {
    var metadata := MetadataIndex.VariantMetadata(s, u, e, r, v);
    var st1 := IngredientsStore.WriteIngredient(s, u, e, stats);
    var h := ToStr(Field(Some(stats), "id"));
    var t := Buffer.Delete(st1.state, h);
    assert CacheIngredient(s, u, e, r, v, stats) == Step(t, Success(()));
    assert CacheAdmits(s, u, e, r, v, stats);
    AdmittedDeclares(metadata, stats, url, md5);
    assert MetadataIndex.VariantMetadata(t, u, e, r, v) == metadata;
    var dest := IngredientsStore.ContentPath(s.sDir, u, e, url, md5);
    assert ToStr(Str(url)) == url && ToStr(Str(md5)) == md5;
    assert dest in st1.state.fs.files;
    if h in st1.state.uuidUrls {
      CachedSurvivesRelease(st1.state, h, u, e, url, md5);
    }
    ListedWhenStored(t, u, e, r, v, url, md5);
  }

  /** Content that passed the gate is declared: its url is an ingredient whose md5 is the measured one. */
  lemma AdmittedDeclares(metadata: Value, stats: Json, url: string, md5: string)
    requires DeclaredIngredient(metadata, stats).Success? && Truthy(DeclaredIngredient(metadata, stats).value)
    requires ChecksumsAgree(DeclaredIngredient(metadata, stats).value, stats) == Success(true)
    requires Field(Some(stats), "url") == Str(url)
    requires IngredientsStore.Md5Of(Some(stats)) == Success(Str(md5))
    ensures Field(metadata, "ingredients").Some? && Field(metadata, "ingredients").value.JObj?
    ensures url in Field(metadata, "ingredients").value.fields
    ensures IngredientsStore.DeclaredMd5(metadata, url) == Success(Str(md5))
  {
    assert ToStr(Str(url)) == url;
    assert DeclaredIngredient(metadata, stats) == IngredientOf(metadata, url);
  }

  /** A declared ingredient whose content sits at its declared md5 is listed as present. */
  lemma ListedWhenStored(t: Store, u: string, e: string, r: string, v: string, url: string, md5: string)
    requires Ingredients(t, u, e, r, v).Success?
    requires var metadata := MetadataIndex.VariantMetadata(t, u, e, r, v);
             && Field(metadata, "ingredients").Some? && Field(metadata, "ingredients").value.JObj?
             && url in Field(metadata, "ingredients").value.fields
             && IngredientsStore.DeclaredMd5(metadata, url) == Success(Str(md5))
    requires IngredientsStore.ContentPath(t.sDir, u, e, url, md5) in t.fs.files
    ensures url in Ingredients(t, u, e, r, v).value && Ingredients(t, u, e, r, v).value[url]
  {
    assert ToStr(Str(md5)) == md5;
  }

  /** Releasing a buffer handle leaves the ingredients store's content in place. */
  lemma CachedSurvivesRelease(s: Store, h: string, u: string, e: string, url: string, md5: string)
    requires h in s.uuidUrls
    requires IngredientsStore.ContentPath(s.sDir, u, e, url, md5) in s.fs.files
    ensures IngredientsStore.ContentPath(s.sDir, u, e, url, md5) in Buffer.Delete(s, h).fs.files
  {
    var p := IngredientsStore.ContentPath(s.sDir, u, e, url, md5);
    var hd := Buffer.HandleDir(s.sDir, h);
    var n := |s.sDir|;
    assert p[n + 1] == 'i';
    assert hd[n + 1] == 'b';
    assert !Under(hd, p) by {
      if p != hd && |hd| + 1 <= |p| {
        assert p[..|hd| + 1][n + 1] == p[n + 1];
        assert (hd + "/")[n + 1] == hd[n + 1];
      }
    }
  }

  // ---------------------------------------------------------------------
  // Adding, updating and removing declared ingredients

  /** `__updateVariantMetadata` of the file-system metadata store: the abstract method, which throws. */
  function FsUpdate(s: Store, k: MetadataIndex.VariantKey, metadata: Json): (st: Step<()>)
    ensures st == Failed(s, MethodNotOverriddenBySubclass)
  {
    Failed(s, MethodNotOverriddenBySubclass)
  }

  /** `fields` with `k` set to `x` when `x` is defined, else without `k`. */
  function With(fields: map<string, Json>, k: string, x: Value): (r: map<string, Json>)
    ensures forall k2 | k2 != k :: (k2 in r <==> k2 in fields) && (k2 in r ==> r[k2] == fields[k2])
    ensures Field(Some(JObj(r)), k) == x
  {
    if x.Some? then fields[k := x.value] else fields - {k}
  }

  /**
   * The ingredient record built from buffer stats: its checksum and size,
   * its mime type or "application/octet-stream", and its role and scope
   * only when the stats have them. A property of `undefined` is left out of
   * the record, as it is when the record is serialised.
   */
  function IngredientRecord(stats: Json): (r: Res<Json>)
    ensures r.Success? <==> stats.JObj? || stats.JArr?
    ensures r.Success? ==>
              && r.value.JObj?
              && var rec := Some(r.value);
              && var sv := Some(stats);
              && Field(rec, "checksum") == Field(sv, "checksum")
              && Field(rec, "size") == Field(sv, "size")
              && (Truthy(Field(sv, "mimeType")) ==> Field(rec, "mimeType") == Field(sv, "mimeType"))
              && (!Truthy(Field(sv, "mimeType")) ==> Field(rec, "mimeType") == Str("application/octet-stream"))
              && Field(rec, "role") == Field(sv, "role")
              && Field(rec, "scope") == Field(sv, "scope")
              && r.value.fields.Keys <= {"checksum", "size", "mimeType", "role", "scope"}
  {
    var sv := Some(stats);
    var hasRole :- HasProperty(sv, "role");
    var hasScope :- HasProperty(sv, "scope");
    var mimeType := if Truthy(Field(sv, "mimeType")) then Field(sv, "mimeType").value else JStr("application/octet-stream");
    var base := With(With(map["mimeType" := mimeType], "checksum", Field(sv, "checksum")), "size", Field(sv, "size"));
    var withRole := if hasRole then With(base, "role", Field(sv, "role")) else base;
    var fields := if hasScope then With(withRole, "scope", Field(sv, "scope")) else withRole;
    RecordFields(sv, mimeType, base, withRole, fields);
    Success(JObj(fields))
  }

  /** The record's fields, one `With` at a time: each later step keeps what the earlier ones set. */
  lemma RecordFields(sv: Value, mimeType: Json, base: map<string, Json>, withRole: map<string, Json>,
                     fields: map<string, Json>)
    requires sv.Some? && (sv.value.JObj? || sv.value.JArr?)
    requires base == With(With(map["mimeType" := mimeType], "checksum", Field(sv, "checksum")), "size", Field(sv, "size"))
    requires withRole == if sv.value.JObj? && "role" in sv.value.fields then With(base, "role", Field(sv, "role")) else base
    requires fields == if sv.value.JObj? && "scope" in sv.value.fields then With(withRole, "scope", Field(sv, "scope")) else withRole
    ensures var rec := Some(JObj(fields));
            && Field(rec, "checksum") == Field(sv, "checksum")
            && Field(rec, "size") == Field(sv, "size")
            && Field(rec, "mimeType") == Some(mimeType)
            && Field(rec, "role") == Field(sv, "role")
            && Field(rec, "scope") == Field(sv, "scope")
            && fields.Keys <= {"checksum", "size", "mimeType", "role", "scope"}
  {
    assert base.Keys <= {"checksum", "size", "mimeType"};
    assert "role" !in base && "scope" !in base;
    assert withRole.Keys <= {"checksum", "size", "mimeType", "role"};
    assert "scope" !in withRole;
  }

  /** `metadata.ingredients[url] = record` on a copy of the metadata. */
  function WithIngredient(metadata: Json, url: string, record: Json): (r: Res<Json>)
    ensures r.Success? <==> Field(Some(metadata), "ingredients").Some? && Field(Some(metadata), "ingredients").value.JObj?
    ensures r.Success? ==>
              && r.value.JObj?
              && var before := Field(Some(metadata), "ingredients");
              && var after := Field(Some(r.value), "ingredients");
              && after.Some? && after.value.JObj?
              && after.value.fields.Keys == before.value.fields.Keys + {url}
              && Field(after, url) == Some(record)
              && (forall k | k != url :: Field(after, k) == Field(before, k))
              && (forall k | k != "ingredients" :: Field(Some(r.value), k) == Field(Some(metadata), k))
  {
    var ingredients :- SetProp(Field(Some(metadata), "ingredients"), url, record);
    Success(JObj(metadata.fields["ingredients" := ingredients]))
  }

  /** `delete metadata.ingredients[url]` on a copy of the metadata. */
  function WithoutIngredient(metadata: Json, url: string): (r: Json)
    ensures Field(Some(metadata), "ingredients").Some? && Field(Some(metadata), "ingredients").value.JObj? ==>
              && r.JObj?
              && var before := Field(Some(metadata), "ingredients");
              && var after := Field(Some(r), "ingredients");
              && after.Some? && after.value.JObj?
              && after.value.fields.Keys == before.value.fields.Keys - {url}
              && (forall k | k != url :: Field(after, k) == Field(before, k))
              && (forall k | k != "ingredients" :: Field(Some(r), k) == Field(Some(metadata), k))
  {
    match Field(Some(metadata), "ingredients")
    case Some(JObj(m)) => JObj(metadata.fields["ingredients" := JObj(m - {url})])
    case _ => metadata
  }

  /** The document `addOrUpdateIngredient` hands to the metadata store. */
  function UpdatedMetadata(metadata: Json, stats: Json): Res<Json> {
    var record :- IngredientRecord(stats);
    WithIngredient(metadata, ToStr(Field(Some(stats), "url")), record)
  }

  /**
   * `addOrUpdateIngredient`: declares the buffered ingredient in a copy of
   * the variant's metadata, hands the copy to the metadata store, moves the
   * content into the ingredients store and releases the buffer handle.
   */
  function AddOrUpdateIngredient(s: Store, u: string, e: string, r: string, v: string, stats: Json,
                                 update: (Store, MetadataIndex.VariantKey, Json) -> Step<()>): (st: Step<()>)
    ensures !Truthy(MetadataIndex.VariantMetadata(s, u, e, r, v)) ==> st == Failed(s, VariantNotFound)
    ensures Truthy(MetadataIndex.VariantMetadata(s, u, e, r, v)) ==>
              var metadata := MetadataIndex.VariantMetadata(s, u, e, r, v).value;
              var k := MetadataIndex.VariantKey(u, e, r, v);
              && (UpdatedMetadata(metadata, stats).Failure? ==> st == Step(s, Failure(UpdatedMetadata(metadata, stats).error)))
              && (UpdatedMetadata(metadata, stats).Success? && update(s, k, UpdatedMetadata(metadata, stats).value).result.Failure? ==>
                    st == update(s, k, UpdatedMetadata(metadata, stats).value))
              && (st.result.Success? ==>
                    && UpdatedMetadata(metadata, stats).Success?
                    && var t := update(s, k, UpdatedMetadata(metadata, stats).value).state;
                    && t.uuidUrls == s.uuidUrls
                    ==> st.state.urls == t.urls && st.state.uuidUrls == s.uuidUrls - {ToStr(Field(Some(stats), "id"))})
  {
    var metadata := MetadataIndex.VariantMetadata(s, u, e, r, v);
    if !Truthy(metadata) then Failed(s, VariantNotFound)
    else match UpdatedMetadata(metadata.value, stats)
      case Failure(err) => Step(s, Failure(err))
      case Success(updated) =>
        var st1 := update(s, MetadataIndex.VariantKey(u, e, r, v), updated);
        if st1.result.Failure? then st1
        else
          var st2 := IngredientsStore.WriteIngredient(st1.state, u, e, stats);
          if st2.result.Failure? then st2
          else Step(Buffer.Delete(st2.state, ToStr(Field(Some(stats), "id"))), Success(()))
  }

  /**
   * `deleteIngredient`: removes a declared ingredient from a copy of the
   * variant's metadata and hands the copy to the metadata store; an
   * undeclared url changes nothing and updates nothing.
   */
  function DeleteIngredient(s: Store, u: string, e: string, r: string, v: string, url: string,
                            update: (Store, MetadataIndex.VariantKey, Json) -> Step<()>): (st: Step<()>)
    ensures !Truthy(MetadataIndex.VariantMetadata(s, u, e, r, v)) ==> st == Failed(s, VariantNotFound)
    ensures Truthy(MetadataIndex.VariantMetadata(s, u, e, r, v)) ==>
              var metadata := MetadataIndex.VariantMetadata(s, u, e, r, v);
              && (IngredientOf(metadata, url).Failure? ==> st == Step(s, Failure(IngredientOf(metadata, url).error)))
              && (IngredientOf(metadata, url).Success? && !Truthy(IngredientOf(metadata, url).value) ==>
                    st == Step(s, Success(())))
              && (IngredientOf(metadata, url).Success? && Truthy(IngredientOf(metadata, url).value) ==>
                    st == update(s, MetadataIndex.VariantKey(u, e, r, v), WithoutIngredient(metadata.value, url)))
  {
    var metadata := MetadataIndex.VariantMetadata(s, u, e, r, v);
    if !Truthy(metadata) then Failed(s, VariantNotFound)
    else match IngredientOf(metadata, url)
      case Failure(err) => Step(s, Failure(err))
      case Success(declared) =>
        if Truthy(declared) then update(s, MetadataIndex.VariantKey(u, e, r, v), WithoutIngredient(metadata.value, url))
        else Step(s, Success(()))
  }

  /**
   * The update `addOrUpdateIngredient` requests changes exactly one
   * declared ingredient: the one at the stats' url, set to the record built
   * from the stats, with every other ingredient and every other field of
   * the document as stored.
   */
  lemma UpdateChangesOneIngredient(s: Store, u: string, e: string, r: string, v: string, stats: Json, url: string)
    requires Truthy(MetadataIndex.VariantMetadata(s, u, e, r, v))
    requires UpdatedMetadata(MetadataIndex.VariantMetadata(s, u, e, r, v).value, stats).Success?
    requires Field(Some(stats), "url") == Str(url)
    ensures var before := MetadataIndex.VariantMetadata(s, u, e, r, v);
            var after := Some(UpdatedMetadata(before.value, stats).value);
            && Field(Field(after, "ingredients"), url) == Some(IngredientRecord(stats).value)
            && (forall k | k != url :: Field(Field(after, "ingredients"), k) == Field(Field(before, "ingredients"), k))
            && (forall k | k != "ingredients" :: Field(after, k) == Field(before, k))
  {
    assert ToStr(Str(url)) == url;
  }

  /** On the file-system store, adding an ingredient to an existing variant always ends in the abstract update's refusal, with nothing changed. */
  lemma FsAddOrUpdateRefused(s: Store, u: string, e: string, r: string, v: string, stats: Json)
    requires Truthy(MetadataIndex.VariantMetadata(s, u, e, r, v))
    requires UpdatedMetadata(MetadataIndex.VariantMetadata(s, u, e, r, v).value, stats).Success?
    ensures AddOrUpdateIngredient(s, u, e, r, v, stats, FsUpdate) == Failed(s, MethodNotOverriddenBySubclass)
  {
  }

  /** Deleting an ingredient on the file-system store: an undeclared url succeeds unchanged, a declared one is refused unchanged. */
  lemma FsDeleteIngredient(s: Store, u: string, e: string, r: string, v: string, url: string)
    requires IngredientOf(MetadataIndex.VariantMetadata(s, u, e, r, v), url).Success?
    requires Truthy(MetadataIndex.VariantMetadata(s, u, e, r, v))
    ensures var st := DeleteIngredient(s, u, e, r, v, url, FsUpdate);
            && st.state == s
            && (st.result.Success? <==> !Truthy(IngredientOf(MetadataIndex.VariantMetadata(s, u, e, r, v), url).value))
  {
  }

  // ---------------------------------------------------------------------
  // Deleting entries

  /**
   * `deleteEntry` on the file-system store: the ingredients store removes
   * the entry's content, then the call into the metadata store, which has
   * no such method, throws a `TypeError`; the index keeps the entry.
   */
  function DeleteEntry(s: Store, u: string, e: string): (st: Step<()>)
    ensures st.result == Fail(TypeError)
    ensures st.state.urls == s.urls && st.state.idServers == s.idServers && st.state.uuidUrls == s.uuidUrls
    ensures st.state.fs == Remove(s.fs, IngredientsStore.EntryDir(s.sDir, u, e))
  {
    Step(IngredientsStore.DeleteEntry(s, u, e), Fail(TypeError))
  }

  /** `deleteEntryRevision` and `deleteEntryRevisionVariant` on the file-system store: nothing is removed and a `TypeError` is thrown. */
  function DeleteEntryRevision(s: Store, u: string, e: string, r: string): (st: Step<()>)
    ensures st == Step(s, Fail(TypeError))
  {
    Step(IngredientsStore.DeleteEntryRevision(s, u, e, r), Fail(TypeError))
  }

  // ---------------------------------------------------------------------
  // Importing a zip archive

  /**
   * Caches one zip entry the metadata declares. The entry's bytes are
   * buffered through `importJSBuffer`, an empty stub that returns
   * `undefined`, so the stats are asked for the handle "undefined".
   */
  function CacheZipEntry(s: Store, ids: Imported, md5: Bytes -> string): (st: Step<()>)
    ensures "undefined" !in s.uuidUrls ==> st == Failed(s, IngredientNotInBuffer)
  {
    match Buffer.Stats(s, "undefined", md5)
    case Failure(err) => Step(s, Failure(err))
    case Success(stats) =>
      var k := KeyOfImported(ids);
      CacheIngredient(s, k.url, k.entry, k.revision, k.variant, stats)
  }

  /** The loop over the archive's entries, in archive order, caching those the metadata declares. */
  function CacheZipEntries(s: Store, ids: Imported, declared: set<string>, names: seq<string>, md5: Bytes -> string): Step<()>
    decreases |names|
  {
    if |names| == 0 then Step(s, Success(()))
    else if names[0] in declared then
      var st := CacheZipEntry(s, ids, md5);
      if st.result.Failure? then st
      else CacheZipEntries(st.state, ids, declared, names[1..], md5)
    else CacheZipEntries(s, ids, declared, names[1..], md5)
  }

  /**
   * `importFromZipfile`, given the parsed `metadata.json` of the archive and
   * the names of its entries: imports the metadata, then caches each entry
   * the metadata declares as an ingredient.
   */
  function ImportFromZipfile(s: Store, cfg: Config, env: Env, metadata: Value, names: seq<string>): (st: Step<Imported>)
    ensures ImportFromObject(s, cfg, env, metadata).result.Failure? ==> st == ImportFromObject(s, cfg, env, metadata)
    ensures st.result.Success? ==> st.result == ImportFromObject(s, cfg, env, metadata).result
    ensures var st1 := ImportFromObject(s, cfg, env, metadata);
            st1.result.Success? ==> st == CacheArchive(st1.state, st1.result.value, metadata, names, env.md5)
  {
    var st1 := ImportFromObject(s, cfg, env, metadata);
    if st1.result.Failure? then st1
    else CacheArchive(st1.state, st1.result.value, metadata, names, env.md5)
  }

  /** The part of `importFromZipfile` after the metadata is imported: the declared ingredient urls, then the loop. */
  function CacheArchive(s: Store, ids: Imported, metadata: Value, names: seq<string>, md5: Bytes -> string): (st: Step<Imported>)
    ensures st.result.Success? ==> st.result.value == ids
  {
    match Get(metadata, "ingredients")
    case Failure(err) => Step(s, Failure(err))
    case Success(ingredients) =>
      match ObjectKeys(ingredients)
      case Failure(err) => Step(s, Failure(err))
      case Success(declared) =>
        var st := CacheZipEntries(s, ids, declared, names, md5);
        match st.result
        case Failure(err) => Step(st.state, Failure(err))
        case Success(_) => Step(st.state, Success(ids))
  }

  /** Without a buffered handle named "undefined", the first declared entry stops the loop with `IngredientNotInBuffer`. */
  lemma {:induction false} ZipEntriesNotBuffered(s: Store, ids: Imported, declared: set<string>, names: seq<string>, md5: Bytes -> string)
    requires "undefined" !in s.uuidUrls
    ensures var st := CacheZipEntries(s, ids, declared, names, md5);
            && st.state == s
            && ((exists i | 0 <= i < |names| :: names[i] in declared) ==> st == Failed(s, IngredientNotInBuffer))
            && ((forall i | 0 <= i < |names| :: names[i] !in declared) ==> st.result.Success?)
    decreases |names|
  {
    if |names| > 0 && names[0] !in declared {
      ZipEntriesNotBuffered(s, ids, declared, names[1..], md5);
      if exists i | 0 <= i < |names| :: names[i] in declared {
        var i :| 0 <= i < |names| && names[i] in declared;
        assert names[1..][i - 1] == names[i];
      }
      if forall i | 0 <= i < |names| :: names[i] !in declared {
        forall i | 0 <= i < |names[1..]| ensures names[1..][i] !in declared {
          assert names[1..][i] == names[i + 1];
        }
      }
    }
  }

  /**
   * Once the metadata is imported, an archive holding an entry the metadata
   * declares as an ingredient fails with `IngredientNotInBuffer`, and the
   * store is left as the import left it.
   */
  lemma ArchiveStopsAtDeclaredEntry(s: Store, ids: Imported, metadata: Value, names: seq<string>, md5: Bytes -> string, i: nat)
    requires "undefined" !in s.uuidUrls
    requires Field(metadata, "ingredients").Some? && Field(metadata, "ingredients").value.JObj?
    requires i < |names| && names[i] in Field(metadata, "ingredients").value.fields
    ensures CacheArchive(s, ids, metadata, names, md5) == Failed(s, IngredientNotInBuffer)
  {
    var declared := Field(metadata, "ingredients").value.fields.Keys;
    assert Get(metadata, "ingredients") == Success(Field(metadata, "ingredients"));
    ZipEntriesNotBuffered(s, ids, declared, names, md5);
  }
}

=== FILE: config.dfy ===
/**
 * The store's configuration (`ConfigReader`): reading a configuration
 * document with defaults, and deciding whether a metadata document is
 * compatible with it (`metadataCompatible`). A value `"*"` means "any".
 */
module Config {

  import opened Wrappers
  import opened JsonValue
  import opened Errors
  import opened Js
  import opened StoreState

  datatype Config = Config(
    storeClass: Json,
    acceptedVersion: Json,
    acceptedFlavors: Json,
    allowXFlavors: Json,
    ownedEntryIDServers: Json,
    acceptedIdServers: Json,
    creatableDerivedVariants: Json,
    acceptedDerivedVariants: Json,
    validation: Json,
    subclassSettings: Json)

  /** The configured value when the document has the key, else the default. */
  function Setting(cfg: Json, key: string, default: Json): Json {
    if cfg.JObj? && key in cfg.fields then cfg.fields[key] else default
  }

  const Star := JStr("*")

  /**
   * The configuration a document describes: it must name a store class and
   * pass the configuration schema; every other setting falls back to its
   * default when absent.
   */
  function ReadConfig(configJson: Value, validate: (string, Json) -> Report): (r: Res<Config>)
    ensures r.Success? ==> Truthy(Field(configJson, "storeClass"))
    ensures r.Success? ==> validate("config", configJson.value).Accepted?
    ensures Nullish(configJson) ==> r == Failure(Raise(TypeError))
    ensures !Nullish(configJson) && !Truthy(Field(configJson, "storeClass")) ==> r == Failure(Raise(NoStoreClassInConfig))
    ensures Truthy(Field(configJson, "storeClass")) && validate("config", configJson.value).Rejected? ==>
              r == Failure(RaiseWith(ConfigFileInvalid, validate("config", configJson.value).schemaErrors))
    ensures r.Success? ==>
              var c := configJson.value;
              && r.value.storeClass == c.fields["storeClass"]
              && r.value.acceptedVersion == Setting(c, "acceptedVersion", Star)
              && r.value.acceptedFlavors == Setting(c, "acceptedFlavors", JArr([Star]))
              && r.value.allowXFlavors == Setting(c, "allowXFlavors", JBool(false))
              && r.value.ownedEntryIDServers == Setting(c, "ownedEntryIDServers", JArr([]))
              && r.value.acceptedIdServers == Setting(c, "acceptedIdServers", JArr([Star]))
              && r.value.creatableDerivedVariants == Setting(c, "creatableDerivedVariants", JArr([]))
              && r.value.acceptedDerivedVariants == Setting(c, "acceptedDerivedVariants", JArr([]))
              && r.value.validation == Setting(c, "validation", JStr("catalog"))
              && r.value.subclassSettings == Setting(c, "subclassSettings", JObj(map[]))
  {
    var storeClass :- Get(configJson, "storeClass");
    if !Truthy(storeClass) then Failure(Raise(NoStoreClassInConfig))
    else
      var c := configJson.value;
      match validate("config", c)
      case Rejected(errs) => Failure(RaiseWith(ConfigFileInvalid, errs))
      case Accepted =>
        Success(Config(
          storeClass.value,
          Setting(c, "acceptedVersion", Star),
          Setting(c, "acceptedFlavors", JArr([Star])),
          Setting(c, "allowXFlavors", JBool(false)),
          Setting(c, "ownedEntryIDServers", JArr([])),
          Setting(c, "acceptedIdServers", JArr([Star])),
          Setting(c, "creatableDerivedVariants", JArr([])),
          Setting(c, "acceptedDerivedVariants", JArr([])),
          Setting(c, "validation", JStr("catalog")),
          Setting(c, "subclassSettings", JObj(map[]))))
  }

  // ---------------------------------------------------------------------
  // Compatibility

  /** The compatibility report: accepted, or rejected with a reason and a message. */
  datatype Compat = Compatible | Incompatible(reason: string, message: Value)

  /** The fields every compatibility decision reads. */
  datatype Minimal = Minimal(version: Value, flavor: string, flavorType: Value, isXType: bool,
                             idServers: Value, systemIds: Value)

  /**
   * Reading the minimal data, in order; a failure names the datum being read
   * when it threw (`flavor.startsWith` throws under the `flavorType` datum
   * when the flavor is not a string).
   */
  function MinimalData(doc: Json): (r: Result<Minimal, string>)
    ensures r.Success? ==> (r.value.isXType <==> StartsWith(r.value.flavor, "x-"))
    ensures r.Success? ==> Some(JStr(r.value.flavor)) == Field(Field(Some(doc), "type"), "flavor")
  {
    var meta := Get(Some(doc), "meta");
    var version := if meta.Success? then Get(meta.value, "version") else meta;
    if version.Failure? then Failure("version")
    else
      var ty := Get(Some(doc), "type");
      var flavor := if ty.Success? then Get(ty.value, "flavor") else ty;
      if flavor.Failure? then Failure("flavor")
      else
        var flavorType := Get(ty.value, "flavorType");
        if flavorType.Failure? || !(flavor.value.Some? && flavor.value.value.JStr?) then Failure("flavorType")
        else
          var f := flavor.value.value.s;
          var idServers := Get(Some(doc), "idServers");
          var ident := Get(Some(doc), "identification");
          var systemIds := if ident.Success? then Get(ident.value, "systemId") else ident;
          if idServers.Failure? then Failure("idServers")
          else if systemIds.Failure? then Failure("systemIds")
          else Success(Minimal(version.value, f, flavorType.value, StartsWith(f, "x-"),
                               idServers.value, systemIds.value))
  }

  /** The version test: the accepted range must contain `*` and be satisfied; `includes` on a non-string, non-array setting throws. */
  function VersionAccepted(cfg: Config, version: Value, satisfies: (Value, Value) -> bool): Res<bool> {
    var star :- Includes(Some(cfg.acceptedVersion), Str("*"));
    Success(star && satisfies(version, Some(cfg.acceptedVersion)))
  }

  /** The flavor test, its five alternatives evaluated left to right as `||` does. */
  function FlavorAccepted(cfg: Config, m: Minimal): Res<bool> {
    var af := Some(cfg.acceptedFlavors);
    var star :- Includes(af, Str("*"));
    if star && !m.isXType then Success(true)
    else if !Truthy(af) && !m.isXType then Success(true)
    else
      var hasFlavor :- Includes(af, Str(m.flavor));
      if hasFlavor then Success(true)
      else
        var hasType :- Includes(af, m.flavorType);
        Success(hasType || (m.isXType && Truthy(Some(cfg.allowXFlavors))))
  }

  /**
   * How the URL of an id server is read off the document: the whole record
   * `idServers[abbr]`, as the code compares it, or its `id`.
   */
  datatype UrlReader = WholeRecord | RecordId

  function Url(url: UrlReader, idServers: Value, abbr: string): Res<Value> {
    match url
    case WholeRecord => Get(idServers, abbr)
    case RecordId => GetPath(idServers, [abbr, "id"])
  }

  /** The abbreviations whose id-server URL is on the accepted list. */
  function AcceptedAbbreviations(ais: Value, idServers: Value, abbrs: set<string>, url: UrlReader): Res<set<string>> {
    if exists a | a in abbrs :: Url(url, idServers, a).Failure? || Includes(ais, Url(url, idServers, a).value).Failure?
    then Failure(Raise(TypeError))
    else Success(set a | a in abbrs && Includes(ais, Url(url, idServers, a).value) == Success(true))
  }

  /** When no URL read and no comparison throws, the accepted abbreviations are exactly those whose URL is listed. */
  lemma AcceptedAbbreviationsEach(ais: Value, idServers: Value, abbrs: set<string>, url: UrlReader)
    requires forall a | a in abbrs :: Url(url, idServers, a).Success? && Includes(ais, Url(url, idServers, a).value).Success?
    ensures AcceptedAbbreviations(ais, idServers, abbrs, url).Success?
    ensures forall a :: a in AcceptedAbbreviations(ais, idServers, abbrs, url).value <==>
              a in abbrs && Includes(ais, Url(url, idServers, a).value) == Success(true)
  {
  }

  /**
   * The id-server test, every exception in it read as a refusal: unless the
   * accepted list is falsy or contains `*`, some system-id abbreviation must
   * name an id server whose URL is on the list.
   */
  function IdServersAccepted(cfg: Config, m: Minimal, url: UrlReader): bool {
    var ais := Some(cfg.acceptedIdServers);
    if !Truthy(ais) then true
    else
      var star := Includes(ais, Str("*"));
      if star.Failure? then false
      else if star.value then true
      else
        var abbrs := ObjectKeys(m.idServers);
        var sys := ObjectKeys(m.systemIds);
        if abbrs.Failure? || sys.Failure? then false
        else
          var accepted := AcceptedAbbreviations(ais, m.idServers, abbrs.value, url);
          accepted.Success? && exists a | a in sys.value :: a in accepted.value
  }

  /** `metadataCompatible`, parameterised by how an id server's URL is read. */
  function Compatibility(cfg: Config, doc: Json, satisfies: (Value, Value) -> bool, url: UrlReader): Res<Compat> {
    match MinimalData(doc)
    case Failure(datum) => Success(Incompatible("MissingMinimalData", Str(datum)))
    case Success(m) =>
      var versionOk :- VersionAccepted(cfg, m.version, satisfies);
      if !versionOk then
        Success(Incompatible("RejectedVersion", Str(ToStr(m.version) + "/" + ToStr(Some(cfg.acceptedVersion)))))
      else
        var flavorOk :- FlavorAccepted(cfg, m);
        if !flavorOk then Success(Incompatible("RejectedFlavor", Str(m.flavor)))
        else if !IdServersAccepted(cfg, m, url) then Success(Incompatible("NoAcceptableId", Str(m.flavor)))
        else Success(Compatible)
  }

  /** `metadataCompatible` as written: an accepted id-server list is compared with whole id-server records. */
  function MetadataCompatibleAsWritten(cfg: Config, doc: Json, satisfies: (Value, Value) -> bool): Res<Compat> {
    Compatibility(cfg, doc, satisfies, WholeRecord)
  }

  /** `metadataCompatible` with the accepted id-server list compared with each record's `id`. */
  function MetadataCompatible(cfg: Config, doc: Json, satisfies: (Value, Value) -> bool): Res<Compat> {
    Compatibility(cfg, doc, satisfies, RecordId)
  }

  // ---------------------------------------------------------------------
  // Properties

  /**
   * The tests run in a fixed order: minimal data, version, flavor, id
   * servers; the first failing one gives the reason. This holds for the
   * check as written (`WholeRecord`) and as intended (`RecordId`).
   */
  lemma CheckOrder(cfg: Config, doc: Json, satisfies: (Value, Value) -> bool, url: UrlReader)
    ensures MinimalData(doc).Failure? ==>
              Compatibility(cfg, doc, satisfies, url) == Success(Incompatible("MissingMinimalData", Str(MinimalData(doc).error)))
    ensures MinimalData(doc).Success? && VersionAccepted(cfg, MinimalData(doc).value.version, satisfies) == Success(false) ==>
              Compatibility(cfg, doc, satisfies, url).Success?
              && Compatibility(cfg, doc, satisfies, url).value.Incompatible?
              && Compatibility(cfg, doc, satisfies, url).value.reason == "RejectedVersion"
    ensures var c := Compatibility(cfg, doc, satisfies, url);
            c == Success(Compatible) <==>
              && MinimalData(doc).Success?
              && VersionAccepted(cfg, MinimalData(doc).value.version, satisfies) == Success(true)
              && FlavorAccepted(cfg, MinimalData(doc).value) == Success(true)
              && IdServersAccepted(cfg, MinimalData(doc).value, url)
    ensures url == WholeRecord ==> Compatibility(cfg, doc, satisfies, url) == MetadataCompatibleAsWritten(cfg, doc, satisfies)
    ensures url == RecordId ==> Compatibility(cfg, doc, satisfies, url) == MetadataCompatible(cfg, doc, satisfies)
  {
  }

  /** A version setting that is a string without `*` refuses every document that has the minimal data. */
  lemma VersionNeedsStar(cfg: Config, doc: Json, satisfies: (Value, Value) -> bool)
    requires cfg.acceptedVersion.JStr? && '*' !in cfg.acceptedVersion.s
    requires MinimalData(doc).Success?
    ensures MetadataCompatible(cfg, doc, satisfies).Success?
    ensures MetadataCompatible(cfg, doc, satisfies).value.Incompatible?
    ensures MetadataCompatible(cfg, doc, satisfies).value.reason == "RejectedVersion"
  {
    var s := cfg.acceptedVersion.s;
    forall i | 0 <= i <= |s| - 1
      ensures !OccursAt(s, "*", i)
    {
      assert s[i] == s[i..i + 1][0];
    }
  }

  /**
   * With the default flavor settings (`["*"]`, no x-flavors) a flavor passes
   * exactly when it is not an `x-` flavor; allowing x-flavors admits every
   * flavor.
   */
  lemma DefaultFlavors(cfg: Config, m: Minimal)
    requires cfg.acceptedFlavors == JArr([Star])
    ensures !Truthy(Some(cfg.allowXFlavors)) ==> FlavorAccepted(cfg, m) == Success(!m.isXType || m.flavor == "*" || m.flavorType == Str("*"))
    ensures Truthy(Some(cfg.allowXFlavors)) ==> FlavorAccepted(cfg, m) == Success(true)
  {
    var af := Some(cfg.acceptedFlavors);
    SingletonIncludes(Star, Str("*"));
    SingletonIncludes(Star, Str(m.flavor));
    SingletonIncludes(Star, m.flavorType);
  }

  /** `[y].includes(x)` holds exactly when `x` is the primitive `y`. */
  lemma SingletonIncludes(y: Json, x: Value)
    ensures Includes(Some(JArr([y])), x) == Success(x == Some(y) && Primitive(y))
  {
    if x == Some(y) && Primitive(y) {
      assert SameValueZero(x, [y][0]);
    }
  }

  /** Listing a flavor accepts it whatever the other settings. */
  lemma ListedFlavorAccepted(cfg: Config, m: Minimal)
    requires cfg.acceptedFlavors.JArr?
    requires JStr(m.flavor) in cfg.acceptedFlavors.items
    ensures FlavorAccepted(cfg, m) == Success(true)
  {
    var items := cfg.acceptedFlavors.items;
    var i :| 0 <= i < |items| && items[i] == JStr(m.flavor);
    assert SameValueZero(Str(m.flavor), items[i]);
  }

  /**
   * With an explicit list of id-server URLs, a document passes exactly when
   * one of its system ids is under an abbreviation whose id-server record
   * has a listed `id`.
   */
  lemma ExplicitIdServers(cfg: Config, m: Minimal, urls: seq<string>,
                          servers: map<string, Json>, sys: map<string, Json>)
    requires cfg.acceptedIdServers == JArr(seq(|urls|, i requires 0 <= i < |urls| => JStr(urls[i])))
    requires |urls| > 0 && "*" !in urls
    requires m.idServers == Some(JObj(servers)) && m.systemIds == Some(JObj(sys))
    requires forall a | a in servers :: servers[a].JObj? && "id" in servers[a].fields
    ensures IdServersAccepted(cfg, m, RecordId) <==>
              exists a | a in sys :: a in servers && servers[a].fields["id"] in cfg.acceptedIdServers.items
  {
    var ais := Some(cfg.acceptedIdServers);
    var items := cfg.acceptedIdServers.items;
    assert Truthy(ais);
    assert Includes(ais, Str("*")) == Success(false);
    assert ObjectKeys(m.idServers) == Success(servers.Keys);
    assert ObjectKeys(m.systemIds) == Success(sys.Keys);
    forall a | a in servers
      ensures Url(RecordId, m.idServers, a) == Success(Some(servers[a].fields["id"]))
      ensures Includes(ais, Some(servers[a].fields["id"])) == Success(servers[a].fields["id"] in items)
    {
      RecordUrl(servers, a);
      var id := servers[a].fields["id"];
      if id in items {
        var i :| 0 <= i < |items| && items[i] == id;
        assert SameValueZero(Some(id), items[i]);
      }
    }
    var accepted := set a | a in servers.Keys && Includes(ais, Url(RecordId, m.idServers, a).value) == Success(true);
    assert AcceptedAbbreviations(ais, m.idServers, servers.Keys, RecordId) == Success(accepted);
    assert forall a :: a in accepted <==> a in servers && servers[a].fields["id"] in items;
  }

  /** `idServers[abbr].id` read off an id-server record that has one. */
  lemma RecordUrl(servers: map<string, Json>, a: string)
    requires a in servers && servers[a].JObj? && "id" in servers[a].fields
    ensures Url(RecordId, Some(JObj(servers)), a) == Success(Some(servers[a].fields["id"]))
  {
    var path := [a, "id"];
    assert path[1..] == ["id"];
    assert path[1..][1..] == [];
    assert Get(Some(JObj(servers)), a) == Success(Some(servers[a]));
    assert GetPath(Some(servers[a]), ["id"]) == Success(Some(servers[a].fields["id"]));
  }

  /** The identifying record, as the code compares it, never matches a list of URL strings. */
  lemma RecordNeverListed(cfg: Config, m: Minimal, abbr: string)
    requires cfg.acceptedIdServers.JArr?
    requires m.idServers.Some? && m.idServers.value.JObj? && abbr in m.idServers.value.fields
    requires m.idServers.value.fields[abbr].JObj?
    ensures Includes(Some(cfg.acceptedIdServers), Url(WholeRecord, m.idServers, abbr).value) == Success(false)
  {
  }

  /**
   * With id servers shaped as the DBL converter writes them (a record with
   * an `id` per abbreviation), the comparison as written refuses a document
   * whose only id server is on the accepted list, where comparing the
   * record's `id` accepts it.
   */
  lemma ListedServerRefusedAsWritten(cfg: Config, m: Minimal)
    requires cfg.acceptedIdServers == JArr([JStr("https://thedigitalbiblelibrary.org")])
    requires m.idServers == Some(Obj1("dbl", Obj1("id", JStr("https://thedigitalbiblelibrary.org"))))
    requires m.systemIds == Some(Obj1("dbl", Obj1("id", JStr("2880c78491b2f8ce"))))
    ensures !IdServersAccepted(cfg, m, WholeRecord)
    ensures IdServersAccepted(cfg, m, RecordId)
  {
    var ais := Some(cfg.acceptedIdServers);
    var url := JStr("https://thedigitalbiblelibrary.org");
    var record := Obj1("id", url);
    assert m.idServers.value.fields.Keys == {"dbl"};
    assert ObjectKeys(m.idServers) == Success({"dbl"});
    assert m.systemIds.value.fields.Keys == {"dbl"};
    assert ObjectKeys(m.systemIds) == Success({"dbl"});
    SingletonIncludes(url, Str("*"));
    SingletonIncludes(url, Some(record));
    assert Url(WholeRecord, m.idServers, "dbl") == Success(Some(record));
    AcceptedAbbreviationsEach(ais, m.idServers, {"dbl"}, WholeRecord);
    RecordUrl(m.idServers.value.fields, "dbl");
    SingletonIncludes(url, Some(url));
    AcceptedAbbreviationsEach(ais, m.idServers, {"dbl"}, RecordId);
  }
}

=== FILE: dbl_import.dfy ===
/**
 * The DBL converter: it turns a Digital Bible Library `metadata.xml`
 * document into a Scripture Burrito metadata document. Each `Process…`
 * step adds or rewrites top-level fields of the document being built, or
 * fails as the converter's exception would: `AssertionError` for a failed
 * `assert`, `TypeError` for a read on a missing node, `UnknownMedium` for a
 * medium the converter does not know.
 *
 * `local` stands for the tag the language step derives from the entry's
 * `language/iso` element; the name-like fields use it as their second key.
 */
module DblImport {

  import opened Wrappers
  import opened JsonValue
  import opened Errors
  import opened XmlTree
  import opened DblRecipe
  import Js

  /** The Burrito document under construction, by top-level field. */
  type Doc = map<string, Json>

  // ---------------------------------------------------------------------
  // Lookup tables

  const LanguageCodes: map<string, string> := map["eng" := "en"]

  const FlavorNames: map<string, string> :=
    map["text" := "textTranslation", "audio" := "audioTranslation", "print" := "typesetScripture",
        "video" := "signLanguageVideoTranslation", "braille" := "embossedBrailleScripture"]

  const TranslationTypes: map<string, string> :=
    map["First" := "firstTranslation", "New" := "newTranslation", "Revision" := "revision"]

  const ProjectTypes: map<string, string> :=
    map["Standard" := "standard", "Daughter" := "daughter", "StudyBible" := "studyBible",
        "StudyBibleAdditions" := "studyBibleAdditions", "BackTranslation" := "backTranslation",
        "Auxillary" := "auxillary", "TransliterationManual" := "transliterationManual",
        "TransliterationWithEncoder" := "transliterationWithEncoder"]

  const Audiences: map<string, string> :=
    map["Basic" := "basic", "Common" := "common", "Common - Literary" := "common-literary",
        "Literary" := "literary", "Liturgical" := "liturgical", "Children" := "children"]

  /** The five flavours `processType` accepts. */
  const KnownFlavors: set<string> :=
    {"textTranslation", "audioTranslation", "typesetScripture", "signLanguageVideoTranslation", "embossedBrailleScripture"}

  /**
   * `bcp47ify`, `flavorName`, `translationType`, `projectType`, `audience`:
   * a value whose string form is a listed key becomes that key's entry; any
   * other value, `null` included, comes back unchanged.
   */
  function Lookup(table: map<string, string>, v: Json): (r: Json)
    ensures Js.JsonToString(v) in table ==> r == JStr(table[Js.JsonToString(v)])
    ensures Js.JsonToString(v) !in table ==> r == v
  {
    if Js.JsonToString(v) in table then JStr(table[Js.JsonToString(v)]) else v
  }

  /** No entry of the table is itself a key. */
  ghost predicate Settled(table: map<string, string>) {
    forall k | k in table :: table[k] !in table
  }

  /** A settled table normalises once and for all: looking the answer up again changes nothing. */
  lemma LookupSettles(table: map<string, string>, v: Json)
    requires Settled(table)
    ensures Lookup(table, Lookup(table, v)) == Lookup(table, v)
  {
  }

  /** All five of the converter's tables are settled, so each of its normalisations is idempotent. */
  lemma TablesSettled()
    ensures Settled(LanguageCodes) && Settled(FlavorNames) && Settled(TranslationTypes)
    ensures Settled(ProjectTypes) && Settled(Audiences)
  {
    LanguageCodesSettled();
    FlavorNamesSettled();
    TranslationTypesSettled();
    ProjectTypesSettled();
    AudiencesSettled();
  }

  lemma LanguageCodesSettled() ensures Settled(LanguageCodes) { }
  lemma FlavorNamesSettled() ensures Settled(FlavorNames) { }
  lemma TranslationTypesSettled() ensures Settled(TranslationTypes) { }
  lemma ProjectTypesSettled() ensures Settled(ProjectTypes) { }
  lemma AudiencesSettled() ensures Settled(Audiences) { }

  // ---------------------------------------------------------------------
  // Helpers over the document

  /** `doc.meta.variant`. */
  function Variant(d: Doc): Value {
    Js.Field(Js.Field(Some(JObj(d)), "meta"), "variant")
  }

  /**
   * The fields of an object-valued field `m[k]`. A property write through
   * `m[k]` throws a `TypeError` when `m[k]` is missing, `null` or a
   * primitive.
   */
  function ObjectField(m: map<string, Json>, k: string): (r: Res<map<string, Json>>)
    ensures r.Success? <==> k in m && m[k].JObj?
    ensures r.Failure? ==> r == Fail(TypeError)
    ensures r.Success? ==> r.value == m[k].fields
  {
    if k in m && m[k].JObj? then Success(m[k].fields) else Fail(TypeError)
  }

  /**
   * `addNamelike(parent, json, [field])`: the text of the first `field`
   * element under `"en"` and of the first `fieldLocal` element under the
   * local tag, or nothing when neither element exists.
   */
  function Namelike(parent: Node, field: string, local: string): (r: Res<Option<Json>>)
    ensures r.Success? && r.value.Some? ==> r.value.value.JObj? && |r.value.value.fields| > 0
    ensures r.Success? ==> (r.value.None? <==> ChildElementByName(parent, field).None? && ChildElementByName(parent, field + "Local").None?)
  {
    var en := ChildElementByName(parent, field);
    var loc := ChildElementByName(parent, field + "Local");
    var m0 :- if en.Some? then (var t :- TextOf(en.value); Success(map["en" := t.value])) else Success(map[]);
    var m1 :- if loc.Some? then (var t :- TextOf(loc.value); Success(m0[local := t.value])) else Success(m0);
    assert en.Some? ==> "en" in m0;
    assert loc.Some? ==> local in m1;
    Success(if |m1| > 0 then Some(JObj(m1)) else None)
  }

  // ---------------------------------------------------------------------
  // processRoot

  /** The root's `version` attribute names major version 2. */
  predicate VersionTwo(version: string) {
    |version| > 0 && version[0] == '2'
  }

  /** The converter's test, `parseInt` of the version's first character being 2, is `VersionTwo`. */
  lemma VersionTwoIsParseInt(version: string)
    ensures VersionTwo(version) <==> ParseInt(version[..if |version| == 0 then 0 else 1]) == JNum(2)
  {
    var head := version[..if |version| == 0 then 0 else 1];
    if |version| > 0 {
      if IsSpace(version[0]) {
        assert TrimStart(head) == "";
      } else if version[0] == '2' {
        assert TrimStart(head) == head;
        assert DigitPrefix(head, 10) == head;
        assert DigitsValue(head, 10) == DigitsValue("", 10) * 10 + 2;
      }
    }
  }

  /** The fixed id server every converted entry names. */
  const DblServer: Json :=
    JObj(map["id" := JStr("https://thedigitalbiblelibrary.org"), "name" := Obj1("en", JStr("The Digital Bible Library"))])

  /** The document `processRoot` starts: a `source` variant whose DBL system id is the entry's id and revision. */
  function RootDoc(id: string, revision: string): (d: Doc)
    ensures Variant(d) == Str("source")
    ensures Js.Field(Js.Field(Some(JObj(d)), "identification"), "idServer") == Str("dbl")
    ensures Js.Field(Js.Field(Some(JObj(d)), "idServers"), "dbl") == Some(DblServer)
    ensures Js.Field(Js.Field(Js.Field(Js.Field(Some(JObj(d)), "identification"), "systemId"), "dbl"), "id") == Str(id)
    ensures Js.Field(Js.Field(Js.Field(Js.Field(Some(JObj(d)), "identification"), "systemId"), "dbl"), "revision") == Str(revision)
  {
    var meta := JObj(map["version" := JStr("0.2.0"), "variant" := JStr("source"),
                         "generator" := JObj(map["softwareName" := JStr("DBLImport"), "softwareVersion" := JStr("0.0.0"),
                                                 "userName" := JStr("Mark Howe")]),
                         "defaultLanguage" := JStr("en")]);
    var systemId := Obj1("dbl", JObj(map["id" := JStr(id), "revision" := JStr(revision)]));
    map["meta" := meta, "idServers" := Obj1("dbl", DblServer),
        "identification" := JObj(map["systemId" := systemId, "idServer" := JStr("dbl")])]
  }

  /** `processRoot`: checks the root element, then starts the document. */
  function ProcessRoot(root: Node): (r: Res<Doc>)
    ensures r.Failure? ==> r.error == Raise(AssertionError)
    ensures r.Success? <==>
              && root.Element? && root.tag == "DBLMetadata"
              && HasAttribute(root, "id") && HasAttribute(root, "revision")
              && VersionTwo(GetAttribute(root, "version"))
    ensures r.Success? ==> r.value == RootDoc(root.attrs["id"], root.attrs["revision"])
  {
    if !(root.Element? && root.tag == "DBLMetadata") then Fail(AssertionError)
    else if !HasAttribute(root, "id") || !HasAttribute(root, "revision") then Fail(AssertionError)
    else if !VersionTwo(GetAttribute(root, "version")) then Fail(AssertionError)
    else Success(RootDoc(root.attrs["id"], root.attrs["revision"]))
  }

  // ---------------------------------------------------------------------
  // processType

  /** The flavour-specific fields of `type.flavorType.flavor`, besides its name. */
  function FlavorDetails(typeNode: Node, flavor: Json): (r: Res<map<string, Json>>)
    ensures r.Failure? && r.error.kind.UnknownMedium? <==> !(flavor.JStr? && flavor.s in KnownFlavors)
    ensures r.Success? && flavor == JStr("textTranslation") && ChildElementByName(typeNode, "projectType").None? ==>
              "projectType" in r.value && r.value["projectType"] == JStr("standard")
  {
    if flavor == JStr("textTranslation") then
      var tt :- RequiredText(ChildElementByName(typeNode, "translationType"));
      var au :- RequiredText(ChildElementByName(typeNode, "audience"));
      var pt :- match ChildElementByName(typeNode, "projectType")
                case None => Success(JStr("standard"))
                case Some(n) => (var t :- TextOf(n); Success(Lookup(ProjectTypes, t.value)));
      Success(map["usfmVersion" := JStr("3.0"), "translationType" := Lookup(TranslationTypes, tt.value),
                  "audience" := Lookup(Audiences, au.value), "projectType" := pt])
    else if flavor == JStr("audioTranslation") then
      Success(map["dramatization" := JStr("singleVoice")])
    else if flavor.JStr? && flavor.s in KnownFlavors then
      Success(map[])
    else
      Failure(Raise(UnknownMedium(Js.JsonToString(flavor))))
  }

  const WesternCanon: Json := JObj(map["ot" := Obj1("name", JStr("western")), "nt" := Obj1("name", JStr("western"))])

  /** The confidentiality record: a confidential entry is private throughout. */
  function Confidentiality(confidential: bool): Json {
    JObj(map["metadata" := JStr(if confidential then "private" else "unrestricted"),
             "source" := JStr("private"),
             "publications" := JStr(if confidential then "private" else "restricted")])
  }

  /** The flavour name `processType` derives from the `medium` element's text. */
  function FlavorOf(root: Node): Res<Json> {
    var typeNode := ChildElementByName(root, "type");
    if typeNode.None? then Fail(AssertionError)
    else
      var medium :- RequiredText(ChildElementByName(typeNode.value, "medium"));
      Success(Lookup(FlavorNames, medium.value))
  }

  /** The `type` record: scripture of the given flavour, with the western canon. */
  function TypeRecord(flavor: Json, details: map<string, Json>): (t: Json)
    ensures Js.Field(Js.Field(Js.Field(Some(t), "flavorType"), "flavor"), "name") == Some(flavor)
  {
    var flavorJson := JObj(details["name" := flavor]);
    Obj1("flavorType", JObj(map["name" := JStr("scripture"), "flavor" := flavorJson,
                                "canonType" := JArr([JStr("ot"), JStr("nt")]), "canonSpec" := WesternCanon]))
  }

  /** The flavour name a document's `type` record names. */
  function FlavorName(d: Doc): Value {
    Js.Field(Js.Field(Js.Field(Js.Field(Some(JObj(d)), "type"), "flavorType"), "flavor"), "name")
  }

  /**
   * `processType`: the `type` record (scripture, the medium's flavour with its
   * details, the western canon) and the `confidentiality` record.
   */
  function ProcessType(root: Node, d: Doc): (r: Res<Doc>)
    ensures FlavorOf(root).Failure? ==> r.Failure? && r.error == FlavorOf(root).error
    ensures FlavorOf(root).Success? && !(FlavorOf(root).value.JStr? && FlavorOf(root).value.s in KnownFlavors) ==>
              r.Failure? && r.error.kind == UnknownMedium(Js.JsonToString(FlavorOf(root).value))
    ensures r.Success? ==>
              && r.value.Keys == d.Keys + {"type", "confidentiality"}
              && (forall k | k in d && k != "type" && k != "confidentiality" :: r.value[k] == d[k])
              && FlavorOf(root).Success? && FlavorName(r.value) == Some(FlavorOf(root).value)
              && FlavorOf(root).value.JStr? && FlavorOf(root).value.s in KnownFlavors
    ensures r.Success? ==>
              var typeNode := ChildElementByName(root, "type").value;
              var flavor := FlavorOf(root).value;
              var conf := RequiredText(ChildElementByName(typeNode, "isConfidential"));
              && FlavorDetails(typeNode, flavor).Success?
              && conf.Success?
              && r.value["type"] == TypeRecord(flavor, FlavorDetails(typeNode, flavor).value)
              && r.value["confidentiality"] == Confidentiality(conf.value.value == JStr("true"))
  {
    var flavor :- FlavorOf(root);
    var typeNode := ChildElementByName(root, "type").value;
    var details :- FlavorDetails(typeNode, flavor);
    var conf :- RequiredText(ChildElementByName(typeNode, "isConfidential"));
    var t := TypeRecord(flavor, details);
    var d1 := d["type" := t]["confidentiality" := Confidentiality(conf.value == JStr("true"))];
    TypeFields(d, flavor, details, Confidentiality(conf.value == JStr("true")), d1);
    Success(d1)
  }

  /** Reading the `type` element a second time changes nothing more. */
  lemma {:induction false} ProcessTypeIdempotent(root: Node, d: Doc)
    requires ProcessType(root, d).Success?
    ensures ProcessType(root, ProcessType(root, d).value) == ProcessType(root, d)
  {
    var d1 := ProcessType(root, d).value;
    ProcessTypeSets(root, d);
    ProcessTypeSets(root, d1);
    var typeNode := ChildElementByName(root, "type").value;
    var flavor := FlavorOf(root).value;
    var t := TypeRecord(flavor, FlavorDetails(typeNode, flavor).value);
    var c := Confidentiality(RequiredText(ChildElementByName(typeNode, "isConfidential")).value.value == JStr("true"));
    SetTwice(d, "type", t, "confidentiality", c);
  }

  /** Setting two fields again to the values they already hold changes nothing. */
  lemma SetTwice(d: Doc, k1: string, v1: Json, k2: string, v2: Json)
    ensures var d1 := d[k1 := v1][k2 := v2];
            d1[k1 := v1][k2 := v2] == d1
  {
  }

  /** When the `type` element reads, `processType` sets the same two records on any document. */
  lemma ProcessTypeSets(root: Node, d: Doc)
    requires FlavorOf(root).Success? && ChildElementByName(root, "type").Some?
    requires FlavorDetails(ChildElementByName(root, "type").value, FlavorOf(root).value).Success?
    requires RequiredText(ChildElementByName(ChildElementByName(root, "type").value, "isConfidential")).Success?
    ensures var typeNode := ChildElementByName(root, "type").value;
            var flavor := FlavorOf(root).value;
            ProcessType(root, d)
              == Success(d["type" := TypeRecord(flavor, FlavorDetails(typeNode, flavor).value)]
                          ["confidentiality" := Confidentiality(RequiredText(ChildElementByName(typeNode, "isConfidential")).value.value == JStr("true"))])
  {
  }

  /** Setting `type` and `confidentiality` leaves every other field alone and names the flavour. */
  lemma TypeFields(d: Doc, flavor: Json, details: map<string, Json>, conf: Json, d1: Doc)
    requires d1 == d["type" := TypeRecord(flavor, details)]["confidentiality" := conf]
    ensures d1.Keys == d.Keys + {"type", "confidentiality"}
    ensures forall k | k in d && k != "type" && k != "confidentiality" :: d1[k] == d[k]
    ensures FlavorName(d1) == Some(flavor)
  {
    assert d1["type"] == TypeRecord(flavor, details);
  }

  // ---------------------------------------------------------------------
  // processAgencies

  predicate HasScheme(url: string) {
    Js.StartsWith(url, "http://") || Js.StartsWith(url, "https://") || Js.StartsWith(url, "ftp://")
  }

  /** An agency url keeps its `http`, `https` or `ftp` scheme, and gains `http://` when it has none. */
  function NormaliseUrl(url: string): (r: string)
    ensures HasScheme(r)
    ensures HasScheme(url) ==> r == url
    ensures !HasScheme(url) ==> r == "http://" + url
    ensures |url| <= |r| && r[|r| - |url|..] == url
  {
    if HasScheme(url) then url
    else
      assert ("http://" + url)[..7] == "http://";
      "http://" + url
  }

  /** An agency as the lookup holds it while the agency elements are read. */
  datatype Agency = Agency(id: string, roles: seq<string>, url: Option<string>, name: Option<Json>, abbr: Option<Json>)

  function AgencyJson(a: Agency): (j: Json)
    ensures j.JObj? && "id" in j.fields && j.fields["id"] == JStr(a.id)
  {
    var m0 := map["id" := JStr(a.id), "roles" := JArr(seq(|a.roles|, i requires 0 <= i < |a.roles| => JStr(a.roles[i])))];
    var m1 := if a.url.Some? then m0["url" := JStr(a.url.value)] else m0;
    var m2 := if a.name.Some? then m1["name" := a.name.value] else m1;
    JObj(if a.abbr.Some? then m2["abbr" := a.abbr.value] else m2)
  }

  /** The agency lookup: the uids in order of first appearance, and each uid's agency. */
  datatype Agencies = Agencies(order: seq<string>, byUid: map<string, Agency>)

  ghost predicate AgenciesWf(lk: Agencies) {
    && (forall i, j | 0 <= i < j < |lk.order| :: lk.order[i] != lk.order[j])
    && (forall u :: u in lk.byUid <==> u in lk.order)
    && (forall u | u in lk.byUid :: lk.byUid[u].id == "dbl::" + u)
  }

  /** The uid an agency element names: the text of its first `uid` element, in string form. */
  function Uid(agency: Node): Res<string> {
    match ChildElementByName(agency, "uid")
    case None => Fail(TypeError)
    case Some(n) => (var t :- TextOf(n); Success(Js.JsonToString(t.value)))
  }

  /** The uids of a list of agency elements, failing as the first unreadable one does. */
  function Uids(agencies: seq<Node>): (r: Res<seq<string>>)
    ensures r.Success? <==> forall i | 0 <= i < |agencies| :: Uid(agencies[i]).Success?
    ensures r.Success? ==> |r.value| == |agencies| && forall i | 0 <= i < |agencies| :: r.value[i] == Uid(agencies[i]).value
    decreases |agencies|
  {
    if |agencies| == 0 then Success([])
    else
      assert forall i | 1 <= i < |agencies| :: agencies[i] == agencies[1..][i - 1];
      var u :- Uid(agencies[0]);
      var rest :- Uids(agencies[1..]);
      Success([u] + rest)
  }

  const ContributorRoles: seq<string> := ["content", "publication", "management", "finance", "qa"]

  /** The roles one agency element adds: its kind, or for a contributor each role it has an element for. */
  function RolesOf(agency: Node, kind: string): seq<string> {
    if kind == "rightsHolder" || kind == "rightsAdmin" then [kind]
    else Present(agency, ContributorRoles)
  }

  function Present(agency: Node, roles: seq<string>): (r: seq<string>)
    ensures forall i | 0 <= i < |r| :: r[i] in roles
    decreases |roles|
  {
    if |roles| == 0 then []
    else (if |ElementsByName(agency, roles[0])| > 0 then [roles[0]] else []) + Present(agency, roles[1..])
  }

  /** The agency a uid has so far, or a fresh one with id `dbl::uid` and no roles. */
  function Existing(lk: Agencies, uid: string): (a: Agency)
    requires AgenciesWf(lk)
    ensures a.id == "dbl::" + uid
  {
    if uid in lk.byUid then lk.byUid[uid] else Agency("dbl::" + uid, [], None, None, None)
  }

  /**
   * One agency element read into an agency: its url (with a scheme), name
   * and abbreviation replace earlier ones when present, and its roles are
   * appended.
   */
  function Merge(a0: Agency, agency: Node, kind: string, local: string): (r: Res<Agency>)
    ensures r.Success? ==> r.value.id == a0.id && r.value.roles == a0.roles + RolesOf(agency, kind)
    ensures r.Success? && r.value.url.Some? ==> HasScheme(r.value.url.value) || r.value.url == a0.url
    ensures r.Success? && |ElementsByName(agency, "url")| == 0 ==> r.value.url == a0.url
    ensures r.Success? && |ElementsByName(agency, "url")| > 0 ==>
              && TextOf(ElementsByName(agency, "url")[0]).Success?
              && TextOf(ElementsByName(agency, "url")[0]).value.value.JStr?
              && r.value.url == Some(NormaliseUrl(TextOf(ElementsByName(agency, "url")[0]).value.value.s))
    ensures r.Success? ==>
              && Namelike(agency, "name", local).Success?
              && r.value.name == (if Namelike(agency, "name", local).value.Some? then Namelike(agency, "name", local).value else a0.name)
    ensures r.Success? && |ElementsByName(agency, "abbr")| == 0 ==> r.value.abbr == a0.abbr
    ensures r.Success? && |ElementsByName(agency, "abbr")| > 0 ==>
              && Namelike(agency, "abbr", local).Success?
              && r.value.abbr == (if Namelike(agency, "abbr", local).value.Some? then Namelike(agency, "abbr", local).value else a0.abbr)
  {
    var urls := ElementsByName(agency, "url");
    var url :- if |urls| == 0 then Success(a0.url)
               else (var t :- TextOf(urls[0]);
                     if t.value.JStr? then Success(Some(NormaliseUrl(t.value.s))) else Fail(TypeError));
    var name :- Namelike(agency, "name", local);
    var abbr :- if |ElementsByName(agency, "abbr")| > 0 then Namelike(agency, "abbr", local) else Success(None);
    Success(Agency(a0.id, a0.roles + RolesOf(agency, kind), url,
                   if name.Some? then name else a0.name, if abbr.Some? then abbr else a0.abbr))
  }

  /** The lookup with `uid` bound to `a`; a new uid goes to the end of the order. */
  function Insert(lk: Agencies, uid: string, a: Agency): (r: Agencies)
    requires AgenciesWf(lk) && a.id == "dbl::" + uid
    ensures AgenciesWf(r)
    ensures forall u :: u in r.byUid <==> u in lk.byUid || u == uid
    ensures r.byUid[uid] == a
    ensures forall u | u in lk.byUid && u != uid :: r.byUid[u] == lk.byUid[u]
  {
    Agencies(if uid in lk.byUid then lk.order else lk.order + [uid], lk.byUid[uid := a])
  }

  /** One agency element merged into the lookup under its uid. */
  function AgencyStep(lk: Agencies, agency: Node, kind: string, local: string): (r: Res<Agencies>)
    requires AgenciesWf(lk)
    ensures Uid(agency).Failure? ==> r.Failure?
    ensures r.Success? ==>
              && AgenciesWf(r.value)
              && (forall u :: u in r.value.byUid <==> u in lk.byUid || u == Uid(agency).value)
              && r.value.byUid[Uid(agency).value].roles == Existing(lk, Uid(agency).value).roles + RolesOf(agency, kind)
              && (forall u | u in lk.byUid && u != Uid(agency).value :: r.value.byUid[u] == lk.byUid[u])
  {
    var uid :- Uid(agency);
    var a :- Merge(Existing(lk, uid), agency, kind, local);
    Success(Insert(lk, uid, a))
  }

  /** Every agency element of one kind, in document order. */
  function AgencySteps(lk: Agencies, agencies: seq<Node>, kind: string, local: string): (r: Res<Agencies>)
    requires AgenciesWf(lk)
    ensures r.Success? ==>
              && AgenciesWf(r.value)
              && Uids(agencies).Success?
              && (forall u :: u in r.value.byUid <==> u in lk.byUid || u in Uids(agencies).value)
    decreases |agencies|
  {
    if |agencies| == 0 then Success(lk)
    else
      var lk1 :- AgencyStep(lk, agencies[0], kind, local);
      AgencySteps(lk1, agencies[1..], kind, local)
  }

  /** The uids of every rights holder, contributor and rights administrator, in that order. */
  function AllUids(ag: Node): Res<seq<string>> {
    var holders :- Uids(ElementsByName(ag, "rightsHolder"));
    var contributors :- Uids(ElementsByName(ag, "contributor"));
    var admins :- Uids(ElementsByName(ag, "rightsAdmin"));
    Success(holders + contributors + admins)
  }

  /** The lookup `processAgencies` builds: one agency per uid. */
  function AgencyLookup(ag: Node, local: string): (r: Res<Agencies>)
    ensures r.Success? ==>
              && AgenciesWf(r.value)
              && AllUids(ag).Success?
              && (forall u :: u in r.value.byUid <==> u in AllUids(ag).value)
  {
    var lk1 :- AgencySteps(Agencies([], map[]), ElementsByName(ag, "rightsHolder"), "rightsHolder", local);
    var lk2 :- AgencySteps(lk1, ElementsByName(ag, "contributor"), "contributor", local);
    AgencySteps(lk2, ElementsByName(ag, "rightsAdmin"), "rightsAdmin", local)
  }

  /** The agencies' records, listed in order of first appearance. */
  function AgencyList(lk: Agencies): Json
    requires AgenciesWf(lk)
  {
    JArr(seq(|lk.order|, i requires 0 <= i < |lk.order| => AgencyJson(lk.byUid[lk.order[i]])))
  }

  /** An agency list with distinct ids, which are exactly `dbl::u` for the uids `u`. */
  ghost predicate OnePerUid(agencies: Json, uids: seq<string>) {
    && agencies.JArr?
    && (forall i | 0 <= i < |agencies.items| ::
          && agencies.items[i].JObj? && "id" in agencies.items[i].fields
          && exists u | u in uids :: agencies.items[i].fields["id"] == JStr("dbl::" + u))
    && (forall i, j | 0 <= i < j < |agencies.items| :: agencies.items[i].fields["id"] != agencies.items[j].fields["id"])
    && (forall u | u in uids :: exists i | 0 <= i < |agencies.items| :: agencies.items[i].fields["id"] == JStr("dbl::" + u))
  }

  /**
   * `processAgencies`: the rights holders, contributors and rights
   * administrators, merged into one agency per uid with id `dbl::uid`.
   */
  function ProcessAgencies(root: Node, d: Doc, local: string): (r: Res<Doc>)
    ensures ChildElementByName(root, "agencies").None? ==> r == Fail(TypeError)
    ensures r.Success? ==> r.value.Keys == d.Keys + {"agencies"}
    ensures r.Success? ==> forall k | k in d && k != "agencies" :: r.value[k] == d[k]
    ensures r.Success? ==>
              && ChildElementByName(root, "agencies").Some?
              && AllUids(ChildElementByName(root, "agencies").value).Success?
              && OnePerUid(r.value["agencies"], AllUids(ChildElementByName(root, "agencies").value).value)
  {
    match ChildElementByName(root, "agencies")
    case None => Fail(TypeError)
    case Some(ag) =>
      var lk :- AgencyLookup(ag, local);
      AgencyListIds(lk, AllUids(ag).value);
      Success(d["agencies" := AgencyList(lk)])
  }

  lemma DblPrefixInjective(a: string, b: string)
    requires "dbl::" + a == "dbl::" + b
    ensures a == b
  {
    assert a == ("dbl::" + a)[5..];
  }

  /** The listed agencies carry distinct ids, one `dbl::u` per uid of the lookup. */
  lemma AgencyListIds(lk: Agencies, uids: seq<string>)
    requires AgenciesWf(lk)
    requires forall u :: u in lk.byUid <==> u in uids
    ensures OnePerUid(AgencyList(lk), uids)
  {
    var list := AgencyList(lk).items;
    forall i | 0 <= i < |list|
      ensures list[i].JObj? && "id" in list[i].fields && exists u | u in uids :: list[i].fields["id"] == JStr("dbl::" + u)
    {
      assert list[i].fields["id"] == JStr("dbl::" + lk.order[i]);
    }
    forall i, j | 0 <= i < j < |list|
      ensures list[i].fields["id"] != list[j].fields["id"]
    {
      if list[i].fields["id"] == list[j].fields["id"] {
        DblPrefixInjective(lk.order[i], lk.order[j]);
      }
    }
    forall u | u in uids
      ensures exists i | 0 <= i < |list| :: list[i].fields["id"] == JStr("dbl::" + u)
    {
      var i :| 0 <= i < |lk.order| && lk.order[i] == u;
      assert list[i].fields["id"] == JStr("dbl::" + u);
    }
  }

  // ---------------------------------------------------------------------
  // processManifest

  const SourceArchive: string := "source/source.zip"

  /** The ingredient record of one manifest resource: md5 checksum, mime type and integer size. */
  function ResourceRecord(res: Node): Json {
    JObj(map["checksum" := Obj1("md5", JStr(GetAttribute(res, "checksum"))),
             "mimeType" := JStr(GetAttribute(res, "mimeType")),
             "size" := ParseInt(GetAttribute(res, "size"))])
  }

  /** The resources after `i` that share resource `i`'s uri. */
  predicate LastOfUri(resources: seq<Node>, i: int)
    requires 0 <= i < |resources|
  {
    forall j | i < j < |resources| :: GetAttribute(resources[j], "uri") != GetAttribute(resources[i], "uri")
  }

  /** The `uri` attributes of the resources, in order. */
  function Uris(resources: seq<Node>): (r: seq<string>)
    ensures |r| == |resources|
    ensures forall i | 0 <= i < |resources| :: r[i] == GetAttribute(resources[i], "uri")
  {
    seq(|resources|, i requires 0 <= i < |resources| => GetAttribute(resources[i], "uri"))
  }

  /** What `ManifestIngredients` promises of its result `m` for the resources. */
  ghost predicate IngredientsOfResources(resources: seq<Node>, m: map<string, Json>) {
    && (forall u :: u in m <==> u in Uris(resources) && u != SourceArchive)
    && (forall i | 0 <= i < |resources| && GetAttribute(resources[i], "uri") != SourceArchive && LastOfUri(resources, i) ::
          m[GetAttribute(resources[i], "uri")] == ResourceRecord(resources[i]))
  }

  /**
   * The ingredients of a manifest: one per resource uri except the source
   * archive's, holding the record of the last resource with that uri.
   */
  function ManifestIngredients(resources: seq<Node>): (m: map<string, Json>)
    ensures forall u :: u in m <==> u in Uris(resources) && u != SourceArchive
    ensures forall i | 0 <= i < |resources| && GetAttribute(resources[i], "uri") != SourceArchive && LastOfUri(resources, i) ::
              m[GetAttribute(resources[i], "uri")] == ResourceRecord(resources[i])
    decreases |resources|
  {
    if |resources| == 0 then map[]
    else
      var init := resources[..|resources| - 1];
      var last := resources[|resources| - 1];
      var m := ManifestIngredients(init);
      var uri := GetAttribute(last, "uri");
      var r := if uri != SourceArchive then m[uri := ResourceRecord(last)] else m;
      ManifestStep(resources, m, r);
      r
  }

  /** Recording the final resource (unless it is the source archive) extends the ingredients of the others. */
  lemma ManifestStep(resources: seq<Node>, m: map<string, Json>, r: map<string, Json>)
    requires |resources| > 0
    requires IngredientsOfResources(resources[..|resources| - 1], m)
    requires var last := resources[|resources| - 1];
             var uri := GetAttribute(last, "uri");
             r == if uri != SourceArchive then m[uri := ResourceRecord(last)] else m
    ensures IngredientsOfResources(resources, r)
  {
    var n := |resources|;
    var init := resources[..n - 1];
    var uri := GetAttribute(resources[n - 1], "uri");
    assert Uris(resources) == Uris(init) + [uri];
    forall i | 0 <= i < n && GetAttribute(resources[i], "uri") != SourceArchive && LastOfUri(resources, i)
      ensures r[GetAttribute(resources[i], "uri")] == ResourceRecord(resources[i])
    {
      if i < n - 1 {
        assert GetAttribute(resources[n - 1], "uri") != GetAttribute(resources[i], "uri");
        LastOfUriInit(resources);
        assert init[i] == resources[i] && LastOfUri(init, i);
      }
    }
  }

  /** A resource that is the last with its uri stays the last once the final resource is dropped. */
  lemma LastOfUriInit(resources: seq<Node>)
    requires |resources| > 0
    ensures var init := resources[..|resources| - 1];
            forall i | 0 <= i < |init| && LastOfUri(resources, i) :: LastOfUri(init, i) && init[i] == resources[i]
  {
  }

  /** `processManifest`: the manifest's resources become the document's ingredients. */
  function ProcessManifest(root: Node, d: Doc): (r: Res<Doc>)
    ensures ChildElementByName(root, "manifest").None? <==> r.Failure?
    ensures r.Failure? ==> r.error == Raise(AssertionError)
    ensures r.Success? ==>
              r.value == d["ingredients" := JObj(ManifestIngredients(ElementsByName(ChildElementByName(root, "manifest").value, "resource")))]
  {
    match ChildElementByName(root, "manifest")
    case None => Fail(AssertionError)
    case Some(manifest) => Success(d["ingredients" := JObj(ManifestIngredients(ElementsByName(manifest, "resource")))])
  }

  /** A resource whose `size` attribute is an integer's decimal form records that integer as the ingredient's size. */
  lemma ManifestSize(resources: seq<Node>, i: int, size: int)
    requires 0 <= i < |resources| && GetAttribute(resources[i], "uri") != SourceArchive && LastOfUri(resources, i)
    requires GetAttribute(resources[i], "size") == Js.IntToString(size)
    ensures ManifestIngredients(resources)[GetAttribute(resources[i], "uri")].fields["size"] == JNum(size)
  {
    ParseIntRoundTrip(size);
  }

  // ---------------------------------------------------------------------
  // processPublications

  predicate ScopeChar(c: char) {
    ('A' <= c <= 'Z') || ('0' <= c <= '6')
  }

  /** The role's first three characters match `[A-Z0-6]{3}`: they name a book. */
  predicate IsBookRole(role: string) {
    |role| >= 3 && ScopeChar(role[0]) && ScopeChar(role[1]) && ScopeChar(role[2])
  }

  /** The scope a book role gives its ingredient: the whole book, or the part after the book code and one separator. */
  function RoleScope(role: string): (r: Json)
    requires IsBookRole(role)
    ensures r.JObj? && r.fields.Keys == {role[..3]}
    ensures |role| == 3 <==> r.fields[role[..3]] == JArr([])
  {
    Obj1(role[..3], JArr(if |role| == 3 then [] else [JStr(if |role| >= 4 then role[4..] else "")]))
  }

  /** What a content element with a role records on its declared ingredient, and the book it adds to the current scope. */
  function RoleStep(ings: map<string, Json>, scope: set<string>, content: Node): (r: Res<(map<string, Json>, set<string>)>)
    ensures r.Success? ==> r.value.0.Keys == ings.Keys
    ensures r.Success? ==> r.value.1 == scope + ContentBooks(ings.Keys, [content])
    ensures r.Success? ==> forall k | k in ings && k != GetAttribute(content, "src") :: r.value.0[k] == ings[k]
  {
    var src := GetAttribute(content, "src");
    if !(src in ings && HasAttribute(content, "role")) then Success((ings, scope))
    else
      var role := GetAttribute(content, "role");
      if IsBookRole(role) then
        var updated :- Js.SetProp(Some(ings[src]), "scope", RoleScope(role));
        Success((ings[src := updated], scope + {role[..3]}))
      else
        var updated :- Js.SetProp(Some(ings[src]), "role", JStr(role));
        Success((ings[src := updated], scope))
  }

  function RoleSteps(ings: map<string, Json>, scope: set<string>, contents: seq<Node>): (r: Res<(map<string, Json>, set<string>)>)
    ensures r.Success? ==> r.value.0.Keys == ings.Keys && r.value.1 == scope + ContentBooks(ings.Keys, contents)
    decreases |contents|
  {
    if |contents| == 0 then Success((ings, scope))
    else
      var next :- RoleStep(ings, scope, contents[0]);
      assert ContentBooks(ings.Keys, contents) == ContentBooks(ings.Keys, [contents[0]]) + ContentBooks(ings.Keys, contents[1..]);
      RoleSteps(next.0, next.1, contents[1..])
  }

  /** The books named by the book roles of contents whose source is a declared ingredient. */
  function ContentBooks(declared: set<string>, contents: seq<Node>): set<string>
    decreases |contents|
  {
    if |contents| == 0 then {}
    else
      var c := contents[0];
      var role := GetAttribute(c, "role");
      (if GetAttribute(c, "src") in declared && HasAttribute(c, "role") && IsBookRole(role) then {role[..3]} else {})
      + ContentBooks(declared, contents[1..])
  }

  /** The books of the book roles across every publication's structure. */
  function ScopeBooks(declared: set<string>, pubs: seq<Node>): set<string>
    decreases |pubs|
  {
    if |pubs| == 0 then {}
    else
      (match Structure(pubs[0])
       case Success(st) => ContentBooks(declared, ElementsByName(st, "content"))
       case Failure(_) => {})
      + ScopeBooks(declared, pubs[1..])
  }

  /** The first `structure` element of a publication, which the converter asserts is there. */
  function Structure(publication: Node): Res<Node> {
    match ChildElementByName(publication, "structure")
    case None => Fail(AssertionError)
    case Some(s) => Success(s)
  }

  /** The roles pass over every publication's contents. */
  function PublicationRoles(ings: map<string, Json>, scope: set<string>, pubs: seq<Node>): (r: Res<(map<string, Json>, set<string>)>)
    ensures r.Success? ==> r.value.0.Keys == ings.Keys && r.value.1 == scope + ScopeBooks(ings.Keys, pubs)
    decreases |pubs|
  {
    if |pubs| == 0 then Success((ings, scope))
    else
      var structure :- Structure(pubs[0]);
      var next :- RoleSteps(ings, scope, ElementsByName(structure, "content"));
      PublicationRoles(next.0, next.1, pubs[1..])
  }

  /** Every publication has canonical content. */
  predicate AllCanonical(pubs: seq<Node>) {
    forall i | 0 <= i < |pubs| :: ChildElementByName(pubs[i], "canonicalContent").Some?
  }

  /** The `book` elements of a publication's canonical content. */
  function CanonicalBooks(pub: Node): seq<Node>
    requires ChildElementByName(pub, "canonicalContent").Some?
  {
    ElementsByName(ChildElementByName(pub, "canonicalContent").value, "book")
  }

  /** `codes` holds the code of every canonical book of every publication. */
  ghost predicate CoversCanonical(pubs: seq<Node>, codes: set<string>) {
    && AllCanonical(pubs)
    && forall i, b | 0 <= i < |pubs| && b in CanonicalBooks(pubs[i]) :: GetAttribute(b, "code") in codes
  }

  /** `c` is the `code` of a `book` element of some publication's canonical content. */
  ghost predicate CanonicalCode(pubs: seq<Node>, c: string) {
    exists i, b | 0 <= i < |pubs| && ChildElementByName(pubs[i], "canonicalContent").Some? && b in CanonicalBooks(pubs[i]) ::
      c == GetAttribute(b, "code")
  }

  /**
   * The book codes of every publication's canonical content, the fallback
   * current scope: exactly those codes, and an `AssertionError` when a
   * publication has no canonical content.
   */
  function BookCodes(pubs: seq<Node>): (r: Res<set<string>>)
    ensures r.Success? <==> AllCanonical(pubs)
    ensures r.Failure? ==> r == Fail(AssertionError)
    ensures r.Success? ==> CoversCanonical(pubs, r.value)
    ensures r.Success? ==> forall c | c in r.value :: CanonicalCode(pubs, c)
    decreases |pubs|
  {
    if |pubs| == 0 then Success({})
    else
      var rest := BookCodes(pubs[1..]);
      AllCanonicalCons(pubs);
      match ChildElementByName(pubs[0], "canonicalContent")
      case None => Fail(AssertionError)
      case Some(canonical) =>
        if rest.Failure? then rest
        else
          var books := CanonicalBooks(pubs[0]);
          var here := set i | 0 <= i < |books| :: GetAttribute(books[i], "code");
          BookCodesCovers(pubs, here, rest.value);
          BookCodesFrom(pubs, here, rest.value);
          Success(here + rest.value)
  }

  lemma AllCanonicalCons(pubs: seq<Node>)
    requires |pubs| > 0
    ensures AllCanonical(pubs) <==> ChildElementByName(pubs[0], "canonicalContent").Some? && AllCanonical(pubs[1..])
  {
    assert forall i | 1 <= i < |pubs| :: pubs[i] == pubs[1..][i - 1];
  }

  /** The first publication's codes together with a cover of the later ones cover them all. */
  lemma BookCodesCovers(pubs: seq<Node>, here: set<string>, rest: set<string>)
    requires |pubs| > 0 && ChildElementByName(pubs[0], "canonicalContent").Some?
    requires here == set i | 0 <= i < |CanonicalBooks(pubs[0])| :: GetAttribute(CanonicalBooks(pubs[0])[i], "code")
    requires CoversCanonical(pubs[1..], rest)
    ensures CoversCanonical(pubs, here + rest)
  {
    AllCanonicalCons(pubs);
    forall i, b | 0 <= i < |pubs| && b in CanonicalBooks(pubs[i])
      ensures GetAttribute(b, "code") in here + rest
    {
      if i == 0 {
        var k :| 0 <= k < |CanonicalBooks(pubs[0])| && CanonicalBooks(pubs[0])[k] == b;
      } else {
        assert pubs[i] == pubs[1..][i - 1];
      }
    }
  }

  /** A code of the first publication's books, or of the later publications', is a canonical code of them all. */
  lemma BookCodesFrom(pubs: seq<Node>, here: set<string>, rest: set<string>)
    requires |pubs| > 0 && ChildElementByName(pubs[0], "canonicalContent").Some?
    requires here == set i | 0 <= i < |CanonicalBooks(pubs[0])| :: GetAttribute(CanonicalBooks(pubs[0])[i], "code")
    requires forall c | c in rest :: CanonicalCode(pubs[1..], c)
    ensures forall c | c in here + rest :: CanonicalCode(pubs, c)
  {
    var books := CanonicalBooks(pubs[0]);
    forall c | c in here + rest
      ensures CanonicalCode(pubs, c)
    {
      if c in here {
        var k :| 0 <= k < |books| && c == GetAttribute(books[k], "code");
        assert books[k] in books;
      } else {
        var i, b :| 0 <= i < |pubs[1..]| && ChildElementByName(pubs[1..][i], "canonicalContent").Some?
                    && b in CanonicalBooks(pubs[1..][i]) && c == GetAttribute(b, "code");
        assert pubs[1..][i] == pubs[i + 1];
      }
    }
  }

  /** The books of the current scope: the book roles found, or the canonical books when there are none. */
  function CurrentScope(found: set<string>, pubs: seq<Node>): (r: Res<set<string>>)
    ensures found != {} ==> r == Success(found)
    ensures found == {} ==> r == BookCodes(pubs)
  {
    if found != {} then Success(found) else BookCodes(pubs)
  }

  function ScopeJson(books: set<string>): Json {
    JObj(map b | b in books :: JArr([]))
  }

  /** The name-like fields of a publication that are present. */
  function PublicationIdentification(pub: Node, local: string): Res<map<string, Json>> {
    var name :- Namelike(pub, "name", local);
    var abbreviation :- Namelike(pub, "abbreviation", local);
    var description :- Namelike(pub, "description", local);
    var m0 := if name.Some? then map["name" := name.value] else map[];
    var m1 := if abbreviation.Some? then m0["abbreviation" := abbreviation.value] else m0;
    Success(if description.Some? then m1["description" := description.value] else m1)
  }

  /** A recipe spec record: the publication id, its recipe and, when it has any, its name-like fields. */
  function SpecJson(id: string, ident: map<string, Json>, entries: seq<Entry>): (j: Json)
    ensures Js.Field(Js.Field(Js.Field(Some(j), "metadata"), "recipe"), "content") == Some(RecipeJson(entries))
    ensures Js.Field(Some(j), "id") == Str(id)
  {
    var recipe := Obj1("recipe", Obj1("content", RecipeJson(entries)));
    var metadata := if |ident| > 0 then JObj(recipe.fields["identification" := JObj(ident)]) else recipe;
    JObj(map["id" := JStr(id), "metadata" := metadata])
  }

  /** The recipe spec of one publication: its id, its name-like fields and its recipe. */
  function RecipeSpec(pub: Node, local: string): (r: Res<Json>)
    ensures r.Success? ==>
              && Structure(pub).Success? && PublicationIdentification(pub, local).Success?
              && r.value == SpecJson(GetAttribute(pub, "id"), PublicationIdentification(pub, local).value,
                                     BuildRecipe(ChildNodes(Structure(pub).value)))
  {
    var ident :- PublicationIdentification(pub, local);
    var structure :- Structure(pub);
    Success(SpecJson(GetAttribute(pub, "id"), ident, BuildRecipe(ChildNodes(structure))))
  }

  function RecipeSpecs(pubs: seq<Node>, local: string): (r: Res<seq<Json>>)
    ensures r.Success? ==> |r.value| == |pubs|
    ensures r.Success? ==> forall i | 0 <= i < |pubs| :: RecipeSpec(pubs[i], local).Success? && r.value[i] == RecipeSpec(pubs[i], local).value
    decreases |pubs|
  {
    if |pubs| == 0 then Success([])
    else
      var first :- RecipeSpec(pubs[0], local);
      var rest :- RecipeSpecs(pubs[1..], local);
      SpecsCons(pubs, local, first, rest);
      Success([first] + rest)
  }

  /** Prepending the first publication's spec to the specs of the others gives the specs of all of them, in order. */
  lemma SpecsCons(pubs: seq<Node>, local: string, first: Json, rest: seq<Json>)
    requires |pubs| > 0 && RecipeSpec(pubs[0], local) == Success(first)
    requires |rest| == |pubs| - 1
    requires forall i | 0 <= i < |rest| :: RecipeSpec(pubs[1..][i], local).Success? && rest[i] == RecipeSpec(pubs[1..][i], local).value
    ensures forall i | 0 <= i < |pubs| :: RecipeSpec(pubs[i], local).Success? && ([first] + rest)[i] == RecipeSpec(pubs[i], local).value
  {
    var f := pub => RecipeSpec(pub, local);
    ConsPointwise(pubs, f, first, rest);
  }

  /** The pointwise results of `f` over a sequence are its result on the head followed by those over the tail. */
  lemma ConsPointwise<A, B>(xs: seq<A>, f: A -> Res<B>, first: B, rest: seq<B>)
    requires |xs| > 0 && f(xs[0]) == Success(first)
    requires |rest| == |xs| - 1
    requires forall i | 0 <= i < |rest| :: f(xs[1..][i]).Success? && rest[i] == f(xs[1..][i]).value
    ensures forall i | 0 <= i < |xs| :: f(xs[i]).Success? && ([first] + rest)[i] == f(xs[i]).value
  {
    forall i | 0 <= i < |xs|
      ensures f(xs[i]).Success? && ([first] + rest)[i] == f(xs[i]).value
    {
      if i > 0 {
        assert xs[i] == xs[1..][i - 1];
      }
    }
  }

  /** The current scope recorded in a `type` record's flavour type. */
  function WithScope(typeFields: map<string, Json>, books: set<string>): (r: Res<Json>)
    ensures r.Success? <==> "flavorType" in typeFields && typeFields["flavorType"].JObj?
    ensures r.Success? ==> Js.Field(Js.Field(Some(r.value), "flavorType"), "currentScope") == Some(ScopeJson(books))
    ensures r.Success? ==> r.value.JObj? && r.value.fields.Keys == typeFields.Keys
  {
    var flavorType :- ObjectField(typeFields, "flavorType");
    Success(JObj(typeFields["flavorType" := JObj(flavorType["currentScope" := ScopeJson(books)])]))
  }

  /** The current scope of the flavour type in a document's `type` record. */
  function CurrentScopeIn(d: Doc): Value {
    Js.Field(Js.Field(Js.Field(Some(JObj(d)), "type"), "flavorType"), "currentScope")
  }

  /**
   * The first half of `processPublications`: roles and scopes on the
   * declared ingredients, then the current scope, which is the books of
   * the book roles found or, when there are none, the canonical books.
   */
  function ScopePublications(d: Doc, pubs: seq<Node>): (r: Res<Doc>)
    ensures r.Success? ==>
              && r.value.Keys == d.Keys
              && (forall k | k in d && k != "type" && k != "ingredients" :: r.value[k] == d[k])
              && "ingredients" in d && d["ingredients"].JObj? && r.value["ingredients"].JObj?
              && r.value["ingredients"].fields.Keys == d["ingredients"].fields.Keys
    ensures r.Success? ==>
              var found := ScopeBooks(d["ingredients"].fields.Keys, pubs);
              && (found == {} ==> BookCodes(pubs).Success?)
              && CurrentScopeIn(r.value) == Some(ScopeJson(if found != {} then found else BookCodes(pubs).value))
  {
    var ings :- ObjectField(d, "ingredients");
    var roles :- PublicationRoles(ings, {}, pubs);
    var books :- CurrentScope(roles.1, pubs);
    var typeFields :- ObjectField(d, "type");
    var typeJson :- WithScope(typeFields, books);
    var d1 := d["ingredients" := JObj(roles.0)]["type" := typeJson];
    assert roles.1 == ScopeBooks(ings.Keys, pubs);
    ScopedDoc(d, roles.0, typeJson, books);
    Success(d1)
  }

  /** Setting the ingredients and the scoped `type` record leaves the other top-level fields alone. */
  lemma ScopedDoc(d: Doc, ings: map<string, Json>, typeJson: Json, books: set<string>)
    requires "ingredients" in d && "type" in d
    requires Js.Field(Js.Field(Some(typeJson), "flavorType"), "currentScope") == Some(ScopeJson(books))
    ensures var d1 := d["ingredients" := JObj(ings)]["type" := typeJson];
            && d1.Keys == d.Keys
            && (forall k | k in d && k != "type" && k != "ingredients" :: d1[k] == d[k])
            && d1["ingredients"] == JObj(ings)
            && CurrentScopeIn(d1) == Some(ScopeJson(books))
  {
    var d1 := d["ingredients" := JObj(ings)]["type" := typeJson];
    assert Js.Field(Some(JObj(d1)), "type") == Some(typeJson);
  }

  /**
   * `processPublications`: roles and scopes on the declared ingredients,
   * the current scope of the flavour type, and one recipe spec per
   * publication.
   */
  function ProcessPublications(root: Node, d: Doc, local: string): (r: Res<Doc>)
    ensures ChildElementByName(root, "publications").None? ==> r == Fail(AssertionError)
    ensures r.Success? ==>
              var pubs := ElementsByName(ChildElementByName(root, "publications").value, "publication");
              && ScopePublications(d, pubs).Success?
              && RecipeSpecs(pubs, local).Success?
              && r.value == ScopePublications(d, pubs).value["recipeSpecs" := JArr(RecipeSpecs(pubs, local).value)]
  {
    match ChildElementByName(root, "publications")
    case None => Fail(AssertionError)
    case Some(publications) =>
      var pubs := ElementsByName(publications, "publication");
      var d1 :- ScopePublications(d, pubs);
      var specs :- RecipeSpecs(pubs, local);
      Success(d1["recipeSpecs" := JArr(specs)])
  }

  /** A declared ingredient that one content element gives a book role gets that book's scope, and the book joins the current scope. */
  lemma BookRoleScoped(ings: map<string, Json>, scope: set<string>, content: Node)
    requires GetAttribute(content, "src") in ings && ings[GetAttribute(content, "src")].JObj?
    requires HasAttribute(content, "role") && IsBookRole(GetAttribute(content, "role"))
    ensures var role := GetAttribute(content, "role");
            var src := GetAttribute(content, "src");
            && RoleStep(ings, scope, content).Success?
            && RoleStep(ings, scope, content).value.0[src] == JObj(ings[src].fields["scope" := RoleScope(role)])
            && RoleStep(ings, scope, content).value.1 == scope + {role[..3]}
  {
  }

  /** A role that names no book is kept as the ingredient's role and adds nothing to the current scope. */
  lemma OtherRoleKept(ings: map<string, Json>, scope: set<string>, content: Node)
    requires GetAttribute(content, "src") in ings && ings[GetAttribute(content, "src")].JObj?
    requires HasAttribute(content, "role") && !IsBookRole(GetAttribute(content, "role"))
    ensures var src := GetAttribute(content, "src");
            && RoleStep(ings, scope, content).Success?
            && RoleStep(ings, scope, content).value.0[src] == JObj(ings[src].fields["role" := JStr(GetAttribute(content, "role"))])
            && RoleStep(ings, scope, content).value.1 == scope
  {
  }

  /** A book role splits back into the book code and the part after the separator. */
  lemma RoleScopeRoundTrip(book: string, sep: char, part: string)
    requires |book| == 3 && IsBookRole(book)
    ensures RoleScope(book) == Obj1(book, JArr([]))
    ensures RoleScope(book + [sep] + part) == Obj1(book, JArr([JStr(part)]))
  {
    var role := book + [sep] + part;
    assert book[..3] == book;
    assert role[..3] == book && role[4..] == part;
  }

  // ---------------------------------------------------------------------
  // processArchiveStatus

  /** The date the archive records, with the UTC offset `+00:00` appended when it names none. */
  function DateCreated(date: Json): (r: Res<Json>)
    ensures r.Failure? <==> !date.JStr?
    ensures r.Success? ==> r.value.JStr? && '+' in r.value.s && Js.StartsWith(r.value.s, date.s)
    ensures r.Success? && '+' in date.s ==> r.value == date
    ensures r.Success? && '+' !in date.s ==> r.value == JStr(date.s + "+00:00")
  {
    if !date.JStr? then Fail(TypeError)
    else if '+' in date.s then Success(date)
    else
      assert (date.s + "+00:00")[|date.s|] == '+';
      assert (date.s + "+00:00")[..|date.s|] == date.s;
      Success(JStr(date.s + "+00:00"))
  }

  /** Normalising the date twice is normalising it once. */
  lemma DateCreatedIdempotent(date: Json)
    requires DateCreated(date).Success?
    ensures DateCreated(DateCreated(date).value) == DateCreated(date)
  {
  }

  /**
   * `processArchiveStatus`: the archivist becomes the generator's user, the
   * update date the creation date, and the archive comment the document's
   * only comment.
   */
  function ProcessArchiveStatus(root: Node, d: Doc): (r: Res<Doc>)
    ensures r.Success? ==>
              && r.value.Keys == d.Keys
              && (forall k | k in d && k != "meta" :: r.value[k] == d[k])
              && "meta" in d && d["meta"].JObj? && r.value["meta"].JObj?
              && r.value["meta"].fields.Keys == d["meta"].fields.Keys + {"dateCreated", "comments"}
              && (forall k | k in d["meta"].fields && k != "generator" && k != "dateCreated" && k != "comments" ::
                    r.value["meta"].fields[k] == d["meta"].fields[k])
              && r.value["meta"].fields["dateCreated"].JStr? && '+' in r.value["meta"].fields["dateCreated"].s
    ensures ChildElementByName(root, "archiveStatus").None? ==> r == Fail(AssertionError)
    ensures r.Success? ==>
              var status := ChildElementByName(root, "archiveStatus").value;
              var userName := RequiredText(ChildElementByName(status, "archivistName"));
              var date := RequiredText(ChildElementByName(status, "dateUpdated"));
              var comment := RequiredText(ChildElementByName(status, "comments"));
              var meta := r.value["meta"].fields;
              && userName.Success? && date.Success? && comment.Success?
              && "generator" in d["meta"].fields && d["meta"].fields["generator"].JObj?
              && meta["generator"] == JObj(d["meta"].fields["generator"].fields["userName" := userName.value.value])
              && DateCreated(date.value.value).Success?
              && meta["dateCreated"] == DateCreated(date.value.value).value
              && meta["comments"] == JArr([comment.value.value])
  {
    var status := ChildElementByName(root, "archiveStatus");
    if status.None? then Fail(AssertionError)
    else
      var userName :- RequiredText(ChildElementByName(status.value, "archivistName"));
      var meta :- ObjectField(d, "meta");
      var generator :- ObjectField(meta, "generator");
      var date :- RequiredText(ChildElementByName(status.value, "dateUpdated"));
      var created :- DateCreated(date.value);
      var comment :- RequiredText(ChildElementByName(status.value, "comments"));
      var meta1 := ArchiveMeta(meta, userName.value, created, comment.value);
      ArchiveFields(d, JObj(generator["userName" := userName.value]), created, JArr([comment.value]), meta1);
      Success(d["meta" := JObj(meta1)])
  }

  /** Reading the archive status a second time changes nothing more. */
  lemma {:induction false} ArchiveStatusIdempotent(root: Node, d: Doc)
    requires ProcessArchiveStatus(root, d).Success?
    ensures ProcessArchiveStatus(root, ProcessArchiveStatus(root, d).value) == ProcessArchiveStatus(root, d)
  {
    var d1 := ProcessArchiveStatus(root, d).value;
    var status := ChildElementByName(root, "archiveStatus").value;
    var userName := RequiredText(ChildElementByName(status, "archivistName")).value.value;
    var created := DateCreated(RequiredText(ChildElementByName(status, "dateUpdated")).value.value).value;
    var comment := RequiredText(ChildElementByName(status, "comments")).value.value;
    var meta1 := ArchiveMeta(d["meta"].fields, userName, created, comment);
    assert d1 == d["meta" := JObj(meta1)];
    var meta2 := ArchiveMeta(meta1, userName, created, comment);
    assert ProcessArchiveStatus(root, d1) == Success(d1["meta" := JObj(meta2)]);
    ArchiveMetaTwice(d["meta"].fields, userName, created, comment);
    assert d1["meta" := JObj(meta2)] == d1;
  }

  /** `meta` with the archivist as the generator's user, the creation date and the one comment. */
  function ArchiveMeta(meta: map<string, Json>, userName: Json, created: Json, comment: Json): map<string, Json>
    requires "generator" in meta && meta["generator"].JObj?
  {
    meta["generator" := JObj(meta["generator"].fields["userName" := userName])]
        ["dateCreated" := created]["comments" := JArr([comment])]
  }

  lemma ArchiveMetaTwice(meta: map<string, Json>, userName: Json, created: Json, comment: Json)
    requires "generator" in meta && meta["generator"].JObj?
    ensures var meta1 := ArchiveMeta(meta, userName, created, comment);
            ArchiveMeta(meta1, userName, created, comment) == meta1
  {
    var generator1 := meta["generator"].fields["userName" := userName];
    assert generator1["userName" := userName] == generator1;
  }

  /** Setting the generator, creation date and comments of `meta` leaves its other fields and the other top-level fields alone. */
  lemma ArchiveFields(d: Doc, generator: Json, created: Json, comments: Json, meta1: map<string, Json>)
    requires "meta" in d && d["meta"].JObj? && "generator" in d["meta"].fields
    requires meta1 == d["meta"].fields["generator" := generator]["dateCreated" := created]["comments" := comments]
    ensures var r := d["meta" := JObj(meta1)];
            && r.Keys == d.Keys
            && (forall k | k in d && k != "meta" :: r[k] == d[k])
            && meta1.Keys == d["meta"].fields.Keys + {"dateCreated", "comments"}
            && (forall k | k in d["meta"].fields && k != "generator" && k != "dateCreated" && k != "comments" ::
                  meta1[k] == d["meta"].fields[k])
            && meta1["dateCreated"] == created
  {
    var m := d["meta"].fields;
    assert m["generator" := generator].Keys == m.Keys;
    assert meta1.Keys == m.Keys + {"dateCreated"} + {"comments"};
  }

  // ---------------------------------------------------------------------
  // The conversion

  /** The steps that build the document's header: root, type, agencies and ingredients. */
  function Header(root: Node, local: string): Res<Doc> {
    var d0 :- ProcessRoot(root);
    var d1 :- ProcessType(root, d0);
    var d2 :- ProcessAgencies(root, d1, local);
    ProcessManifest(root, d2)
  }

  /** The steps up to the promotion check, in the constructor's order. */
  function BeforePromotion(root: Node, local: string): Res<Doc> {
    var d3 :- Header(root, local);
    ProcessPublications(root, d3, local)
  }

  /** The promotion step is guarded by a variant other than `source`, which no input reaches. */
  lemma PromotionNeverRuns(root: Node, local: string)
    requires BeforePromotion(root, local).Success?
    ensures Variant(BeforePromotion(root, local).value) == Str("source")
  {
    BeforePromotionSteps(root, local);
    HeaderMeta(root, local);
    PublicationsKeepMeta(root, Header(root, local).value, local);
  }

  lemma BeforePromotionSteps(root: Node, local: string)
    requires BeforePromotion(root, local).Success?
    ensures Header(root, local).Success?
    ensures BeforePromotion(root, local) == ProcessPublications(root, Header(root, local).value, local)
  {
  }

  lemma HeaderMeta(root: Node, local: string)
    requires Header(root, local).Success?
    ensures "meta" in Header(root, local).value && Variant(Header(root, local).value) == Str("source")
  {
    HeaderSteps(root, local);
    var d0 := ProcessRoot(root).value;
    var d1 := ProcessType(root, d0).value;
    var d2 := ProcessAgencies(root, d1, local).value;
    RootMeta(root);
    TypeKeepsMeta(root, d0);
    AgenciesKeepMeta(root, d1, local);
    ManifestKeepsMeta(root, d2);
    SameMetaSameVariant(d0, Header(root, local).value);
  }

  lemma SameMetaSameVariant(a: Doc, b: Doc)
    requires "meta" in a && "meta" in b && a["meta"] == b["meta"]
    ensures Variant(a) == Variant(b)
  {
  }

  lemma HeaderSteps(root: Node, local: string)
    requires Header(root, local).Success?
    ensures ProcessRoot(root).Success?
    ensures ProcessType(root, ProcessRoot(root).value).Success?
    ensures ProcessAgencies(root, ProcessType(root, ProcessRoot(root).value).value, local).Success?
    ensures Header(root, local)
              == ProcessManifest(root, ProcessAgencies(root, ProcessType(root, ProcessRoot(root).value).value, local).value)
  {
  }

  lemma RootMeta(root: Node)
    requires ProcessRoot(root).Success?
    ensures "meta" in ProcessRoot(root).value && Variant(ProcessRoot(root).value) == Str("source")
  {
  }

  lemma TypeKeepsMeta(root: Node, d: Doc)
    requires ProcessType(root, d).Success? && "meta" in d
    ensures "meta" in ProcessType(root, d).value && ProcessType(root, d).value["meta"] == d["meta"]
  {
  }

  lemma AgenciesKeepMeta(root: Node, d: Doc, local: string)
    requires ProcessAgencies(root, d, local).Success? && "meta" in d
    ensures "meta" in ProcessAgencies(root, d, local).value && ProcessAgencies(root, d, local).value["meta"] == d["meta"]
  {
  }

  lemma ManifestKeepsMeta(root: Node, d: Doc)
    requires ProcessManifest(root, d).Success? && "meta" in d
    ensures "meta" in ProcessManifest(root, d).value && ProcessManifest(root, d).value["meta"] == d["meta"]
  {
  }

  lemma PublicationsKeepMeta(root: Node, d: Doc, local: string)
    requires ProcessPublications(root, d, local).Success? && "meta" in d
    ensures "meta" in ProcessPublications(root, d, local).value && ProcessPublications(root, d, local).value["meta"] == d["meta"]
  {
  }

  /** `new DBLImport(dom).sbMetadata`, with the promotion step left out as unreachable. */
  function Convert(root: Node, local: string): Res<Doc> {
    var d :- BeforePromotion(root, local);
    ProcessArchiveStatus(root, d)
  }

  /** A converted entry is a `source` variant whose creation date names a UTC offset. */
  lemma ConvertedEntry(root: Node, local: string)
    requires Convert(root, local).Success?
    ensures Variant(Convert(root, local).value) == Str("source")
    ensures var meta := Convert(root, local).value["meta"];
            meta.JObj? && "dateCreated" in meta.fields && '+' in meta.fields["dateCreated"].s
  {
    var d := BeforePromotion(root, local).value;
    assert Convert(root, local) == ProcessArchiveStatus(root, d);
    PromotionNeverRuns(root, local);
    ArchiveStatusKeepsVariant(root, d);
  }

  lemma ArchiveStatusKeepsVariant(root: Node, d: Doc)
    requires ProcessArchiveStatus(root, d).Success?
    ensures Variant(ProcessArchiveStatus(root, d).value) == Variant(d)
    ensures var meta := ProcessArchiveStatus(root, d).value["meta"];
            meta.JObj? && "dateCreated" in meta.fields && '+' in meta.fields["dateCreated"].s
  {
  }
}

=== FILE: dbl_recipe.dfy ===
/**
 * The recipe a DBL publication's `structure` element describes: its
 * `content` elements name ingredients, its `division` elements group
 * further contents into sections, and every other node is ignored.
 */
module DblRecipe {

  import opened Wrappers
  import opened JsonValue
  import opened XmlTree

  /** One recipe entry: an ingredient (`element`) or a section holding further entries. */
  datatype Entry =
    | Leaf(ingredient: string, nameId: Option<string>)
    | Section(nameId: Option<string>, content: seq<Entry>)

  /** The optional `name` attribute, which becomes the entry's `nameId`. */
  function NameAttr(n: Node): Option<string> {
    if HasAttribute(n, "name") then Some(GetAttribute(n, "name")) else None
  }

  /**
   * `buildRecipe`: one entry per `content` or `division` element among the
   * nodes, in document order; a division's entries come from its own child
   * nodes. Text nodes and elements with other tags contribute nothing, and
   * the children of those elements are not visited.
   */
  function BuildRecipe(ns: seq<Node>): seq<Entry>
    decreases ns
  {
    if |ns| == 0 then []
    else
      var first :=
        if ns[0].Element? && ns[0].tag == "content" then [Leaf(GetAttribute(ns[0], "src"), NameAttr(ns[0]))]
        else if ns[0].Element? && ns[0].tag == "division" then [Section(NameAttr(ns[0]), BuildRecipe(ns[0].children))]
        else [];
      first + BuildRecipe(ns[1..])
  }

  /** The recipe as the metadata document holds it. */
  function EntryJson(e: Entry): Json
    decreases e
  {
    var named := if e.nameId.Some? then map["nameId" := JStr(e.nameId.value)] else map[];
    match e
    case Leaf(src, _) => JObj(named["type" := JStr("element")]["ingredient" := JStr(src)])
    case Section(_, content) =>
      JObj(named["type" := JStr("section")]["content" := JArr(seq(|content|, i requires 0 <= i < |content| => EntryJson(content[i])))])
  }

  function RecipeJson(entries: seq<Entry>): Json {
    JArr(seq(|entries|, i requires 0 <= i < |entries| => EntryJson(entries[i])))
  }

  /** The smallest element tree that describes a recipe: its inverse. */
  function Unbuild(entries: seq<Entry>): seq<Node>
    decreases entries
  {
    if |entries| == 0 then []
    else
      var e := entries[0];
      var named := if e.nameId.Some? then map["name" := e.nameId.value] else map[];
      var node :=
        match e
        case Leaf(src, _) => Element("content", named["src" := src], [])
        case Section(_, content) => Element("division", named, Unbuild(content));
      [node] + Unbuild(entries[1..])
  }

  // ---------------------------------------------------------------------
  // Properties

  /** The recipe of two node lists in a row is the first's entries followed by the second's: document order is kept. */
  lemma {:induction false} RecipeKeepsOrder(a: seq<Node>, b: seq<Node>)
    ensures BuildRecipe(a + b) == BuildRecipe(a) + BuildRecipe(b)
    decreases a
  {
    if |a| == 0 {
      assert a + b == b;
    } else {
      assert (a + b)[0] == a[0];
      assert (a + b)[1..] == a[1..] + b;
      RecipeKeepsOrder(a[1..], b);
    }
  }

  /** Nodes that are not elements are skipped: inserting one anywhere leaves the recipe as it was. */
  lemma TextIgnored(a: seq<Node>, t: string, b: seq<Node>)
    ensures BuildRecipe(a + [Text(t)] + b) == BuildRecipe(a + b)
  {
    RecipeKeepsOrder(a + [Text(t)], b);
    RecipeKeepsOrder(a, [Text(t)]);
    RecipeKeepsOrder(a, b);
  }

  /** Every recipe is built from some element tree: the one `Unbuild` gives back. */
  lemma {:induction false} RecipeRoundTrip(entries: seq<Entry>)
    ensures BuildRecipe(Unbuild(entries)) == entries
    decreases entries
  {
    if |entries| > 0 {
      var e := entries[0];
      if e.Section? {
        RecipeRoundTrip(e.content);
      }
      RecipeRoundTrip(entries[1..]);
      var ns := Unbuild(entries);
      assert ns[1..] == Unbuild(entries[1..]);
      assert BuildRecipe(ns) == [e] + entries[1..];
    }
  }
}

=== FILE: errors.dfy ===
/**
 * The exceptions the store throws. A `BurritoError` carries a message naming
 * its kind and, only when the supplied argument is truthy, that argument.
 * The other kinds stand for the runtime's own exceptions: the `TypeError` of
 * a property read on `undefined`/`null`, the `URIError` of
 * `decodeURIComponent`, the file system's error codes and the converters'
 * failed assertions.
 */
module Errors {

  import opened Wrappers
  import opened JsonValue

  datatype Kind =
    // thrown by the store classes, spelled as in the messages
    | CannotConstructDirectly
    | ConfigJsonForWrongClass
    | NoStoreClassInConfig
    | ConfigFileInvalid
    | StorageDirNotDefined
    | NoMetadataSupplied
    | UnableToFindMetadataId
    | ImportedMetadataNotConfigCompatible
    | ImportedMetadataNotSchemaValid
    | CannotModifyExistingVariant
    | newUrlDirAlreadyExists
    | newEntryDirAlreadyExists
    | newRevisionDirAlreadyExists
    | VariantNotFound
    | VariantNotFoundInStore
    | VariantMetadataNotFound
    | IngredientNotFoundInMetadata
    | IngredientChecksumMismatch
    | IngredientNotInBuffer
    | ExportPathAlreadyExists
    | MethodNotOverriddenBySubclass
    // thrown by the converters
    | AssertionError
    | UnknownMedium(medium: string)
    // thrown by the runtime
    | TypeError
    | URIError
    | SyntaxError
    | FsError(code: string)

  datatype Error = Error(kind: Kind, arg: Value)

  type Res<T> = Result<T, Error>

  /** `new BurritoError(kind)` */
  function Raise(kind: Kind): Error {
    Error(kind, None)
  }

  /** `new BurritoError(kind, arg)`: the argument is attached only when it is truthy. */
  function RaiseWith(kind: Kind, arg: Value): (e: Error)
    ensures e.kind == kind
    ensures e.arg != None <==> Truthy(arg)
    ensures e.arg != None ==> e.arg == arg
  {
    Error(kind, if Truthy(arg) then arg else None)
  }

  function Fail<T>(kind: Kind): Res<T> {
    Failure(Raise(kind))
  }
}

=== FILE: file_tree.dfy ===
/**
 * The file system under the storage directory, as the synchronous `fs` calls
 * see it: a set of directory paths and a map from file paths to contents.
 * Paths are plain strings with `/` as separator; the empty string stands for
 * the working directory, which always exists. Error codes other than
 * `ENOENT`, `EEXIST` and `EISDIR` (permissions, `ENOTDIR`, a full disk) are
 * folded into these three.
 */
module FileTree {

  import opened Wrappers
  import opened Errors

  newtype byte = x: int | 0 <= x < 256

  type Bytes = seq<byte>

  datatype Fs = Fs(dirs: set<string>, files: map<string, Bytes>)

  function Enoent<T>(): Res<T> { Failure(Raise(FsError("ENOENT"))) }
  function Eexist<T>(): Res<T> { Failure(Raise(FsError("EEXIST"))) }
  function Eisdir<T>(): Res<T> { Failure(Raise(FsError("EISDIR"))) }

  /** The directory part of a path: everything before its last `/`, or "" when it has none. */
  function Parent(p: string): (d: string)
    ensures |d| < |p| || p == ""
    ensures d != "" ==> Below(d, p)
    decreases |p|
  {
    if |p| == 0 then ""
    else if p[|p| - 1] == '/' then p[..|p| - 1]
    else Parent(p[..|p| - 1])
  }

  /** `q` is `p` itself or lies below it. */
  predicate Under(p: string, q: string) {
    q == p || (|p| + 1 <= |q| && q[..|p| + 1] == p + "/")
  }

  /** `q` lies strictly below `p`. */
  predicate Below(p: string, q: string) {
    |p| + 1 <= |q| && q[..|p| + 1] == p + "/"
  }

  predicate IsDir(fs: Fs, p: string) {
    p == "" || p in fs.dirs
  }

  /** `fs.existsSync(p)` */
  predicate Exists(fs: Fs, p: string) {
    p in fs.dirs || p in fs.files
  }

  /** Files and directories are disjoint, and everything sits in an existing directory. */
  ghost predicate Wf(fs: Fs) {
    && (forall p | p in fs.dirs :: p !in fs.files && p != "" && IsDir(fs, Parent(p)))
    && (forall p | p in fs.files :: p != "" && IsDir(fs, Parent(p)))
  }

  /** `fs.mkdirSync(p)` */
  function Mkdir(fs: Fs, p: string): (r: Res<Fs>)
    ensures r.Success? <==> p != "" && !Exists(fs, p) && IsDir(fs, Parent(p))
    ensures r.Success? ==> r.value == Fs(fs.dirs + {p}, fs.files)
    ensures Wf(fs) && r.Success? ==> Wf(r.value)
  {
    if p == "" || Exists(fs, p) then Eexist()
    else if !IsDir(fs, Parent(p)) then Enoent()
    else Success(Fs(fs.dirs + {p}, fs.files))
  }

  /** `fs.mkdirSync(p, {recursive: true})`: creates the missing ancestors; fails only on a file in the way. */
  function MkdirP(fs: Fs, p: string): (r: Res<Fs>)
    ensures r.Success? ==> IsDir(r.value, p) && fs.dirs <= r.value.dirs && r.value.files == fs.files
    ensures r.Success? ==> forall d | d in r.value.dirs - fs.dirs :: Under(d, p)
    ensures Wf(fs) && r.Success? ==> Wf(r.value)
    decreases |p|
  {
    if p == "" || p in fs.dirs then Success(fs)
    else if p in fs.files then Eexist()
    else
      var fs1 :- MkdirP(fs, Parent(p));
      if p in fs1.files then Eexist()
      else
        ParentUnder(p);
        Success(Fs(fs1.dirs + {p}, fs1.files))
  }

  lemma ParentUnder(p: string)
    requires p != ""
    ensures forall d | Under(d, Parent(p)) && Parent(p) != "" :: Under(d, p)
  {
  }

  /** `fs.writeFileSync(p, data)`: creates or replaces a file in an existing directory. */
  function WriteFile(fs: Fs, p: string, data: Bytes): (r: Res<Fs>)
    ensures r.Success? <==> p != "" && p !in fs.dirs && IsDir(fs, Parent(p))
    ensures r.Success? ==> r.value == Fs(fs.dirs, fs.files[p := data])
    ensures Wf(fs) && r.Success? ==> Wf(r.value)
  {
    if p == "" || p in fs.dirs then Eisdir()
    else if !IsDir(fs, Parent(p)) then Enoent()
    else Success(Fs(fs.dirs, fs.files[p := data]))
  }

  /** `fs.readFileSync(p)` */
  function ReadFile(fs: Fs, p: string): (r: Res<Bytes>)
    ensures r.Success? <==> p in fs.files
    ensures r.Success? ==> r.value == fs.files[p]
  {
    if p in fs.files then Success(fs.files[p]) else if p in fs.dirs then Eisdir() else Enoent()
  }

  /** `fs.copyFileSync(src, dst)` */
  function CopyFile(fs: Fs, src: string, dst: string): (r: Res<Fs>)
    ensures r.Success? ==> src in fs.files && r.value == Fs(fs.dirs, fs.files[dst := fs.files[src]])
    ensures r.Success? <==> src in fs.files && WriteFile(fs, dst, fs.files[src]).Success?
  {
    var data :- ReadFile(fs, src);
    WriteFile(fs, dst, data)
  }

  /** `fs.renameSync(src, dst)` for a file: the content moves and the source name disappears. */
  function Rename(fs: Fs, src: string, dst: string): (r: Res<Fs>)
    ensures r.Success? <==> src in fs.files && WriteFile(fs, dst, fs.files[src]).Success?
    ensures r.Success? ==> r.value.dirs == fs.dirs
    ensures r.Success? ==> r.value.files == (fs.files - {src})[dst := fs.files[src]]
  {
    var data :- ReadFile(fs, src);
    if dst == "" || dst in fs.dirs then Eisdir()
    else if !IsDir(fs, Parent(dst)) then Enoent()
    else Success(Fs(fs.dirs, (fs.files - {src})[dst := data]))
  }

  /** `fs-extra`'s `removeSync(p)`: deletes `p` and everything below it; a missing path is not an error. */
  function Remove(fs: Fs, p: string): (r: Fs)
    ensures forall q | q in r.dirs :: q in fs.dirs && !Under(p, q)
    ensures forall q | q in fs.dirs && !Under(p, q) :: q in r.dirs
    ensures forall q | q in fs.files && !Under(p, q) :: q in r.files && r.files[q] == fs.files[q]
    ensures forall q | q in r.files :: q in fs.files && !Under(p, q)
  {
    Fs(set q | q in fs.dirs && !Under(p, q),
       map q | q in fs.files && !Under(p, q) :: fs.files[q])
  }

  /** `q` names an entry directly inside directory `d`. */
  predicate ChildOf(d: string, q: string) {
    Below(d, q) && '/' !in q[|d| + 1..]
  }

  /** The names `fs.readdirSync(d)` lists, as a set. */
  function Children(fs: Fs, d: string): set<string> {
    set q | q in fs.dirs + fs.files.Keys && ChildOf(d, q) :: q[|d| + 1..]
  }

  /** `fs.readdirSync(d)` */
  function ReadDir(fs: Fs, d: string): (r: Res<set<string>>)
    ensures r.Success? <==> d in fs.dirs
  {
    if d in fs.dirs then Success(Children(fs, d)) else Enoent()
  }

  /** The `/`-separated segments of a path; an empty path is one empty segment. */
  function Segments(p: string): (r: seq<string>)
    ensures |r| > 0
    decreases |p|
  {
    if |p| == 0 then [""]
    else
      var rest := Segments(p[1..]);
      if p[0] == '/' then [""] + rest else [[p[0]] + rest[0]] + rest[1..]
  }

  /**
   * A relative path of plain names: no segment is empty, `.` or `..`, so it
   * does not start with `/` and `path.join` appends it unchanged.
   */
  predicate PlainRelative(p: string) {
    forall seg | seg in Segments(p) :: seg != "" && seg != "." && seg != ".."
  }

  /** A url that climbs out of its directory is not a plain relative path. */
  lemma ClimbingNotPlain(p: string)
    ensures !PlainRelative("../" + p)
  {
    var q := "../" + p;
    assert q[1..][1..][1..] == p;
    assert Segments(q[1..][1..]) == [""] + Segments(p);
    assert Segments(q[1..])[0] == ".";
    assert Segments(q)[0] == "..";
    assert Segments(q)[0] in Segments(q);
  }

  /** `path.join(a, b)` for a relative `b` that needs no normalisation. */
  function Join(a: string, b: string): string {
    a + "/" + b
  }

  // ---------------------------------------------------------------------
  // Properties

  /** The parent of a joined path is the directory joined onto. */
  lemma {:induction false} ParentOfJoin(a: string, b: string)
    requires '/' !in b
    ensures Parent(Join(a, b)) == a
    decreases |b|
  {
    var p := Join(a, b);
    if |b| == 0 {
      assert p[..|p| - 1] == a;
    } else {
      assert p[|p| - 1] == b[|b| - 1];
      assert p[..|p| - 1] == Join(a, b[..|b| - 1]);
      ParentOfJoin(a, b[..|b| - 1]);
    }
  }

  /** A joined path lists under its directory with the joined name. */
  lemma ChildOfJoin(a: string, b: string)
    requires '/' !in b && b != ""
    ensures ChildOf(a, Join(a, b)) && Join(a, b)[|a| + 1..] == b
  {
    var p := Join(a, b);
    assert p[..|a| + 1] == a + "/";
    assert p[|a| + 1..] == b;
  }

  /**
   * Paths built from one directory and a slash-free name followed by a
   * `/`-led remainder nest only when the names agree.
   */
  lemma UnderSegment(p: string, a: string, b: string, rest: string)
    requires '/' !in a && '/' !in b
    requires rest == "" || rest[0] == '/'
    requires Under(p + "/" + a, p + "/" + b + rest)
    ensures a == b
  {
    var q := p + "/" + b + rest;
    var n := |p| + 1;
    assert forall i | 0 <= i < |b| :: q[n + i] == b[i];
    assert rest != "" ==> q[n + |b|] == '/';
    if q != p + "/" + a {
      assert q[..n + |a| + 1] == p + "/" + a + "/";
      assert forall i | 0 <= i < |a| :: q[n + i] == a[i];
      assert q[n + |a|] == '/';
      assert q[n..n + |a|] == a;
    }
  }

  /** The parent of a path strictly below `d` is `d` or again below `d`. */
  lemma {:induction false} BelowParent(d: string, q: string)
    requires Below(d, q)
    ensures Parent(q) == d || Below(d, Parent(q))
    decreases |q|
  {
    var q1 := q[..|q| - 1];
    if q[|q| - 1] == '/' {
      if |q1| > |d| {
        assert q1[..|d| + 1] == q[..|d| + 1];
      }
    } else {
      assert q1[..|d| + 1] == q[..|d| + 1];
      BelowParent(d, q1);
    }
  }

  /** In a well-formed tree nothing lies below a path that is not a directory. */
  lemma {:induction false} NothingBelowMissing(fs: Fs, d: string, q: string)
    requires Wf(fs) && d != "" && d !in fs.dirs && Below(d, q)
    ensures q !in fs.files && q !in fs.dirs
    decreases |q|
  {
    if q in fs.files || q in fs.dirs {
      BelowParent(d, q);
      NothingBelowMissing(fs, d, Parent(q));
    }
  }

  /** Whatever lies under `a/x` lies strictly below `a`. */
  lemma UnderChild(a: string, x: string, q: string)
    requires Under(a + "/" + x, q)
    ensures Below(a, q)
  {
    if q == a + "/" + x {
      assert q[..|a| + 1] == a + "/";
    } else {
      assert q[..|a| + 1] == (a + "/" + x + "/")[..|a| + 1];
    }
  }

  /** Two-segment paths under one directory nest only when both segments agree. */
  lemma UnderTwoSegments(p: string, a1: string, b1: string, a2: string, b2: string, rest: string)
    requires '/' !in a1 && '/' !in b1 && '/' !in a2 && '/' !in b2
    requires rest == "" || rest[0] == '/'
    requires Under(p + "/" + a1 + "/" + b1, p + "/" + a2 + "/" + b2 + rest)
    ensures a1 == a2 && b1 == b2
  {
    var q := p + "/" + a2 + "/" + b2 + rest;
    UnderChild(p + "/" + a1, b1, q);
    assert q == p + "/" + a2 + ("/" + b2 + rest);
    UnderSegment(p, a1, a2, "/" + b2 + rest);
    assert q == (p + "/" + a1) + "/" + b2 + rest;
    UnderSegment(p + "/" + a1, b1, b2, rest);
  }

  /** A path extended by a `/`-led remainder lies under the path. */
  lemma UnderExtend(d: string, rest: string)
    requires rest == "" || rest[0] == '/'
    ensures Under(d, d + rest)
  {
    if rest != "" {
      assert (d + rest)[..|d| + 1] == d + "/";
    }
  }

  lemma PrefixCancel(a: string, x: string, y: string)
    requires a + x == a + y
    ensures x == y
  {
    assert x == (a + x)[|a|..];
    assert y == (a + y)[|a|..];
  }

  /** Two paths of two segments below one directory coincide only segment by segment. */
  lemma SegmentsMatch(p: string, a: string, b: string, x: string, y: string)
    requires '/' !in a && '/' !in b && '/' !in x
    requires p + "/" + a + "/" + x == p + "/" + b + "/" + y
    ensures a == b && x == y
  {
    var d1 := p + "/" + a;
    UnderExtend(d1, "/" + x);
    assert d1 + ("/" + x) == d1 + "/" + x;
    assert p + "/" + b + "/" + y == p + "/" + b + ("/" + y);
    UnderSegment(p, a, b, "/" + y);
    PrefixCancel(d1 + "/", x, y);
  }
}

=== FILE: fs_burrito_store.dfy ===
/**
 * The file-system burrito store: construction of its three component stores
 * under one storage directory, the id-server name lookup, ingredient
 * locations, and the export of a variant to a fresh directory.
 *
 * `path.join` is modelled as `Join`, which agrees with it on ingredient urls
 * that are plain relative paths (`PlainRelative`); the confinement lemmas
 * assume such urls. The parent directory of `toPath/url` is `Parent`.
 */
module FsBurritoStore {

  import opened Wrappers
  import opened JsonValue
  import opened Errors
  import opened Js
  import opened FileTree
  import opened StoreState
  import MetadataIndex
  import IngredientsStore
  import Buffer
  import BurritoStore

  // ---------------------------------------------------------------------
  // Construction

  /**
   * `initializeIngredientsAndMetadataStores`: refuses an empty storage
   * directory, creates it when missing, then constructs the metadata store,
   * the ingredients store and the buffer, in that order.
   */
  function InitializeStores(s: Store): (st: Step<()>)
    ensures s.sDir == "" ==> st == Failed(s, StorageDirNotDefined)
    ensures st.state.sDir == s.sDir
    ensures st.result.Success? ==>
              && st.state.urls == map[] && st.state.idServers == map[] && st.state.uuidUrls == map[]
              && Exists(st.state.fs, s.sDir)
              && Exists(st.state.fs, MetadataIndex.MetadataDir(s.sDir))
              && Exists(st.state.fs, IngredientsStore.IngredientsDir(s.sDir))
              && Buffer.BufferDir(s.sDir) in st.state.fs.dirs
  {
    if s.sDir == "" then Failed(s, StorageDirNotDefined)
    else
      var made := if Exists(s.fs, s.sDir) then Success(s.fs) else Mkdir(s.fs, s.sDir);
      match made
      case Failure(err) => Step(s, Failure(err))
      case Success(fs0) =>
        var st1 := MetadataIndex.Init(s.(fs := fs0));
        if st1.result.Failure? then st1
        else
          var st2 := IngredientsStore.Init(st1.state);
          if st2.result.Failure? then st2
          else
            SiblingsApart(s.sDir);
            Buffer.Init(st2.state)
  }

  /** The buffer directory holds neither the storage directory nor its metadata and ingredients directories. */
  lemma SiblingsApart(sDir: string)
    ensures !Under(Buffer.BufferDir(sDir), sDir)
    ensures !Under(Buffer.BufferDir(sDir), MetadataIndex.MetadataDir(sDir))
    ensures !Under(Buffer.BufferDir(sDir), IngredientsStore.IngredientsDir(sDir))
  {
    var n := |sDir|;
    assert Buffer.BufferDir(sDir)[n + 1] == 'b';
    assert MetadataIndex.MetadataDir(sDir)[n + 1] == 'm';
    assert IngredientsStore.IngredientsDir(sDir)[n + 1] == 'i';
  }

  /**
   * A freshly initialised store holds nothing: no publisher, no variant for
   * either lookup, no buffered handle and no staged content.
   */
  lemma InitializedStoreEmpty(s: Store, u: string, e: string, r: string, v: string, h: string)
    requires Wf(s.fs)
    requires InitializeStores(s).result.Success?
    ensures var t := InitializeStores(s).state;
            && MetadataIndex.IdServerKeys(t) == {}
            && BurritoStore.ExportToObject(t, u, e, r, v) == Fail(VariantNotFoundInStore)
            && BurritoStore.MetadataContent(t, u, e, r, v) == Fail(VariantMetadataNotFound)
            && Buffer.List(t) == {}
            && Buffer.Read(t, h) == Fail(IngredientNotInBuffer)
            && forall q | q in t.fs.files :: !Under(Buffer.BufferDir(s.sDir), q)
  {
    var fs0 := if Exists(s.fs, s.sDir) then s.fs else Mkdir(s.fs, s.sDir).value;
    var st1 := MetadataIndex.Init(s.(fs := fs0));
    var st2 := IngredientsStore.Init(st1.state);
    assert Wf(st1.state.fs);
    assert Wf(st2.state.fs) by {
      if !Exists(st1.state.fs, IngredientsStore.IngredientsDir(s.sDir)) {
        assert st2.state.fs == Mkdir(st1.state.fs, IngredientsStore.IngredientsDir(s.sDir)).value;
      }
    }
    Buffer.InitEmpties(st2.state, h);
  }

  // ---------------------------------------------------------------------
  // Lookups

  /**
   * `idServerName`: the name of a recorded id server in the given language
   * ("en" by default), or its id when the record has no name. An unknown
   * server is a `TypeError`.
   */
  function IdServerName(s: Store, server: string, nameLang: Value): (r: Res<Value>)
    ensures server !in s.idServers ==> r == Fail(TypeError)
    ensures server in s.idServers && s.idServers[server].JObj? ==>
              var rec := Some(s.idServers[server]);
              var lang := if Truthy(nameLang) then ToStr(nameLang) else "en";
              && (Field(rec, "name").Some? ==> r == Get(Field(rec, "name"), lang))
              && (Field(rec, "name").None? ==> r == Success(Field(rec, "id")))
  {
    var lang := if Truthy(nameLang) then nameLang else Str("en");
    var details := if server in s.idServers then Some(s.idServers[server]) else None;
    var named :- HasProperty(details, "name");
    if named then
      var name :- Get(details, "name");
      Get(name, ToStr(lang))
    else Get(details, "id")
  }

  /** With no language given, or an empty one, the English name is returned. */
  lemma NameDefaultsToEnglish(s: Store, server: string)
    ensures IdServerName(s, server, None) == IdServerName(s, server, Str("en"))
    ensures IdServerName(s, server, Str("")) == IdServerName(s, server, Str("en"))
  {
    assert ToStr(Str("en")) == "en";
  }

  /** `ingredientLocation`: where the declared content of an ingredient is kept. */
  function IngredientLocation(s: Store, u: string, e: string, r: string, v: string, url: string): (res: Res<string>)
    ensures res.Success? <==> IngredientsStore.DeclaredMd5(MetadataIndex.VariantMetadata(s, u, e, r, v), url).Success?
    ensures res.Success? ==>
              res.value == IngredientsStore.ContentPath(s.sDir, u, e, url,
                             ToStr(IngredientsStore.DeclaredMd5(MetadataIndex.VariantMetadata(s, u, e, r, v), url).value))
  {
    IngredientsStore.IngredientLocation(s, u, e, url, MetadataIndex.VariantMetadata(s, u, e, r, v))
  }

  /** The content `ingredientContent` returns is the file at the location `ingredientLocation` gives. */
  lemma ContentAtLocation(s: Store, u: string, e: string, r: string, v: string, url: string)
    requires BurritoStore.IngredientContent(s, u, e, r, v, url).Success?
    ensures IngredientLocation(s, u, e, r, v, url).Success?
    ensures ReadFile(s.fs, IngredientLocation(s, u, e, r, v, url).value) == BurritoStore.IngredientContent(s, u, e, r, v, url)
  {
  }

  // ---------------------------------------------------------------------
  // Export to a directory

  predicate Present(listing: map<string, bool>, url: string) {
    url in listing && listing[url]
  }

  /** The files the export loop writes: one per present url of `order`. */
  function Written(toPath: string, order: seq<string>, listing: map<string, bool>): set<string> {
    set url | url in order && Present(listing, url) :: Join(toPath, url)
  }

  /** The files an export of a listing writes: `toPath/url` for each url flagged present. */
  function ListedPaths(toPath: string, listing: map<string, bool>): set<string> {
    set url | url in listing && listing[url] :: Join(toPath, url)
  }

  /** Run over the listing's keys, the loop writes exactly the listed paths. */
  lemma WrittenListed(toPath: string, order: seq<string>, listing: map<string, bool>)
    requires KeyOrder(order, listing)
    ensures Written(toPath, order, listing) == ListedPaths(toPath, listing)
  {
    forall q | q in ListedPaths(toPath, listing)
      ensures q in Written(toPath, order, listing)
    {
      var url :| url in listing && listing[url] && q == Join(toPath, url);
      assert url in order;
      assert Present(listing, url);
    }
  }

  /**
   * The loop of `exportToDir` over the variant's ingredients, in `order`
   * (the key order of the metadata's ingredients): each one flagged present
   * is read from the store and written to `toPath/url`, creating its
   * directory when missing.
   */
  function ExportIngredients(s: Store, u: string, e: string, r: string, v: string,
                             toPath: string, order: seq<string>, listing: map<string, bool>): (st: Step<()>)
    ensures st.state == s.(fs := st.state.fs)
    ensures forall q | q in s.fs.files && q !in Written(toPath, order, listing) ::
              q in st.state.fs.files && st.state.fs.files[q] == s.fs.files[q]
    ensures forall q | q in st.state.fs.files && (q !in s.fs.files || st.state.fs.files[q] != s.fs.files[q]) ::
              q in Written(toPath, order, listing)
    decreases |order|
  {
    if |order| == 0 then Step(s, Success(()))
    else
      var url := order[0];
      assert Written(toPath, order[1..], listing) <= Written(toPath, order, listing);
      if !Present(listing, url) then ExportIngredients(s, u, e, r, v, toPath, order[1..], listing)
      else
        var dest := Join(toPath, url);
        assert dest in Written(toPath, order, listing);
        var made := if Exists(s.fs, Parent(dest)) then Success(s.fs) else MkdirP(s.fs, Parent(dest));
        match made
        case Failure(err) => Step(s, Failure(err))
        case Success(fs1) =>
          var s1 := s.(fs := fs1);
          match BurritoStore.IngredientContent(s1, u, e, r, v, url)
          case Failure(err) => Step(s1, Failure(err))
          case Success(content) =>
            match WriteFile(fs1, dest, content)
            case Failure(err) => Step(s1, Failure(err))
            case Success(fs2) => ExportIngredients(s.(fs := fs2), u, e, r, v, toPath, order[1..], listing)
  }

  /** Where the store keeps the declared content of `url`. */
  function Location(s: Store, u: string, e: string, r: string, v: string, url: string): Res<string> {
    IngredientsStore.IngredientLocation(s, u, e, url, MetadataIndex.VariantMetadata(s, u, e, r, v))
  }

  /** The declared content of `url` is a file the loop does not overwrite. */
  predicate Readable(s: Store, u: string, e: string, r: string, v: string, url: string,
                     toPath: string, order: seq<string>, listing: map<string, bool>) {
    && Location(s, u, e, r, v, url).Success?
    && Location(s, u, e, r, v, url).value in s.fs.files
    && Location(s, u, e, r, v, url).value !in Written(toPath, order, listing)
  }

  lemma JoinInjective(d: string, a: string, b: string)
    ensures Join(d, a) == Join(d, b) ==> a == b
  {
    if Join(d, a) == Join(d, b) {
      assert Join(d, a)[|d| + 1..] == a;
      assert Join(d, b)[|d| + 1..] == b;
    }
  }

  /**
   * When the loop completes, every present url of `order` whose declared
   * content is readable has been written to `toPath/url` with exactly that
   * content.
   */
  lemma {:induction false} ExportedAlong(s: Store, u: string, e: string, r: string, v: string,
                                           toPath: string, order: seq<string>, listing: map<string, bool>)
    requires ExportIngredients(s, u, e, r, v, toPath, order, listing).result.Success?
    ensures var t := ExportIngredients(s, u, e, r, v, toPath, order, listing).state;
            forall url | url in order && Present(listing, url) && Readable(s, u, e, r, v, url, toPath, order, listing) ::
              Join(toPath, url) in t.fs.files && t.fs.files[Join(toPath, url)] == s.fs.files[Location(s, u, e, r, v, url).value]
    decreases |order|
  {
    if |order| > 0 {
      var url := order[0];
      var tail := order[1..];
      assert Written(toPath, tail, listing) <= Written(toPath, order, listing);
      var t := ExportIngredients(s, u, e, r, v, toPath, order, listing).state;
      if !Present(listing, url) {
        assert ExportIngredients(s, u, e, r, v, toPath, order, listing) == ExportIngredients(s, u, e, r, v, toPath, tail, listing);
        ExportedAlong(s, u, e, r, v, toPath, tail, listing);
        forall url2 | url2 in order && Present(listing, url2) && Readable(s, u, e, r, v, url2, toPath, order, listing)
          ensures Join(toPath, url2) in t.fs.files && t.fs.files[Join(toPath, url2)] == s.fs.files[Location(s, u, e, r, v, url2).value]
        {
          assert url2 in tail;
        }
      } else {
        var dest := Join(toPath, url);
        var fs1 := if Exists(s.fs, Parent(dest)) then s.fs else MkdirP(s.fs, Parent(dest)).value;
        var s1 := s.(fs := fs1);
        var content := BurritoStore.IngredientContent(s1, u, e, r, v, url).value;
        var s2 := s.(fs := WriteFile(fs1, dest, content).value);
        assert ExportIngredients(s, u, e, r, v, toPath, order, listing) == ExportIngredients(s2, u, e, r, v, toPath, tail, listing);
        assert s2.fs.files == s.fs.files[dest := content];
        assert forall url2 :: Location(s2, u, e, r, v, url2) == Location(s, u, e, r, v, url2);
        ExportedAlong(s2, u, e, r, v, toPath, tail, listing);
        ExportPresentStep(s, s2, u, e, r, v, toPath, order, listing, content);
      }
    }
  }

  /**
   * Run over the listing's keys, the loop leaves at `toPath/url`, for every
   * url flagged present, the stored content at its declared checksum,
   * unless that content is itself one of the paths the loop writes.
   */
  lemma ExportedContent(s: Store, u: string, e: string, r: string, v: string,
                        toPath: string, order: seq<string>, listing: map<string, bool>)
    requires KeyOrder(order, listing)
    requires ExportIngredients(s, u, e, r, v, toPath, order, listing).result.Success?
    ensures var t := ExportIngredients(s, u, e, r, v, toPath, order, listing).state;
            forall url | Present(listing, url) && Location(s, u, e, r, v, url).Success?
                         && Location(s, u, e, r, v, url).value in s.fs.files
                         && Location(s, u, e, r, v, url).value !in ListedPaths(toPath, listing) ::
              Join(toPath, url) in t.fs.files && t.fs.files[Join(toPath, url)] == s.fs.files[Location(s, u, e, r, v, url).value]
  {
    WrittenListed(toPath, order, listing);
    ExportedAlong(s, u, e, r, v, toPath, order, listing);
    forall url | Present(listing, url) ensures url in order {
    }
  }

  /** The loop step for a present url: its content lands at `toPath/url` and the rest of the loop keeps it there. */
  lemma ExportPresentStep(s: Store, s2: Store, u: string, e: string, r: string, v: string,
                          toPath: string, order: seq<string>, listing: map<string, bool>, content: Bytes)
    requires |order| > 0 && Present(listing, order[0])
    requires s2.fs.files == s.fs.files[Join(toPath, order[0]) := content]
    requires forall url2 :: Location(s2, u, e, r, v, url2) == Location(s, u, e, r, v, url2)
    requires Location(s, u, e, r, v, order[0]).Success? && Location(s, u, e, r, v, order[0]).value in s.fs.files
    requires content == s.fs.files[Location(s, u, e, r, v, order[0]).value]
    requires var t := ExportIngredients(s2, u, e, r, v, toPath, order[1..], listing).state;
             forall url | url in order[1..] && Present(listing, url) && Readable(s2, u, e, r, v, url, toPath, order[1..], listing) ::
               Join(toPath, url) in t.fs.files && t.fs.files[Join(toPath, url)] == s2.fs.files[Location(s2, u, e, r, v, url).value]
    ensures var t := ExportIngredients(s2, u, e, r, v, toPath, order[1..], listing).state;
            forall url | url in order && Present(listing, url) && Readable(s, u, e, r, v, url, toPath, order, listing) ::
              Join(toPath, url) in t.fs.files && t.fs.files[Join(toPath, url)] == s.fs.files[Location(s, u, e, r, v, url).value]
  {
    var url := order[0];
    var tail := order[1..];
    var dest := Join(toPath, url);
    var t := ExportIngredients(s2, u, e, r, v, toPath, tail, listing).state;
    assert Written(toPath, tail, listing) <= Written(toPath, order, listing);
    forall url2 | url2 in order && Present(listing, url2) && Readable(s, u, e, r, v, url2, toPath, order, listing)
      ensures Join(toPath, url2) in t.fs.files && t.fs.files[Join(toPath, url2)] == s.fs.files[Location(s, u, e, r, v, url2).value]
    {
      var loc := Location(s, u, e, r, v, url2).value;
      assert dest in Written(toPath, order, listing);
      assert loc != dest;
      if url2 in tail {
        assert Readable(s2, u, e, r, v, url2, toPath, tail, listing);
      } else {
        assert url2 == url;
        if dest in Written(toPath, tail, listing) {
          var url3 :| url3 in tail && Present(listing, url3) && dest == Join(toPath, url3);
          JoinInjective(toPath, url, url3);
        }
      }
    }
  }

  /** The steps of `exportToDir` before the loop: make `toPath`, write `metadata.json` into it. */
  function ExportStart(s: Store, toPath: string, md: Json, stringify: Json -> Bytes): (st: Step<()>)
    ensures st.state == s.(fs := st.state.fs)
    ensures st.result.Success? ==>
              && toPath != "" && toPath !in s.fs.dirs && toPath !in s.fs.files
              && st.state.fs == Fs(s.fs.dirs + {toPath}, s.fs.files[Join(toPath, "metadata.json") := stringify(md)])
  {
    match Mkdir(s.fs, toPath)
    case Failure(err) => Step(s, Failure(err))
    case Success(fs1) =>
      match WriteFile(fs1, Join(toPath, "metadata.json"), stringify(md))
      case Failure(err) => Step(s.(fs := fs1), Failure(err))
      case Success(fs2) => Step(s.(fs := fs2), Success(()))
  }

  /**
   * `order` is the key order of the metadata's ingredients, which is the
   * order `Object.entries` gives the listing built from them.
   */
  ghost predicate OrdersIngredients(order: seq<string>, md: Value) {
    ObjectEntries(Field(md, "ingredients")).Success? ==> KeyOrder(order, ObjectEntries(Field(md, "ingredients")).value)
  }

  /**
   * `exportToDir`: refuses a missing variant and an existing target, then
   * makes the target directory, writes the metadata into it, and copies out
   * every ingredient the listing (taken after the metadata is written) flags
   * as present.
   */
  function ExportToDir(s: Store, u: string, e: string, r: string, v: string,
                       toPath: string, order: seq<string>, stringify: Json -> Bytes): (st: Step<()>)
    requires OrdersIngredients(order, MetadataIndex.VariantMetadata(s, u, e, r, v))
    ensures !Truthy(MetadataIndex.VariantMetadata(s, u, e, r, v)) ==> st == Failed(s, VariantNotFoundInStore)
    ensures Truthy(MetadataIndex.VariantMetadata(s, u, e, r, v)) && Exists(s.fs, toPath) ==> st == Failed(s, ExportPathAlreadyExists)
    ensures st.state == s.(fs := st.state.fs)
    ensures st.result.Success? ==>
              && var md := MetadataIndex.VariantMetadata(s, u, e, r, v);
              && Truthy(md)
              && var start := ExportStart(s, toPath, md.value, stringify);
              && start.result.Success?
              && BurritoStore.Ingredients(start.state, u, e, r, v).Success?
              && st == ExportIngredients(start.state, u, e, r, v, toPath, order, BurritoStore.Ingredients(start.state, u, e, r, v).value)
  {
    var md := MetadataIndex.VariantMetadata(s, u, e, r, v);
    if !Truthy(md) then Failed(s, VariantNotFoundInStore)
    else if Exists(s.fs, toPath) then Failed(s, ExportPathAlreadyExists)
    else
      var start := ExportStart(s, toPath, md.value, stringify);
      if start.result.Failure? then start
      else match BurritoStore.Ingredients(start.state, u, e, r, v)
        case Failure(err) => Step(start.state, Failure(err))
        case Success(listing) => ExportIngredients(start.state, u, e, r, v, toPath, order, listing)
  }

  /**
   * Every file `exportToDir` writes lies below the target directory, when
   * the ingredient urls are plain relative paths.
   */
  lemma WrittenBelow(toPath: string, listing: map<string, bool>)
    requires forall url | url in listing :: PlainRelative(url)
    ensures forall q | q in ListedPaths(toPath, listing) :: Below(toPath, q)
    ensures Below(toPath, Join(toPath, "metadata.json"))
  {
    forall q | q in ListedPaths(toPath, listing) ensures Below(toPath, q) {
      var url :| url in listing && listing[url] && q == Join(toPath, url);
      assert q[..|toPath| + 1] == toPath + "/";
    }
    assert Join(toPath, "metadata.json")[..|toPath| + 1] == toPath + "/";
  }

  /**
   * The file-system side of an export: around a loop that changes only the
   * paths it writes, the tree gains `metadata.json` and the listed paths
   * below the new target, and keeps every file outside it.
   */
  lemma ExportFrame(s: Fs, start: Fs, t: Fs, toPath: string, mdBytes: Bytes,
                    order: seq<string>, listing: map<string, bool>)
    requires Wf(s) && toPath != "" && toPath !in s.dirs && toPath !in s.files
    requires start.files == s.files[Join(toPath, "metadata.json") := mdBytes]
    requires KeyOrder(order, listing)
    requires forall url | url in listing :: PlainRelative(url)
    requires forall q | q in start.files && q !in Written(toPath, order, listing) ::
               q in t.files && t.files[q] == start.files[q]
    requires forall q | q in t.files && (q !in start.files || t.files[q] != start.files[q]) ::
               q in Written(toPath, order, listing)
    ensures forall q | q in s.files :: !Below(toPath, q) && q != Join(toPath, "metadata.json") && q !in ListedPaths(toPath, listing)
    ensures Join(toPath, "metadata.json") !in ListedPaths(toPath, listing) ==>
              Join(toPath, "metadata.json") in t.files && t.files[Join(toPath, "metadata.json")] == mdBytes
    ensures forall q | q in t.files && (q !in s.files || t.files[q] != s.files[q]) ::
              q == Join(toPath, "metadata.json") || q in ListedPaths(toPath, listing)
    ensures forall q | q in s.files && !Under(toPath, q) :: q in t.files && t.files[q] == s.files[q]
  {
    WrittenBelow(toPath, listing);
    WrittenListed(toPath, order, listing);
    forall q | q in s.files
      ensures !Below(toPath, q)
    {
      if Below(toPath, q) {
        NothingBelowMissing(s, toPath, q);
      }
    }
  }

  /**
   * A completed export over a well-formed tree, its ingredient urls plain
   * relative paths: the target holds the serialised metadata (unless an
   * ingredient is itself named `metadata.json`) and, at `toPath/url`, the
   * stored content of every ingredient flagged present; no other file
   * changes.
   */
  lemma ExportWrites(s: Store, u: string, e: string, r: string, v: string,
                     toPath: string, order: seq<string>, stringify: Json -> Bytes)
    requires Wf(s.fs)
    requires OrdersIngredients(order, MetadataIndex.VariantMetadata(s, u, e, r, v))
    requires forall url | url in order :: PlainRelative(url)
    requires ExportToDir(s, u, e, r, v, toPath, order, stringify).result.Success?
    ensures var md := MetadataIndex.VariantMetadata(s, u, e, r, v).value;
            var start := ExportStart(s, toPath, md, stringify).state;
            var listing := BurritoStore.Ingredients(start, u, e, r, v).value;
            var t := ExportToDir(s, u, e, r, v, toPath, order, stringify).state;
            && (Join(toPath, "metadata.json") !in ListedPaths(toPath, listing) ==>
                  t.fs.files[Join(toPath, "metadata.json")] == stringify(md))
            && (forall url | Present(listing, url)
                             && Location(s, u, e, r, v, url).Success? && Location(s, u, e, r, v, url).value in s.fs.files ::
                  Join(toPath, url) in t.fs.files && t.fs.files[Join(toPath, url)] == s.fs.files[Location(s, u, e, r, v, url).value])
            && (forall q | q in t.fs.files && (q !in s.fs.files || t.fs.files[q] != s.fs.files[q]) ::
                  q == Join(toPath, "metadata.json") || q in ListedPaths(toPath, listing))
            && (forall q | q in s.fs.files && !Under(toPath, q) :: q in t.fs.files && t.fs.files[q] == s.fs.files[q])
  {
    var md := MetadataIndex.VariantMetadata(s, u, e, r, v).value;
    var start := ExportStart(s, toPath, md, stringify).state;
    var listing := BurritoStore.Ingredients(start, u, e, r, v).value;
    var t := ExportToDir(s, u, e, r, v, toPath, order, stringify).state;
    assert t == ExportIngredients(start, u, e, r, v, toPath, order, listing).state;
    assert start.fs.files == s.fs.files[Join(toPath, "metadata.json") := stringify(md)];
    ListingOrdered(s, start, u, e, r, v, order, listing);
    ExportFrame(s.fs, start.fs, t.fs, toPath, stringify(md), order, listing);
    ExportedOut(s, start, t.fs, u, e, r, v, toPath, order, listing);
  }

  /** The content clause of an export, read against the store before the metadata was written. */
  lemma ExportedOut(s: Store, start: Store, t: Fs, u: string, e: string, r: string, v: string,
                    toPath: string, order: seq<string>, listing: map<string, bool>)
    requires start == s.(fs := start.fs)
    requires KeyOrder(order, listing)
    requires ExportIngredients(start, u, e, r, v, toPath, order, listing).result.Success?
    requires t == ExportIngredients(start, u, e, r, v, toPath, order, listing).state.fs
    requires forall q | q in s.fs.files :: q !in ListedPaths(toPath, listing) && q in start.fs.files && start.fs.files[q] == s.fs.files[q]
    ensures forall url | Present(listing, url)
                         && Location(s, u, e, r, v, url).Success? && Location(s, u, e, r, v, url).value in s.fs.files ::
              Join(toPath, url) in t.files && t.files[Join(toPath, url)] == s.fs.files[Location(s, u, e, r, v, url).value]
  {
    assert forall url2 :: Location(start, u, e, r, v, url2) == Location(s, u, e, r, v, url2);
    ExportedContent(start, u, e, r, v, toPath, order, listing);
  }

  /** The listing the export loop runs over has `order` as its key order, and its urls are plain. */
  lemma ListingOrdered(s: Store, start: Store, u: string, e: string, r: string, v: string,
                       order: seq<string>, listing: map<string, bool>)
    requires OrdersIngredients(order, MetadataIndex.VariantMetadata(s, u, e, r, v))
    requires forall url | url in order :: PlainRelative(url)
    requires start.urls == s.urls
    requires BurritoStore.Ingredients(start, u, e, r, v) == Success(listing)
    ensures KeyOrder(order, listing)
    ensures forall url | url in listing :: PlainRelative(url)
  {
    var md := MetadataIndex.VariantMetadata(s, u, e, r, v);
    assert md == Some(start.urls[u][e][r][v]);
    var entries := ObjectEntries(Field(md, "ingredients")).value;
    assert listing.Keys == entries.Keys;
  }
}

=== FILE: identity.dfy ===
/**
 * Deriving a document's store key from its identification block
 * (`idFromMetadataObject`).
 *
 * A document names one or more id servers in `identification.systemId`,
 * keyed by abbreviation; the store key comes from the one entry that carries
 * a `revision`: the publisher URL is `idServers[abbr].id`, the entry id and
 * revision come from the system-id record. Any exception on the way yields
 * `[null, null, null]`.
 */
module Identity {

  import opened Wrappers
  import opened JsonValue
  import opened Errors
  import opened Js

  /** `[sysUrl, entryId, revisionId]` */
  datatype MetadataId = MetadataId(sysUrl: Value, entryId: Value, revision: Value)

  /** `[null, null, null]`, the answer after any exception. */
  const NoId := MetadataId(Some(JNull), Some(JNull), Some(JNull))

  /** The starting values: `sysUrl` and `entryId` undefined, `revisionId` null. */
  const Unset := MetadataId(None, None, Some(JNull))

  /** `'revision' in x` does not throw on `x`. */
  predicate Testable(j: Json) {
    j.JObj? || j.JArr?
  }

  predicate Revisioned(j: Json) {
    j.JObj? && "revision" in j.fields
  }

  /** `idServers[abbr].id` */
  function IdServerUrl(idServers: Value, abbr: string): Res<Value> {
    var rec :- Get(idServers, abbr);
    Get(rec, "id")
  }

  /** The record a revisioned system id contributes, with the publisher URL found for it. */
  function Contribution(url: Value, j: Json): MetadataId {
    MetadataId(url, Field(Some(j), "id"), Field(Some(j), "revision"))
  }

  /** `metadata.idServers` and `metadata.identification.systemId`. */
  function Sources(doc: Value): Res<(Value, Value)> {
    var idServers :- Get(doc, "idServers");
    var sys :- GetPath(doc, ["identification", "systemId"]);
    var _ :- ObjectKeys(sys);
    Success((idServers, sys))
  }

  /** The system-id records as a map (empty unless `systemId` is an object). */
  function SystemIds(doc: Value): map<string, Json> {
    var src := Sources(doc);
    if src.Success? && src.value.1.Some? && src.value.1.value.JObj? then src.value.1.value.fields else map[]
  }

  function Outcome(r: Res<MetadataId>): MetadataId {
    if r.Success? then r.value else NoId
  }

  function RevisionedKeys(m: map<string, Json>, keys: set<string>): set<string>
    requires keys <= m.Keys
  {
    set k | k in keys && Revisioned(m[k])
  }

  lemma SingletonUnique(s: set<string>)
    requires |s| == 1
    ensures exists a :: a in s
    ensures forall a, b | a in s && b in s :: a == b
  {
    assert s != {};
    var a :| a in s;
    assert |s - {a}| == 0;
    assert s - {a} == {};
  }

  /**
   * The intended key choice among the records named by `keys`: a `TypeError`
   * if one of them cannot be searched for `revision`, the unset triple if none
   * has a revision, the one revisioned record's key if exactly one has, and a
   * rejection if several have.
   */
  function Pick(idServers: Value, m: map<string, Json>, keys: set<string>): Res<MetadataId>
    requires keys <= m.Keys
  {
    if exists k | k in keys :: !Testable(m[k]) then Failure(Raise(TypeError))
    else
      var revs := RevisionedKeys(m, keys);
      if |revs| == 0 then Success(Unset)
      else if |revs| > 1 then Failure(Raise(UnableToFindMetadataId))
      else
        SingletonUnique(revs);
        var k :| k in revs;
        var url :- IdServerUrl(idServers, k);
        Success(Contribution(url, m[k]))
  }

  /** `k` is the only system id with a revision, and every system id is a record. */
  ghost predicate Identifies(doc: Value, k: string) {
    var m := SystemIds(doc);
    && Sources(doc).Success?
    && k in m && Revisioned(m[k])
    && (forall k2 | k2 in m :: Testable(m[k2]) && (Revisioned(m[k2]) ==> k2 == k))
  }

  /**
   * `idFromMetadataObject`, as its documentation states it: the key of the one
   * system id with a revision, `[null, null, null]` when there are several or
   * when a lookup throws.
   */
  function IdFromMetadata(doc: Value): (id: MetadataId)
    ensures forall k | Identifies(doc, k) ::
              var url := IdServerUrl(Sources(doc).value.0, k);
              id == (if url.Success? then Contribution(url.value, SystemIds(doc)[k]) else NoId)
    ensures Truthy(id.sysUrl) ==> exists k :: Identifies(doc, k)
  {
    var src := Sources(doc);
    if src.Failure? then NoId
    else
      var (idServers, sys) := src.value;
      if sys.Some? && sys.value.JObj? then
        var m := sys.value.fields;
        var r := Pick(idServers, m, m.Keys);
        PickIdentifies(doc, idServers, m);
        Outcome(r)
      else Unset
  }

  lemma PickIdentifies(doc: Value, idServers: Value, m: map<string, Json>)
    requires Sources(doc).Success? && Sources(doc).value.0 == idServers
    requires SystemIds(doc) == m && Sources(doc).value.1 == Some(JObj(m))
    ensures forall k | Identifies(doc, k) ::
              var url := IdServerUrl(idServers, k);
              Outcome(Pick(idServers, m, m.Keys)) == (if url.Success? then Contribution(url.value, m[k]) else NoId)
    ensures Truthy(Outcome(Pick(idServers, m, m.Keys)).sysUrl) ==> exists k :: Identifies(doc, k)
  {
    forall k | Identifies(doc, k)
      ensures var url := IdServerUrl(idServers, k);
              Outcome(Pick(idServers, m, m.Keys)) == (if url.Success? then Contribution(url.value, m[k]) else NoId)
    {
      assert RevisionedKeys(m, m.Keys) == {k};
    }
    var r := Pick(idServers, m, m.Keys);
    if Truthy(Outcome(r).sysUrl) {
      var revs := RevisionedKeys(m, m.Keys);
      SingletonUnique(revs);
      var k :| k in revs;
      assert !(exists k' | k' in m.Keys :: !Testable(m[k']));
      forall k2 | k2 in m ensures Testable(m[k2]) && (Revisioned(m[k2]) ==> k2 == k) {
        if Revisioned(m[k2]) { assert k2 in revs; }
      }
      assert Identifies(doc, k);
    }
  }

  // ---------------------------------------------------------------------
  // The scan as the code writes it

  /** `order` is the `Object.keys` enumeration of the document's system ids. */
  predicate ListsSystemIds(doc: Value, order: seq<string>) {
    var m := SystemIds(doc);
    && (forall i | 0 <= i < |order| :: order[i] in m)
    && (forall k | k in m :: k in order)
    && (forall i, j | 0 <= i < j < |order| :: order[i] != order[j])
  }

  /**
   * The `forEach` over the system ids: a record with a revision is refused
   * only when the publisher URL found so far is truthy, so an earlier match
   * whose id server has no `id` is silently replaced.
   */
  function ScanAsWritten(idServers: Value, m: map<string, Json>, order: seq<string>, acc: MetadataId): Res<MetadataId>
    requires forall i | 0 <= i < |order| :: order[i] in m
    decreases |order|
  {
    if |order| == 0 then Success(acc)
    else
      var j := m[order[0]];
      var hasRevision :- HasProperty(Some(j), "revision");
      if !hasRevision then ScanAsWritten(idServers, m, order[1..], acc)
      else if Truthy(acc.sysUrl) then Failure(Raise(UnableToFindMetadataId))
      else
        var url :- IdServerUrl(idServers, order[0]);
        ScanAsWritten(idServers, m, order[1..], Contribution(url, j))
  }

  /** `idFromMetadataObject` as written, given the key order `Object.keys` yields. */
  function IdFromMetadataAsWritten(doc: Value, order: seq<string>): MetadataId
    requires ListsSystemIds(doc, order)
  {
    var src := Sources(doc);
    if src.Failure? then NoId
    else
      var (idServers, sys) := src.value;
      if sys.Some? && sys.value.JObj? then Outcome(ScanAsWritten(idServers, sys.value.fields, order, Unset))
      else Unset
  }

  /** Two revisioned system ids, the first of whose id server has no `id`. */
  const TwoServers: Json := JObj(map["a" := JObj(map[]), "b" := Obj1("id", JStr("https://x"))])
  const FirstRecord: Json := JObj(map["id" := JStr("e1"), "revision" := JStr("1")])
  const SecondRecord: Json := JObj(map["id" := JStr("e2"), "revision" := JStr("2")])
  const TwoRecords: map<string, Json> := map["a" := FirstRecord, "b" := SecondRecord]
  const TwoRevisionsDoc: Json :=
    JObj(map["idServers" := TwoServers, "identification" := Obj1("systemId", JObj(TwoRecords))])

  lemma TwoRevisionsSources()
    ensures Sources(Some(TwoRevisionsDoc)) == Success((Some(TwoServers), Some(JObj(TwoRecords))))
    ensures SystemIds(Some(TwoRevisionsDoc)) == TwoRecords
  {
    assert GetPath(Some(TwoRevisionsDoc), ["identification", "systemId"]) == Success(Some(JObj(TwoRecords)));
  }

  lemma TwoRevisionsScan()
    ensures ScanAsWritten(Some(TwoServers), TwoRecords, ["a", "b"], Unset)
            == Success(Contribution(Str("https://x"), SecondRecord))
  {
    assert IdServerUrl(Some(TwoServers), "a") == Success(None);
    assert IdServerUrl(Some(TwoServers), "b") == Success(Str("https://x"));
    assert ["b"][1..] == [];
    assert ScanAsWritten(Some(TwoServers), TwoRecords, ["b"], Contribution(None, FirstRecord))
           == Success(Contribution(Str("https://x"), SecondRecord));
    assert ["a", "b"][1..] == ["b"];
  }

  lemma TwoRevisionsPick()
    ensures Pick(Some(TwoServers), TwoRecords, TwoRecords.Keys) == Failure(Raise(UnableToFindMetadataId))
  {
    assert TwoRecords.Keys == {"a", "b"};
    assert RevisionedKeys(TwoRecords, TwoRecords.Keys) == {"a", "b"};
  }

  /**
   * The scan as written accepts a document with two revisioned system ids,
   * keying it by the second, where the documented behaviour refuses it.
   */
  lemma TwoRevisionsAccepted()
    ensures ListsSystemIds(Some(TwoRevisionsDoc), ["a", "b"])
    ensures IdFromMetadataAsWritten(Some(TwoRevisionsDoc), ["a", "b"])
            == MetadataId(Str("https://x"), Str("e2"), Str("2"))
    ensures IdFromMetadata(Some(TwoRevisionsDoc)) == NoId
  {
    TwoRevisionsSources();
    assert TwoRecords.Keys == {"a", "b"};
    TwoRevisionsScan();
    TwoRevisionsPick();
  }

  // ---------------------------------------------------------------------
  // Where the two agree

  /** Every revisioned system id's id-server lookup either throws or finds a truthy URL. */
  predicate NoFalsyUrl(idServers: Value, m: map<string, Json>) {
    forall k | k in m && Revisioned(m[k]) ::
      IdServerUrl(idServers, k).Failure? || Truthy(IdServerUrl(idServers, k).value)
  }

  function Elems(order: seq<string>): set<string> {
    set i | 0 <= i < |order| :: order[i]
  }

  /** Once a truthy URL is found, the scan keeps it unless another record throws or has a revision. */
  lemma {:induction false} ScanAfterMatch(idServers: Value, m: map<string, Json>, order: seq<string>, acc: MetadataId)
    requires forall i | 0 <= i < |order| :: order[i] in m
    requires Truthy(acc.sysUrl)
    ensures Outcome(ScanAsWritten(idServers, m, order, acc))
            == (if forall i | 0 <= i < |order| :: Testable(m[order[i]]) && !Revisioned(m[order[i]]) then acc else NoId)
    decreases |order|
  {
    if |order| > 0 {
      ScanAfterMatch(idServers, m, order[1..], acc);
      if Testable(m[order[0]]) && !Revisioned(m[order[0]]) {
        assert forall i | 1 <= i < |order| :: order[i] == order[1..][i - 1];
      }
    }
  }

  lemma ElemsTail(order: seq<string>)
    requires |order| > 0
    ensures Elems(order) == Elems(order[1..]) + {order[0]}
  {
    forall x | x in Elems(order) ensures x in Elems(order[1..]) + {order[0]} {
      var i :| 0 <= i < |order| && order[i] == x;
      if i > 0 { assert order[1..][i - 1] == x; }
    }
  }

  /** Before any match, the scan over `order` computes the intended pick over its keys. */
  lemma {:induction false} ScanBeforeMatch(idServers: Value, m: map<string, Json>, order: seq<string>)
    requires forall i | 0 <= i < |order| :: order[i] in m
    requires forall i, j | 0 <= i < j < |order| :: order[i] != order[j]
    requires NoFalsyUrl(idServers, m)
    ensures Elems(order) <= m.Keys
    ensures Outcome(ScanAsWritten(idServers, m, order, Unset)) == Outcome(Pick(idServers, m, Elems(order)))
    decreases |order|
  {
    if |order| == 0 {
      assert RevisionedKeys(m, Elems(order)) == {};
    } else {
      var k := order[0];
      var rest := order[1..];
      ElemsTail(order);
      assert k !in Elems(rest);
      if !Testable(m[k]) {
        ScanUntestableHead(idServers, m, order);
      } else if !Revisioned(m[k]) {
        ScanBeforeMatch(idServers, m, rest);
        ScanPlainHead(idServers, m, order);
      } else {
        ScanRevisionedHead(idServers, m, order);
      }
    }
  }

  /** A record that throws on its `revision` ends both readings with no id. */
  lemma ScanUntestableHead(idServers: Value, m: map<string, Json>, order: seq<string>)
    requires |order| > 0
    requires forall i | 0 <= i < |order| :: order[i] in m
    requires !Testable(m[order[0]])
    requires Elems(order) == Elems(order[1..]) + {order[0]}
    ensures Elems(order) <= m.Keys
    ensures Outcome(ScanAsWritten(idServers, m, order, Unset)) == Outcome(Pick(idServers, m, Elems(order)))
  {
    assert order[0] in Elems(order);
  }

  /** A plain record at the head changes neither reading. */
  lemma ScanPlainHead(idServers: Value, m: map<string, Json>, order: seq<string>)
    requires |order| > 0
    requires forall i | 0 <= i < |order| :: order[i] in m
    requires Testable(m[order[0]]) && !Revisioned(m[order[0]])
    requires Elems(order) == Elems(order[1..]) + {order[0]}
    ensures Elems(order) <= m.Keys && Elems(order[1..]) <= m.Keys
    ensures ScanAsWritten(idServers, m, order, Unset) == ScanAsWritten(idServers, m, order[1..], Unset)
    ensures Pick(idServers, m, Elems(order)) == Pick(idServers, m, Elems(order[1..]))
  {
    var keys := Elems(order);
    var rest := Elems(order[1..]);
    assert RevisionedKeys(m, keys) == RevisionedKeys(m, rest);
    assert (exists k' | k' in keys :: !Testable(m[k'])) == (exists k' | k' in rest :: !Testable(m[k']));
  }

  /** The scan step at a revisioned record, which the proof above delegates. */
  lemma ScanRevisionedHead(idServers: Value, m: map<string, Json>, order: seq<string>)
    requires |order| > 0
    requires forall i | 0 <= i < |order| :: order[i] in m
    requires forall i, j | 0 <= i < j < |order| :: order[i] != order[j]
    requires NoFalsyUrl(idServers, m)
    requires Revisioned(m[order[0]])
    ensures Elems(order) <= m.Keys
    ensures Outcome(ScanAsWritten(idServers, m, order, Unset)) == Outcome(Pick(idServers, m, Elems(order)))
  {
    var k := order[0];
    var rest := order[1..];
    ElemsTail(order);
    assert k !in Elems(rest);
    var keys := Elems(order);
    var revs := RevisionedKeys(m, keys);
    assert revs == RevisionedKeys(m, Elems(rest)) + {k};
    var url := IdServerUrl(idServers, k);
    if url.Success? {
      ScanHeadFound(idServers, m, order, url.value);
    } else {
      ScanHeadThrows(idServers, m, order);
    }
  }

  lemma ScanHeadThrows(idServers: Value, m: map<string, Json>, order: seq<string>)
    requires |order| > 0
    requires forall i | 0 <= i < |order| :: order[i] in m
    requires Revisioned(m[order[0]])
    requires Elems(order) <= m.Keys && order[0] in Elems(order)
    requires IdServerUrl(idServers, order[0]).Failure?
    ensures Outcome(ScanAsWritten(idServers, m, order, Unset)) == NoId
    ensures Outcome(Pick(idServers, m, Elems(order))) == NoId
  {
    var keys := Elems(order);
    var revs := RevisionedKeys(m, keys);
    assert order[0] in revs;
    if !(exists k' | k' in keys :: !Testable(m[k'])) && |revs| == 1 {
      SingletonUnique(revs);
    }
  }

  lemma ScanHeadFound(idServers: Value, m: map<string, Json>, order: seq<string>, url: Value)
    requires |order| > 0
    requires forall i | 0 <= i < |order| :: order[i] in m
    requires Revisioned(m[order[0]])
    requires order[0] !in Elems(order[1..])
    requires Elems(order) == Elems(order[1..]) + {order[0]}
    requires IdServerUrl(idServers, order[0]) == Success(url) && Truthy(url)
    ensures Elems(order) <= m.Keys
    ensures Outcome(ScanAsWritten(idServers, m, order, Unset)) == Outcome(Pick(idServers, m, Elems(order)))
  {
    var rest := order[1..];
    ScanAfterMatch(idServers, m, rest, Contribution(url, m[order[0]]));
    assert ScanAsWritten(idServers, m, order, Unset) == ScanAsWritten(idServers, m, rest, Contribution(url, m[order[0]]));
    if forall i | 0 <= i < |rest| :: Testable(m[rest[i]]) && !Revisioned(m[rest[i]]) {
      PickHeadAlone(idServers, m, order, url);
    } else {
      var i :| 0 <= i < |rest| && !(Testable(m[rest[i]]) && !Revisioned(m[rest[i]]));
      PickHeadShared(idServers, m, order, url, i);
    }
  }

  /** A revisioned head whose followers are all plain records is the pick. */
  lemma PickHeadAlone(idServers: Value, m: map<string, Json>, order: seq<string>, url: Value)
    requires |order| > 0
    requires forall i | 0 <= i < |order| :: order[i] in m
    requires Revisioned(m[order[0]])
    requires order[0] !in Elems(order[1..])
    requires Elems(order) == Elems(order[1..]) + {order[0]}
    requires IdServerUrl(idServers, order[0]) == Success(url)
    requires forall i | 0 <= i < |order[1..]| :: Testable(m[order[1..][i]]) && !Revisioned(m[order[1..][i]])
    ensures Elems(order) <= m.Keys
    ensures Pick(idServers, m, Elems(order)) == Success(Contribution(url, m[order[0]]))
  {
    var k := order[0];
    var rest := order[1..];
    var keys := Elems(order);
    var revs := RevisionedKeys(m, keys);
    assert revs == RevisionedKeys(m, Elems(rest)) + {k};
    assert RevisionedKeys(m, Elems(rest)) == {};
    assert revs == {k};
    assert forall k' | k' in keys :: Testable(m[k']);
  }

  /** A revisioned head followed by a record that throws or has a revision gives no pick. */
  lemma PickHeadShared(idServers: Value, m: map<string, Json>, order: seq<string>, url: Value, i: nat)
    requires |order| > 0
    requires forall i | 0 <= i < |order| :: order[i] in m
    requires Revisioned(m[order[0]])
    requires order[0] !in Elems(order[1..])
    requires Elems(order) == Elems(order[1..]) + {order[0]}
    requires i < |order[1..]| && !(Testable(m[order[1..][i]]) && !Revisioned(m[order[1..][i]]))
    ensures Elems(order) <= m.Keys
    ensures Pick(idServers, m, Elems(order)).Failure?
  {
    var k := order[0];
    var rest := order[1..];
    var keys := Elems(order);
    var revs := RevisionedKeys(m, keys);
    assert revs == RevisionedKeys(m, Elems(rest)) + {k};
    assert rest[i] in Elems(rest);
    if Testable(m[rest[i]]) {
      assert rest[i] in RevisionedKeys(m, Elems(rest));
      assert rest[i] in revs - {k};
      assert |revs - {k}| >= 1;
    } else {
      assert rest[i] in keys;
    }
  }

  /**
   * The two readings agree, whatever order `Object.keys` yields, on every
   * document whose revisioned system ids never resolve to a falsy URL.
   */
  lemma AsWrittenAgrees(doc: Value, order: seq<string>)
    requires ListsSystemIds(doc, order)
    requires Sources(doc).Success? ==> NoFalsyUrl(Sources(doc).value.0, SystemIds(doc))
    ensures IdFromMetadataAsWritten(doc, order) == IdFromMetadata(doc)
  {
    var src := Sources(doc);
    if src.Success? {
      var (idServers, sys) := src.value;
      if sys.Some? && sys.value.JObj? {
        var m := sys.value.fields;
        ScanBeforeMatch(idServers, m, order);
        assert Elems(order) == m.Keys;
      }
    }
  }
}

=== FILE: ingredients_store.dfy ===
/**
 * The file-system ingredients store: content-addressed files laid out as
 * `sDir/ingredients/<id server>/<entry>/<ingredient url>/<md5>`, the id
 * server and ingredient url passed through `encodeURIComponent`.
 *
 * The code leaves the entry id unencoded, so an entry id holding `/` names
 * a directory inside another entry. `EntryDirAsWritten` keeps that layout;
 * `EntryDir` encodes the entry id like the other segments, and the rest of
 * the model uses it.
 */
module IngredientsStore {

  import opened Wrappers
  import opened JsonValue
  import opened Errors
  import opened Js
  import opened FileTree
  import opened Uri
  import opened StoreState
  import Buffer

  function IngredientsDir(sDir: string): string { sDir + "/ingredients" }

  /** `entryDir` as written: the entry id is not encoded. */
  function EntryDirAsWritten(sDir: string, u: string, e: string): string {
    IngredientsDir(sDir) + "/" + Encode(u) + "/" + e
  }

  function IngredientDirAsWritten(sDir: string, u: string, e: string, url: string): string {
    EntryDirAsWritten(sDir, u, e) + "/" + Encode(url)
  }

  /** `entryDir` with the entry id encoded. */
  function EntryDir(sDir: string, u: string, e: string): string {
    IngredientsDir(sDir) + "/" + Encode(u) + "/" + Encode(e)
  }

  /** `ingredientDir` */
  function IngredientDir(sDir: string, u: string, e: string, url: string): string {
    EntryDir(sDir, u, e) + "/" + Encode(url)
  }

  /** Where content with a given md5 is kept. */
  function ContentPath(sDir: string, u: string, e: string, url: string, md5: string): string {
    IngredientDir(sDir, u, e, url) + "/" + md5
  }

  // ---------------------------------------------------------------------
  // Operations

  /** The constructor: an empty storage directory is refused; the ingredients directory is created when missing. */
  function Init(s: Store): (st: Step<()>)
    ensures s.sDir == "" ==> st == Failed(s, StorageDirNotDefined)
    ensures st.state == s.(fs := st.state.fs)
    ensures st.result.Success? ==> IngredientsDir(s.sDir) in st.state.fs.dirs || IngredientsDir(s.sDir) in s.fs.files
    ensures st.result.Success? ==> st.state.fs.files == s.fs.files
  {
    if s.sDir == "" then Failed(s, StorageDirNotDefined)
    else if Exists(s.fs, IngredientsDir(s.sDir)) then Step(s, Success(()))
    else match Mkdir(s.fs, IngredientsDir(s.sDir))
      case Failure(err) => Step(s, Failure(err))
      case Success(fs) => Step(s.(fs := fs), Success(()))
  }

  /** Every name of a set decodes. */
  predicate AllDecode(names: set<string>) {
    forall n | n in names :: Decode(n).Success?
  }

  /** The decoded names of a set whose names all decode. */
  function DecodedNames(names: set<string>): set<string>
    requires AllDecode(names)
  {
    set n | n in names :: Decode(n).value
  }

  /**
   * `entryIngredientChecksums`: every ingredient url stored for an entry,
   * decoded from its directory name, mapped to each of its stored checksums
   * with a count of 0. Names are all decoded before any ingredient directory
   * is read.
   */
  function EntryIngredientChecksums(s: Store, u: string, e: string): (r: Res<map<string, map<string, int>>>)
    ensures r.Success? ==> forall url | url in r.value :: forall c | c in r.value[url] :: r.value[url][c] == 0
    ensures r.Success? ==> EntryDir(s.sDir, u, e) in s.fs.dirs
    ensures r.Success? ==> AllDecode(Children(s.fs, EntryDir(s.sDir, u, e)))
    ensures r.Success? ==> r.value.Keys == DecodedNames(Children(s.fs, EntryDir(s.sDir, u, e)))
    ensures r.Success? ==> forall url | url in r.value :: r.value[url].Keys == Children(s.fs, IngredientDir(s.sDir, u, e, url))
  {
    var names :- ReadDir(s.fs, EntryDir(s.sDir, u, e));
    if !AllDecode(names) then Fail(URIError)
    else
      var urls := DecodedNames(names);
      if exists url | url in urls :: IngredientDir(s.sDir, u, e, url) !in s.fs.dirs then Enoent()
      else Success(map url | url in urls :: map c | c in Children(s.fs, IngredientDir(s.sDir, u, e, url)) :: 0)
  }

  /**
   * `__writeIngredient`: moves the staged content of the stats' handle to
   * `<ingredient dir of stats.url>/<stats.checksum.md5>`, creating the
   * ingredient directory when missing.
   */
  function WriteIngredient(s: Store, u: string, e: string, stats: Json): (st: Step<()>)
    ensures st.state.urls == s.urls && st.state.idServers == s.idServers && st.state.sDir == s.sDir
    ensures st.result.Success? ==>
              && Md5Of(Some(stats)).Success?
              && ContentPath(s.sDir, u, e, ToStr(Field(Some(stats), "url")), ToStr(Md5Of(Some(stats)).value)) in st.state.fs.files
    ensures st.result.Success? ==>
              var h := ToStr(Field(Some(stats), "id"));
              var dest := ContentPath(s.sDir, u, e, ToStr(Field(Some(stats), "url")), ToStr(Md5Of(Some(stats)).value));
              h in s.uuidUrls ==>
              && Buffer.StagedFile(s, h) in s.fs.files
              && st.state.uuidUrls == s.uuidUrls - {h}
              && dest in st.state.fs.files
              && st.state.fs.files[dest] == s.fs.files[Buffer.StagedFile(s, h)]
              && st.state.fs.files == (s.fs.files - {Buffer.StagedFile(s, h)})[dest := s.fs.files[Buffer.StagedFile(s, h)]]
  {
    var dir := IngredientDir(s.sDir, u, e, ToStr(Field(Some(stats), "url")));
    var made := if Exists(s.fs, dir) then Success(s.fs) else MkdirP(s.fs, dir);
    match made
    case Failure(err) => Step(s, Failure(err))
    case Success(fs1) =>
      var s1 := s.(fs := fs1);
      match Md5Of(Some(stats))
      case Failure(err) => Step(s1, Failure(err))
      case Success(md5) =>
        Buffer.FsRenameIngredient(s1, ToStr(Field(Some(stats), "id")), ContentPath(s.sDir, u, e, ToStr(Field(Some(stats), "url")), ToStr(md5)))
  }

  /** `checksum.md5` of an ingredient record. */
  function Md5Of(ingredient: Value): Res<Value> {
    var checksum :- Get(ingredient, "checksum");
    Get(checksum, "md5")
  }

  /** `ingredients[url].checksum.md5` of a variant's metadata. */
  function DeclaredMd5(metadata: Value, url: string): Res<Value> {
    var ingredients :- Get(metadata, "ingredients");
    var ingredient :- Get(ingredients, url);
    Md5Of(ingredient)
  }

  /**
   * `__listIngredients`: each ingredient url the metadata declares, mapped to
   * whether content with its declared md5 is stored.
   */
  function ListIngredients(s: Store, u: string, e: string, metadata: Value): (r: Res<map<string, bool>>)
    ensures r.Success? ==> ObjectEntries(Field(metadata, "ingredients")).Success?
    ensures r.Success? ==> r.value.Keys == ObjectEntries(Field(metadata, "ingredients")).value.Keys
    ensures r.Success? ==> forall url | url in r.value ::
              DeclaredMd5(metadata, url).Success?
              && (r.value[url] <==> Exists(s.fs, ContentPath(s.sDir, u, e, url, ToStr(DeclaredMd5(metadata, url).value))))
  {
    var ingredients :- Get(metadata, "ingredients");
    var entries :- ObjectEntries(ingredients);
    EntriesMd5(metadata);
    if exists url | url in entries :: Md5Of(Some(entries[url])).Failure? then Fail(TypeError)
    else
      Success(map url | url in entries ::
                Exists(s.fs, ContentPath(s.sDir, u, e, url, ToStr(Md5Of(Some(entries[url])).value))))
  }

  /** The md5 an ingredient entry holds is the one `DeclaredMd5` reads for its url. */
  lemma EntriesMd5(metadata: Value)
    requires Get(metadata, "ingredients").Success? && ObjectEntries(Get(metadata, "ingredients").value).Success?
    ensures Field(metadata, "ingredients") == Get(metadata, "ingredients").value
    ensures var entries := ObjectEntries(Get(metadata, "ingredients").value).value;
            forall url | url in entries :: DeclaredMd5(metadata, url) == Md5Of(Some(entries[url]))
  {
  }

  /** `__ingredientLocation`: where the declared content of an ingredient is kept. */
  function IngredientLocation(s: Store, u: string, e: string, url: string, metadata: Value): (r: Res<string>)
    ensures r.Success? <==> DeclaredMd5(metadata, url).Success?
    ensures r.Success? ==> r.value == ContentPath(s.sDir, u, e, url, ToStr(DeclaredMd5(metadata, url).value))
  {
    var md5 :- DeclaredMd5(metadata, url);
    Success(ContentPath(s.sDir, u, e, url, ToStr(md5)))
  }

  /** `__ingredientContent`: the stored content at the declared location. */
  function IngredientContent(s: Store, u: string, e: string, url: string, metadata: Value): (r: Res<Bytes>)
    ensures r.Success? ==> IngredientLocation(s, u, e, url, metadata).Success?
    ensures r.Success? ==> var p := IngredientLocation(s, u, e, url, metadata).value;
                           p in s.fs.files && r.value == s.fs.files[p]
  {
    var p :- IngredientLocation(s, u, e, url, metadata);
    ReadFile(s.fs, p)
  }

  /** `__deleteEntry`: removes the entry's whole directory. */
  function DeleteEntry(s: Store, u: string, e: string): (t: Store)
    ensures t == s.(fs := Remove(s.fs, EntryDir(s.sDir, u, e)))
  {
    s.(fs := Remove(s.fs, EntryDir(s.sDir, u, e)))
  }

  /** `__deleteEntry` with the directory as written. */
  function DeleteEntryAsWritten(s: Store, u: string, e: string): (t: Store)
    ensures t == s.(fs := Remove(s.fs, EntryDirAsWritten(s.sDir, u, e)))
  {
    s.(fs := Remove(s.fs, EntryDirAsWritten(s.sDir, u, e)))
  }

  /** `__deleteEntryRevision` and `__deleteEntryRevisionVariant` leave content in place: content is shared by an entry's revisions. */
  function DeleteEntryRevision(s: Store, u: string, e: string, r: string): (t: Store)
    ensures t.fs == s.fs
  {
    s
  }

  // ---------------------------------------------------------------------
  // Properties

  /** Content is addressed by url and md5: two writes with the same url and checksum land on one path. */
  lemma ContentAddressed(s: Store, u: string, e: string, url1: string, url2: string, md5a: string, md5b: string)
    ensures ContentPath(s.sDir, u, e, url1, md5a) == ContentPath(s.sDir, u, e, url2, md5b) && '/' !in md5a && '/' !in md5b
            ==> url1 == url2 && md5a == md5b
  {
    if ContentPath(s.sDir, u, e, url1, md5a) == ContentPath(s.sDir, u, e, url2, md5b) && '/' !in md5a && '/' !in md5b {
      EncodeNoSlash(url1);
      EncodeNoSlash(url2);
      SegmentsMatch(EntryDir(s.sDir, u, e), Encode(url1), Encode(url2), md5a, md5b);
      EncodeInjective(url1, url2);
    }
  }

  /** A written ingredient is listed as present exactly when the metadata declares it with the md5 it was written under. */
  lemma WrittenIsListed(s: Store, u: string, e: string, stats: Json, metadata: Value, url: string)
    requires WriteIngredient(s, u, e, stats).result.Success?
    requires ListIngredients(WriteIngredient(s, u, e, stats).state, u, e, metadata).Success?
    requires Field(Some(stats), "url") == Str(url)
    requires url in ListIngredients(WriteIngredient(s, u, e, stats).state, u, e, metadata).value
    requires DeclaredMd5(metadata, url) == Md5Of(Some(stats))
    ensures ListIngredients(WriteIngredient(s, u, e, stats).state, u, e, metadata).value[url]
  {
    var t := WriteIngredient(s, u, e, stats).state;
    var md5 := ToStr(Md5Of(Some(stats)).value);
    assert ContentPath(s.sDir, u, e, url, md5) in t.fs.files;
  }

  /**
   * With the entry id left unencoded, the directory of entry `a/b` is the
   * ingredient directory of url `b` in entry `a`: deleting entry `a/b`
   * deletes content of entry `a`.
   */
  lemma EntryCollisionAsWritten(sDir: string, u: string)
    ensures EntryDirAsWritten(sDir, u, "a/b") == IngredientDirAsWritten(sDir, u, "a", "b")
  {
    assert Encode("b") == "b" by {
      assert Encode("b") == EncodeChar('b') + Encode("");
    }
  }

  lemma DeleteCollisionAsWritten(s: Store, u: string, md5: string)
    requires IngredientDirAsWritten(s.sDir, u, "a", "b") + "/" + md5 in s.fs.files
    ensures IngredientDirAsWritten(s.sDir, u, "a", "b") + "/" + md5 !in DeleteEntryAsWritten(s, u, "a/b").fs.files
  {
    EntryCollisionAsWritten(s.sDir, u);
    var d := EntryDirAsWritten(s.sDir, u, "a/b");
    assert (d + "/" + md5)[..|d| + 1] == d + "/";
  }

  /** Entry directories are disjoint: one lies under another only when they are the same entry. */
  lemma EntryDirsDisjoint(sDir: string, u1: string, e1: string, u2: string, e2: string, rest: string)
    requires rest == "" || rest[0] == '/'
    requires Under(EntryDir(sDir, u1, e1), EntryDir(sDir, u2, e2) + rest)
    ensures u1 == u2 && e1 == e2
  {
    EncodeNoSlash(u1);
    EncodeNoSlash(u2);
    EncodeNoSlash(e1);
    EncodeNoSlash(e2);
    UnderTwoSegments(IngredientsDir(sDir), Encode(u1), Encode(e1), Encode(u2), Encode(e2), rest);
    EncodeInjective(u1, u2);
    EncodeInjective(e1, e2);
  }

  /** Deleting an entry removes its content and keeps every other entry's content. */
  lemma DeleteEntryKeepsOthers(s: Store, u: string, e: string, u2: string, e2: string, url: string, md5: string)
    requires (u2, e2) != (u, e)
    requires ContentPath(s.sDir, u2, e2, url, md5) in s.fs.files
    ensures var t := DeleteEntry(s, u, e);
            && ContentPath(s.sDir, u2, e2, url, md5) in t.fs.files
            && t.fs.files[ContentPath(s.sDir, u2, e2, url, md5)] == s.fs.files[ContentPath(s.sDir, u2, e2, url, md5)]
  {
    var rest := "/" + Encode(url) + "/" + md5;
    assert ContentPath(s.sDir, u2, e2, url, md5) == EntryDir(s.sDir, u2, e2) + rest;
    if Under(EntryDir(s.sDir, u, e), EntryDir(s.sDir, u2, e2) + rest) {
      EntryDirsDisjoint(s.sDir, u, e, u2, e2, rest);
    }
  }

  /** Deleting an entry removes every piece of its content. */
  lemma DeleteEntryRemovesOwn(s: Store, u: string, e: string, url: string, md5: string)
    ensures ContentPath(s.sDir, u, e, url, md5) !in DeleteEntry(s, u, e).fs.files
  {
    var rest := "/" + Encode(url) + "/" + md5;
    assert ContentPath(s.sDir, u, e, url, md5) == EntryDir(s.sDir, u, e) + rest;
    UnderExtend(EntryDir(s.sDir, u, e), rest);
  }

  /** Checksums of stored content are listed with a count of 0, under the decoded url of each ingredient directory. */
  lemma ChecksumsSeed(s: Store, u: string, e: string, url: string, md5: string)
    requires Wf(s.fs)
    requires EntryIngredientChecksums(s, u, e).Success?
    requires '/' !in md5 && md5 != "" && url != ""
    requires ContentPath(s.sDir, u, e, url, md5) in s.fs.files
    ensures url in EntryIngredientChecksums(s, u, e).value
    ensures md5 in EntryIngredientChecksums(s, u, e).value[url]
    ensures EntryIngredientChecksums(s, u, e).value[url][md5] == 0
  {
    var d := EntryDir(s.sDir, u, e);
    var dir := IngredientDir(s.sDir, u, e, url);
    StoredInListedDir(s.fs, dir, md5);
    ChildListed(s.fs, dir, md5);
    EncodeNoSlash(url);
    EncodeNonEmpty(url);
    ChildListed(s.fs, d, Encode(url));
    DecodedListed(Children(s.fs, d), url);
  }

  /** A file in a well-formed tree sits in a directory. */
  lemma StoredInListedDir(fs: Fs, dir: string, name: string)
    requires Wf(fs) && '/' !in name && Join(dir, name) in fs.files && dir != ""
    ensures dir in fs.dirs
  {
    ParentOfJoin(dir, name);
  }

  /** A url whose encoding is listed is among the decoded names. */
  lemma DecodedListed(names: set<string>, url: string)
    requires AllDecode(names) && Encode(url) in names
    ensures url in DecodedNames(names)
  {
    DecodeEncode(url);
  }

  /** A file or directory directly inside `d` is listed by its name. */
  lemma ChildListed(fs: Fs, d: string, name: string)
    requires '/' !in name && name != ""
    requires Join(d, name) in fs.dirs || Join(d, name) in fs.files
    ensures name in Children(fs, d)
  {
    ChildOfJoin(d, name);
  }
}

=== FILE: js.dfy ===
/**
 * The parts of JavaScript's semantics the store's logic depends on: property
 * reads that throw on `undefined`/`null`, the `in` operator, `Object.keys`,
 * the `String()` coercion applied to property keys, and `includes` on
 * strings and arrays. Reads of array elements or string characters by
 * property name are outside this model and read as `undefined`.
 */
module Js {

  import opened Wrappers
  import opened JsonValue
  import opened Errors

  /** `v[k]`: a `TypeError` on `undefined` or `null`, `undefined` for a missing key. */
  function Get(v: Value, k: string): Res<Value> {
    match v
    case None => Failure(Raise(TypeError))
    case Some(JNull) => Failure(Raise(TypeError))
    case Some(JObj(m)) => Success(if k in m then Some(m[k]) else None)
    case Some(_) => Success(None)
  }

  /** `v[p0][p1]...`: a chain of property reads, failing at the first nullish link. */
  function GetPath(v: Value, path: seq<string>): Res<Value>
    decreases |path|
  {
    if |path| == 0 then Success(v)
    else
      var next :- Get(v, path[0]);
      GetPath(next, path[1..])
  }

  /** The field `k` of `v` when `v` is an object holding it, else `undefined`; never throws. */
  function Field(v: Value, k: string): Value {
    if v.Some? && v.value.JObj? && k in v.value.fields then Some(v.value.fields[k]) else None
  }

  /** `k in v`: a `TypeError` unless `v` is an object or an array. */
  function HasProperty(v: Value, k: string): Res<bool> {
    match v
    case Some(JObj(m)) => Success(k in m)
    case Some(JArr(_)) => Success(false)
    case _ => Failure(Raise(TypeError))
  }

  /** `Object.keys(v)` as a set: a `TypeError` on `undefined` or `null`. */
  function ObjectKeys(v: Value): Res<set<string>> {
    match v
    case None => Failure(Raise(TypeError))
    case Some(JNull) => Failure(Raise(TypeError))
    case Some(JObj(m)) => Success(m.Keys)
    case Some(_) => Success({})
  }

  /** `Object.entries(v)` as a map: a `TypeError` on `undefined` or `null`. */
  function ObjectEntries(v: Value): Res<map<string, Json>> {
    match v
    case None => Failure(Raise(TypeError))
    case Some(JNull) => Failure(Raise(TypeError))
    case Some(JObj(m)) => Success(m)
    case Some(_) => Success(map[])
  }

  /** `order` lists the keys of `m`, each once: the order `Object.keys` and `Object.entries` enumerate them in. */
  ghost predicate KeyOrder<V>(order: seq<string>, m: map<string, V>) {
    && (forall i, j | 0 <= i < j < |order| :: order[i] != order[j])
    && (forall k :: k in m <==> k in order)
  }

  /** `obj[k] = x` on an object (strict mode: assigning on a primitive throws). */
  function SetProp(v: Value, k: string, x: Json): Res<Json> {
    match v
    case Some(JObj(m)) => Success(JObj(m[k := x]))
    case _ => Failure(Raise(TypeError))
  }

  function DigitChar(d: nat): char
    requires d < 10
  {
    ('0' as int + d) as char
  }

  /** Decimal notation of a natural number, without leading zeros. */
  function NatToString(n: nat): string
    decreases n
  {
    if n < 10 then [DigitChar(n)] else NatToString(n / 10) + [DigitChar(n % 10)]
  }

  function IntToString(i: int): string {
    if i < 0 then "-" + NatToString(-i) else NatToString(i)
  }

  /** `String(j)`: how JavaScript turns a value into a property key. */
  function JsonToString(j: Json): string
    decreases j
  {
    match j
    case JNull => "null"
    case JBool(b) => if b then "true" else "false"
    case JNum(n) => IntToString(n)
    case JStr(s) => s
    case JArr(items) => JoinWithComma(seq(|items|, i requires 0 <= i < |items| =>
                          if items[i] == JNull then "" else JsonToString(items[i])))
    case JObj(_) => "[object Object]"
  }

  function JoinWithComma(parts: seq<string>): string
    decreases |parts|
  {
    if |parts| == 0 then ""
    else if |parts| == 1 then parts[0]
    else parts[0] + "," + JoinWithComma(parts[1..])
  }

  /** `String(v)` for any value, `undefined` included. */
  function ToStr(v: Value): string {
    if v.None? then "undefined" else JsonToString(v.value)
  }

  /** SameValueZero, the comparison of `Array.prototype.includes`: arrays and objects are never equal to an element read from another document. */
  predicate SameValueZero(x: Value, y: Json) {
    x == Some(y) && Primitive(y)
  }

  predicate StartsWith(s: string, prefix: string) {
    |prefix| <= |s| && s[..|prefix|] == prefix
  }

  predicate OccursAt(s: string, t: string, i: int) {
    0 <= i <= |s| - |t| && s[i..i + |t|] == t
  }

  /** `t` occurs in `s` as a contiguous substring. */
  predicate Contains(s: string, t: string) {
    exists i | 0 <= i <= |s| - |t| :: OccursAt(s, t, i)
  }

  /**
   * `x == y` between values read from JSON documents: `undefined` and `null`
   * equal each other, primitives equal by value, and arrays and objects read
   * from two documents are never the same object. Comparisons across
   * primitive types, which JavaScript settles by numeric conversion, count
   * as unequal.
   */
  predicate LooseEquals(x: Value, y: Value) {
    (Nullish(x) && Nullish(y)) || (x == y && x.Some? && Primitive(x.value))
  }

  /** `recv.includes(x)`: substring search on strings, SameValueZero membership on arrays, a `TypeError` otherwise. */
  function Includes(recv: Value, x: Value): Res<bool> {
    match recv
    case Some(JStr(s)) => Success(Contains(s, ToStr(x)))
    case Some(JArr(items)) => Success(exists i | 0 <= i < |items| :: SameValueZero(x, items[i]))
    case _ => Failure(Raise(TypeError))
  }
}

=== FILE: json_value.dfy ===
/**
 * JSON documents as the store sees them after `JSON.parse`.
 *
 * Objects are finite maps, so Dafny's `==` on `Json` is the strict deep
 * equality the store uses to compare metadata documents (key order plays no
 * part in it). Numbers are integers: every number the store compares or
 * stores as a key is an integer in the documents it handles.
 */
module JsonValue {

  import opened Wrappers

  datatype Json =
    | JNull
    | JBool(b: bool)
    | JNum(n: int)
    | JStr(s: string)
    | JArr(items: seq<Json>)
    | JObj(fields: map<string, Json>)

  /** A JavaScript value: `None` is `undefined`, anything else is a JSON value. */
  type Value = Option<Json>

  /** JavaScript truthiness: `undefined`, `null`, `false`, `0` and `""` are falsy. */
  predicate Truthy(v: Value) {
    match v
    case None => false
    case Some(JNull) => false
    case Some(JBool(b)) => b
    case Some(JNum(n)) => n != 0
    case Some(JStr(s)) => s != ""
    case Some(_) => true
  }

  /** `undefined` or `null`: the values whose property reads throw. */
  predicate Nullish(v: Value) {
    v == None || v == Some(JNull)
  }

  /** Strings, numbers, booleans and null compare by value; arrays and objects by reference. */
  predicate Primitive(j: Json) {
    !j.JArr? && !j.JObj?
  }

  function Str(s: string): Value {
    Some(JStr(s))
  }

  /** Shorthand for a one-field object literal. */
  function Obj1(k: string, v: Json): Json {
    JObj(map[k := v])
  }
}

=== FILE: metadata_index.dfy ===
/**
 * The file-system metadata store: an in-memory four-level index
 * (publisher URL -> entry id -> revision -> variant -> document) mirrored
 * on disk as `sDir/metadata/<url>/<entry>/<revision>/<variant>/metadata.json`,
 * every path segment passed through `encodeURIComponent`.
 *
 * Every "add" writes the index first and only then checks the disk, so an
 * add that finds its directory already present throws with the index entry
 * already in place.
 */
module MetadataIndex {

  import opened Wrappers
  import opened JsonValue
  import opened Errors
  import opened Js
  import opened FileTree
  import opened Uri
  import opened StoreState
  import opened Identity

  // ---------------------------------------------------------------------
  // Disk layout

  function MetadataDir(sDir: string): string { sDir + "/metadata" }
  function UrlDir(sDir: string, u: string): string { MetadataDir(sDir) + "/" + Encode(u) }
  function EntryDir(sDir: string, u: string, e: string): string { UrlDir(sDir, u) + "/" + Encode(e) }
  function RevisionDir(sDir: string, u: string, e: string, r: string): string { EntryDir(sDir, u, e) + "/" + Encode(r) }
  function VariantDir(sDir: string, u: string, e: string, r: string, v: string): string { RevisionDir(sDir, u, e, r) + "/" + Encode(v) }
  function VariantFile(sDir: string, u: string, e: string, r: string, v: string): string { VariantDir(sDir, u, e, r, v) + "/metadata.json" }

  /**
   * The disk mirrors the index: every indexed level has its directory and
   * every indexed document is serialised in its variant's `metadata.json`.
   */
  ghost predicate Mirrored(s: Store, stringify: Json -> Bytes) {
    && (forall u | u in s.urls :: UrlDir(s.sDir, u) in s.fs.dirs)
    && (forall u, e | HasEntry(s, u, e) :: EntryDir(s.sDir, u, e) in s.fs.dirs)
    && (forall u, e, r | HasRevision(s, u, e, r) :: RevisionDir(s.sDir, u, e, r) in s.fs.dirs)
    && (forall u, e, r, v | HasVariant(s, u, e, r, v) ::
          && VariantDir(s.sDir, u, e, r, v) in s.fs.dirs
          && VariantFile(s.sDir, u, e, r, v) in s.fs.files
          && s.fs.files[VariantFile(s.sDir, u, e, r, v)] == stringify(s.urls[u][e][r][v]))
  }

  // ---------------------------------------------------------------------
  // Construction

  /**
   * The constructor: an empty storage directory is refused; the index starts
   * empty and the metadata directory is created when missing. Rebuilding the
   * index from an existing directory happens asynchronously and is not part
   * of this model.
   */
  function Init(s: Store): (st: Step<()>)
    ensures s.sDir == "" ==> st == Failed(s, StorageDirNotDefined)
    ensures st.state.sDir == s.sDir && st.state.uuidUrls == s.uuidUrls
    ensures st.result.Success? ==> st.state.urls == map[] && st.state.idServers == map[]
    ensures st.result.Success? ==> Exists(st.state.fs, MetadataDir(s.sDir)) && st.state.fs.files == s.fs.files
    ensures st.result.Success? <==> s.sDir != "" && (Exists(s.fs, MetadataDir(s.sDir)) || Mkdir(s.fs, MetadataDir(s.sDir)).Success?)
  {
    if s.sDir == "" then Failed(s, StorageDirNotDefined)
    else
      var s0 := s.(urls := map[], idServers := map[]);
      if Exists(s.fs, MetadataDir(s.sDir)) then Step(s0, Success(()))
      else match Mkdir(s.fs, MetadataDir(s.sDir))
        case Failure(err) => Step(s0, Failure(err))
        case Success(fs) => Step(s0.(fs := fs), Success(()))
  }

  /** A freshly constructed index holds no document, and its disk mirror holds trivially. */
  lemma InitEmpty(s: Store, stringify: Json -> Bytes, u: string, e: string, r: string, v: string)
    requires Init(s).result.Success?
    ensures var t := Init(s).state;
            VariantMetadata(t, u, e, r, v) == Some(JNull) && IdServerKeys(t) == {} && Mirrored(t, stringify)
  {
  }

  // ---------------------------------------------------------------------
  // Lookups

  /** `__sysUrlRecord`: a record object for a known publisher URL, else null. */
  function SysUrlRecord(s: Store, u: string): (rec: Value)
    ensures Truthy(rec) <==> u in s.urls
  {
    if u in s.urls then Some(Obj1("idServer", Obj1("id", JStr(u)))) else Some(JNull)
  }

  /** `__entryRecord` */
  function EntryRecord(s: Store, u: string, e: string): (rec: Value)
    ensures Truthy(rec) <==> HasEntry(s, u, e)
  {
    if HasEntry(s, u, e)
    then Some(JObj(map["idServer" := Obj1("id", JStr(u)), "entry" := Obj1("id", JStr(e))]))
    else Some(JNull)
  }

  /** `__revisionRecord` */
  function RevisionRecord(s: Store, u: string, e: string, r: string): (rec: Value)
    ensures Truthy(rec) <==> HasRevision(s, u, e, r)
  {
    if HasRevision(s, u, e, r)
    then Some(JObj(map["idServer" := Obj1("id", JStr(u)), "entry" := Obj1("id", JStr(e)),
                       "revision" := Obj1("id", JStr(r))]))
    else Some(JNull)
  }

  /** `__variantMetadata`: the stored document, or null. */
  function VariantMetadata(s: Store, u: string, e: string, r: string, v: string): Value {
    if HasVariant(s, u, e, r, v) then Some(s.urls[u][e][r][v]) else Some(JNull)
  }

  // ---------------------------------------------------------------------
  // Listings (null is `None`)

  /** `__idServerKeys` */
  function IdServerKeys(s: Store): set<string> {
    s.urls.Keys
  }

  /** `__idServersDetails`: for each publisher URL its id-server record, or `{id: url}` when none was recorded. */
  function IdServersDetails(s: Store): map<string, Json> {
    map u | u in s.urls :: if u in s.idServers then s.idServers[u] else Obj1("id", JStr(u))
  }

  /** `__idServersEntries` */
  function IdServersEntries(s: Store): map<string, set<string>> {
    map u | u in s.urls :: s.urls[u].Keys
  }

  /** `__idServerEntries` */
  function IdServerEntries(s: Store, u: string): Option<set<string>> {
    if u in s.urls then Some(s.urls[u].Keys) else None
  }

  /** `__idServerEntriesRevisions` */
  function IdServerEntriesRevisions(s: Store, u: string): Option<map<string, set<string>>> {
    if u in s.urls then Some(map e | e in s.urls[u] :: s.urls[u][e].Keys) else None
  }

  /** `__idServerEntryRevisions` */
  function IdServerEntryRevisions(s: Store, u: string, e: string): Option<set<string>> {
    if HasEntry(s, u, e) then Some(s.urls[u][e].Keys) else None
  }

  /** `__idServerEntryRevisionsVariants` */
  function IdServerEntryRevisionsVariants(s: Store, u: string, e: string): Option<map<string, set<string>>> {
    if HasEntry(s, u, e) then Some(map r | r in s.urls[u][e] :: s.urls[u][e][r].Keys) else None
  }

  /** `__idServerEntryRevisionVariants` */
  function IdServerEntryRevisionVariants(s: Store, u: string, e: string, r: string): Option<set<string>> {
    if HasRevision(s, u, e, r) then Some(s.urls[u][e][r].Keys) else None
  }

  // ---------------------------------------------------------------------
  // Adding records

  /** Creates the directory of a level just added to the index, refusing one already on disk. */
  function MkdirFresh(s: Store, dir: string, clash: Kind): (st: Step<()>)
    ensures st.state.urls == s.urls && st.state.sDir == s.sDir && st.state.idServers == s.idServers
    ensures st.state.uuidUrls == s.uuidUrls
    ensures Exists(s.fs, dir) ==> st == Failed(s, clash)
    ensures st.result.Success? <==> !Exists(s.fs, dir) && Mkdir(s.fs, dir).Success?
    ensures st.result.Success? ==> st.state.fs == Fs(s.fs.dirs + {dir}, s.fs.files)
    ensures st.result.Failure? ==> st.state == s
  {
    if Exists(s.fs, dir) then Failed(s, clash)
    else match Mkdir(s.fs, dir)
      case Failure(err) => Step(s, Failure(err))
      case Success(fs) => Step(s.(fs := fs), Success(()))
  }

  /** `__addSysUrlRecord` */
  function AddSysUrlRecord(s: Store, u: string): (st: Step<()>)
    ensures st.state.urls == s.urls[u := map[]]
  {
    MkdirFresh(s.(urls := s.urls[u := map[]]), UrlDir(s.sDir, u), newUrlDirAlreadyExists)
  }

  /** `__addEntryRecord`: a `TypeError` when the publisher URL is unknown. */
  function AddEntryRecord(s: Store, u: string, e: string): (st: Step<()>)
    ensures u !in s.urls ==> st.state == s && st.result.Failure?
    ensures u in s.urls ==> st.state.urls == s.urls[u := s.urls[u][e := map[]]]
  {
    if u !in s.urls then Failed(s, TypeError)
    else MkdirFresh(s.(urls := s.urls[u := s.urls[u][e := map[]]]), EntryDir(s.sDir, u, e), newEntryDirAlreadyExists)
  }

  /** `__addRevisionRecord`: a `TypeError` when the entry is unknown. */
  function AddRevisionRecord(s: Store, u: string, e: string, r: string): (st: Step<()>)
    ensures !HasEntry(s, u, e) ==> st.state == s && st.result.Failure?
    ensures HasEntry(s, u, e) ==> st.state.urls == s.urls[u := s.urls[u][e := s.urls[u][e][r := map[]]]]
  {
    if !HasEntry(s, u, e) then Failed(s, TypeError)
    else
      MkdirFresh(s.(urls := s.urls[u := s.urls[u][e := s.urls[u][e][r := map[]]]]),
                 RevisionDir(s.sDir, u, e, r), newRevisionDirAlreadyExists)
  }

  /** `touchEntryRevision`: adds whichever of the three levels is missing, outermost first. */
  function Touch(s: Store, u: string, e: string, r: string): Step<()> {
    var st1 := TouchUrl(s, u);
    if st1.result.Failure? then st1
    else
      var st2 := TouchEntry(st1.state, u, e);
      if st2.result.Failure? then st2
      else TouchRevision(st2.state, u, e, r)
  }

  /** The first level of `touchEntryRevision`: the publisher URL's record, added when `__sysUrlRecord` is falsy. */
  function TouchUrl(s: Store, u: string): (st: Step<()>)
    ensures st.state.sDir == s.sDir && st.state.uuidUrls == s.uuidUrls && st.state.idServers == s.idServers
  {
    if Truthy(SysUrlRecord(s, u)) then Step(s, Success(())) else AddSysUrlRecord(s, u)
  }

  /** The second level: the entry's record, added when `__entryRecord` is falsy. */
  function TouchEntry(s: Store, u: string, e: string): (st: Step<()>)
    ensures st.state.sDir == s.sDir && st.state.uuidUrls == s.uuidUrls && st.state.idServers == s.idServers
  {
    if Truthy(EntryRecord(s, u, e)) then Step(s, Success(())) else AddEntryRecord(s, u, e)
  }

  /** The third level: the revision's record, added when `__revisionRecord` is falsy. */
  function TouchRevision(s: Store, u: string, e: string, r: string): (st: Step<()>)
    ensures st.state.sDir == s.sDir && st.state.uuidUrls == s.uuidUrls && st.state.idServers == s.idServers
  {
    if Truthy(RevisionRecord(s, u, e, r)) then Step(s, Success(())) else AddRevisionRecord(s, u, e, r)
  }

  /**
   * `__addEntryRevisionVariant`: a no-op for an identical document, a refusal
   * for a different one under the same key; otherwise the document is indexed
   * and written as `metadata.json` in a fresh variant directory.
   */
  function AddVariant(s: Store, u: string, e: string, r: string, v: string, doc: Json,
                      stringify: Json -> Bytes): Step<()>
  {
    if !HasRevision(s, u, e, r) then Failed(s, TypeError)
    else if v in s.urls[u][e][r] then
      if doc != s.urls[u][e][r][v] then Failed(s, CannotModifyExistingVariant)
      else Step(s, Success(()))
    else
      var s1 := s.(urls := s.urls[u := s.urls[u][e := s.urls[u][e][r := s.urls[u][e][r][v := doc]]]]);
      WriteVariant(s1, VariantDir(s.sDir, u, e, r, v), doc, stringify)
  }

  /** The disk half of a new variant: its fresh directory, then its `metadata.json`. Only the files change. */
  function WriteVariant(s: Store, dir: string, doc: Json, stringify: Json -> Bytes): (st: Step<()>)
    ensures st.state == s.(fs := st.state.fs)
    ensures st.result.Success? ==>
              && !Exists(s.fs, dir)
              && st.state.fs == Fs(s.fs.dirs + {dir}, s.fs.files[dir + "/metadata.json" := stringify(doc)])
  {
    var st := MkdirFresh(s, dir, newRevisionDirAlreadyExists);
    if st.result.Failure? then st
    else match WriteFile(st.state.fs, dir + "/metadata.json", stringify(doc))
      case Failure(err) => Step(st.state, Failure(err))
      case Success(fs) => Step(st.state.(fs := fs), Success(()))
  }

  /** `__updateIdServerRecordFromMetadata`: records `idServers[identification.idServer]` under its own `id`. */
  function UpdateIdServerRecord(s: Store, doc: Json): (st: Step<()>)
    ensures st.state == s.(idServers := st.state.idServers)
    ensures st.result.Success? <==> IdServerRecordOf(doc).Success?
    ensures st.result.Success? ==>
              st.state.idServers == s.idServers[IdServerRecordOf(doc).value.0 := IdServerRecordOf(doc).value.1]
    ensures st.result.Failure? ==> st.state == s
  {
    var r := IdServerRecordOf(doc);
    if r.Failure? then Step(s, Failure(r.error))
    else Step(s.(idServers := s.idServers[r.value.0 := r.value.1]), Success(()))
  }

  /** The id-server record a document names, keyed by its `id`. */
  function IdServerRecordOf(doc: Json): Res<(string, Json)> {
    var idServer :- GetPath(Some(doc), ["identification", "idServer"]);
    var servers :- Get(Some(doc), "idServers");
    var rec :- Get(servers, ToStr(idServer));
    var id :- Get(rec, "id");
    Success((ToStr(id), rec.value))
  }

  /** Where `addEntryRevisionVariant` files a document: its derived id, keyed as strings. */
  datatype VariantKey = VariantKey(url: string, entry: string, revision: string, variant: string)

  function KeyOf(doc: Json, variant: Value): Option<VariantKey> {
    var id := IdFromMetadata(Some(doc));
    if Truthy(id.sysUrl)
    then Some(VariantKey(ToStr(id.sysUrl), ToStr(id.entryId), ToStr(id.revision), ToStr(variant)))
    else None
  }

  /** `addEntryRevisionVariant`: derive the key, touch its levels, add the variant, record the id server. */
  function AddEntryRevisionVariant(s: Store, doc: Json, variant: Value, stringify: Json -> Bytes): Step<()> {
    match KeyOf(doc, variant)
    case None => Failed(s, UnableToFindMetadataId)
    case Some(k) => AddAtKey(s, k, doc, stringify)
  }

  /** The steps after the key is known. */
  function AddAtKey(s: Store, k: VariantKey, doc: Json, stringify: Json -> Bytes): Step<()> {
    var st1 := Touch(s, k.url, k.entry, k.revision);
    if st1.result.Failure? then st1
    else
      var st2 := AddVariant(st1.state, k.url, k.entry, k.revision, k.variant, doc, stringify);
      if st2.result.Failure? then st2
      else UpdateIdServerRecord(st2.state, doc)
  }

  // ---------------------------------------------------------------------
  // Properties

  /** Both stores hold exactly the same documents under the same keys. */
  ghost predicate SameVariants(s: Store, t: Store) {
    && (forall u, e, r, v | HasVariant(s, u, e, r, v) ::
          HasVariant(t, u, e, r, v) && t.urls[u][e][r][v] == s.urls[u][e][r][v])
    && (forall u, e, r, v | HasVariant(t, u, e, r, v) :: HasVariant(s, u, e, r, v))
  }

  /** Every level indexed in `s` is still indexed in `t`. */
  ghost predicate KeepsLevels(s: Store, t: Store) {
    && (forall u | u in s.urls :: u in t.urls)
    && (forall u, e | HasEntry(s, u, e) :: HasEntry(t, u, e))
    && (forall u, e, r | HasRevision(s, u, e, r) :: HasRevision(t, u, e, r))
  }

  /** What every step below leaves alone: the storage directory, the buffer, the files, the directories already made. */
  ghost predicate Grows(s: Store, t: Store) {
    && t.sDir == s.sDir && t.uuidUrls == s.uuidUrls
    && s.fs.dirs <= t.fs.dirs && t.fs.files == s.fs.files
  }

  /** The index after replacing the variants of one revision (or adding that revision). */
  lemma RevisionUpdate(s: Store, t: Store, u: string, e: string, r: string, rv: map<string, Json>)
    requires HasEntry(s, u, e)
    requires t.urls == s.urls[u := s.urls[u][e := s.urls[u][e][r := rv]]]
    ensures forall u2 :: u2 in t.urls <==> u2 in s.urls
    ensures forall u2, e2 :: HasEntry(t, u2, e2) <==> HasEntry(s, u2, e2)
    ensures forall u2, e2, r2 :: HasRevision(t, u2, e2, r2) <==> HasRevision(s, u2, e2, r2) || (u2, e2, r2) == (u, e, r)
    ensures forall u2, e2, r2 | HasRevision(t, u2, e2, r2) && (u2, e2, r2) != (u, e, r) ::
              t.urls[u2][e2][r2] == s.urls[u2][e2][r2]
    ensures HasRevision(t, u, e, r) && t.urls[u][e][r] == rv
  {
  }

  /** The index after adding one empty entry. */
  lemma EntryUpdate(s: Store, t: Store, u: string, e: string)
    requires u in s.urls && !HasEntry(s, u, e)
    requires t.urls == s.urls[u := s.urls[u][e := map[]]]
    ensures forall u2 :: u2 in t.urls <==> u2 in s.urls
    ensures forall u2, e2 :: HasEntry(t, u2, e2) <==> HasEntry(s, u2, e2) || (u2, e2) == (u, e)
    ensures forall u2, e2, r2 :: HasRevision(t, u2, e2, r2) <==> HasRevision(s, u2, e2, r2)
    ensures forall u2, e2, r2 | HasRevision(t, u2, e2, r2) :: t.urls[u2][e2][r2] == s.urls[u2][e2][r2]
  {
  }

  /** The index after adding one empty publisher URL. */
  lemma UrlUpdate(s: Store, t: Store, u: string)
    requires u !in s.urls
    requires t.urls == s.urls[u := map[]]
    ensures forall u2 :: u2 in t.urls <==> u2 in s.urls || u2 == u
    ensures forall u2, e2 :: HasEntry(t, u2, e2) <==> HasEntry(s, u2, e2)
    ensures forall u2, e2, r2 :: HasRevision(t, u2, e2, r2) <==> HasRevision(s, u2, e2, r2)
    ensures forall u2, e2, r2 | HasRevision(t, u2, e2, r2) :: t.urls[u2][e2][r2] == s.urls[u2][e2][r2]
  {
  }

  /** Adding empty levels whose directories exist keeps the disk mirroring the index. */
  lemma MirroredCarries(s: Store, t: Store, stringify: Json -> Bytes)
    requires Mirrored(s, stringify) && t.sDir == s.sDir && s.fs.dirs <= t.fs.dirs && t.fs.files == s.fs.files
    requires forall u | u in t.urls :: u in s.urls || UrlDir(t.sDir, u) in t.fs.dirs
    requires forall u, e | HasEntry(t, u, e) :: HasEntry(s, u, e) || EntryDir(t.sDir, u, e) in t.fs.dirs
    requires forall u, e, r | HasRevision(t, u, e, r) :: HasRevision(s, u, e, r) || RevisionDir(t.sDir, u, e, r) in t.fs.dirs
    requires SameVariants(s, t)
    ensures Mirrored(t, stringify)
  {
  }

  lemma AddSysUrlRecordEffect(s: Store, u: string, stringify: Json -> Bytes)
    requires u !in s.urls
    ensures var t := AddSysUrlRecord(s, u).state;
            SameVariants(s, t) && KeepsLevels(s, t) && Grows(s, t) && t.idServers == s.idServers
    ensures var st := AddSysUrlRecord(s, u);
            Mirrored(s, stringify) && st.result.Success? ==> Mirrored(st.state, stringify) && u in st.state.urls
  {
    var st := AddSysUrlRecord(s, u);
    UrlUpdate(s, st.state, u);
    if Mirrored(s, stringify) && st.result.Success? {
      MirroredCarries(s, st.state, stringify);
    }
  }

  lemma AddEntryRecordEffect(s: Store, u: string, e: string, stringify: Json -> Bytes)
    requires u in s.urls && !HasEntry(s, u, e)
    ensures var t := AddEntryRecord(s, u, e).state;
            SameVariants(s, t) && KeepsLevels(s, t) && Grows(s, t) && t.idServers == s.idServers
    ensures var st := AddEntryRecord(s, u, e);
            Mirrored(s, stringify) && st.result.Success? ==> Mirrored(st.state, stringify) && HasEntry(st.state, u, e)
  {
    var st := AddEntryRecord(s, u, e);
    EntryUpdate(s, st.state, u, e);
    if Mirrored(s, stringify) && st.result.Success? {
      MirroredCarries(s, st.state, stringify);
    }
  }

  lemma AddRevisionRecordEffect(s: Store, u: string, e: string, r: string, stringify: Json -> Bytes)
    requires HasEntry(s, u, e) && !HasRevision(s, u, e, r)
    ensures var t := AddRevisionRecord(s, u, e, r).state;
            SameVariants(s, t) && KeepsLevels(s, t) && Grows(s, t) && t.idServers == s.idServers
    ensures var st := AddRevisionRecord(s, u, e, r);
            Mirrored(s, stringify) && st.result.Success? ==> Mirrored(st.state, stringify) && HasRevision(st.state, u, e, r)
  {
    var st := AddRevisionRecord(s, u, e, r);
    RevisionUpdate(s, st.state, u, e, r, map[]);
    if Mirrored(s, stringify) && st.result.Success? {
      MirroredCarries(s, st.state, stringify);
    }
  }

  /**
   * `touchEntryRevision` only adds empty levels: no document is added,
   * removed or changed, and on success the revision is indexed with its
   * directories on disk.
   */
  lemma TouchEffect(s: Store, u: string, e: string, r: string, stringify: Json -> Bytes)
    ensures var t := Touch(s, u, e, r).state;
            SameVariants(s, t) && KeepsLevels(s, t) && Grows(s, t) && t.idServers == s.idServers
    ensures var st := Touch(s, u, e, r);
            st.result.Success? ==> HasRevision(st.state, u, e, r)
    ensures var st := Touch(s, u, e, r);
            Mirrored(s, stringify) && st.result.Success? ==> Mirrored(st.state, stringify)
  {
    var st := Touch(s, u, e, r);
    var st1 := TouchUrl(s, u);
    TouchUrlEffect(s, u, stringify);
    if st1.result.Failure? {
      assert st == st1;
    } else {
      var st2 := TouchEntry(st1.state, u, e);
      TouchEntryEffect(st1.state, u, e, stringify);
      EffectChain(s, st1.state, st2.state);
      if st2.result.Failure? {
        assert st == st2;
      } else {
        var st3 := TouchRevision(st2.state, u, e, r);
        TouchRevisionEffect(st2.state, u, e, r, stringify);
        EffectChain(s, st2.state, st3.state);
        assert st == st3;
      }
    }
  }

  /** Two steps that each only add empty levels make one that does. */
  lemma EffectChain(s: Store, t1: Store, t2: Store)
    requires SameVariants(s, t1) && KeepsLevels(s, t1) && Grows(s, t1) && t1.idServers == s.idServers
    requires SameVariants(t1, t2) && KeepsLevels(t1, t2) && Grows(t1, t2) && t2.idServers == t1.idServers
    ensures SameVariants(s, t2) && KeepsLevels(s, t2) && Grows(s, t2) && t2.idServers == s.idServers
  {
  }

  lemma TouchUrlEffect(s: Store, u: string, stringify: Json -> Bytes)
    ensures var t := TouchUrl(s, u).state;
            SameVariants(s, t) && KeepsLevels(s, t) && Grows(s, t) && t.idServers == s.idServers
    ensures var st := TouchUrl(s, u);
            st.result.Success? ==> u in st.state.urls && (Mirrored(s, stringify) ==> Mirrored(st.state, stringify))
  {
    if u !in s.urls { AddSysUrlRecordEffect(s, u, stringify); }
  }

  lemma TouchEntryEffect(s: Store, u: string, e: string, stringify: Json -> Bytes)
    requires u in s.urls
    ensures var t := TouchEntry(s, u, e).state;
            SameVariants(s, t) && KeepsLevels(s, t) && Grows(s, t) && t.idServers == s.idServers
    ensures var st := TouchEntry(s, u, e);
            st.result.Success? ==> HasEntry(st.state, u, e) && (Mirrored(s, stringify) ==> Mirrored(st.state, stringify))
  {
    if !HasEntry(s, u, e) { AddEntryRecordEffect(s, u, e, stringify); }
  }

  lemma TouchRevisionEffect(s: Store, u: string, e: string, r: string, stringify: Json -> Bytes)
    requires HasEntry(s, u, e)
    ensures var t := TouchRevision(s, u, e, r).state;
            SameVariants(s, t) && KeepsLevels(s, t) && Grows(s, t) && t.idServers == s.idServers
    ensures var st := TouchRevision(s, u, e, r);
            st.result.Success? ==> HasRevision(st.state, u, e, r) && (Mirrored(s, stringify) ==> Mirrored(st.state, stringify))
  {
    if !HasRevision(s, u, e, r) { AddRevisionRecordEffect(s, u, e, r, stringify); }
  }

  /** The index part of `TouchEffect`. */
  lemma TouchFrame(s: Store, u: string, e: string, r: string)
    ensures var t := Touch(s, u, e, r).state;
            SameVariants(s, t) && KeepsLevels(s, t) && t.sDir == s.sDir && t.uuidUrls == s.uuidUrls && t.idServers == s.idServers
    ensures var st := Touch(s, u, e, r);
            st.result.Success? ==> HasRevision(st.state, u, e, r)
  {
    TouchEffect(s, u, e, r, (j: Json) => []);
  }

  /** Touching a revision that is already indexed changes nothing. */
  lemma TouchIndexed(s: Store, u: string, e: string, r: string)
    requires HasRevision(s, u, e, r)
    ensures Touch(s, u, e, r) == Step(s, Success(()))
  {
  }

  /** `touchEntryRevision` is idempotent. */
  lemma TouchIdempotent(s: Store, u: string, e: string, r: string, stringify: Json -> Bytes)
    requires Touch(s, u, e, r).result.Success?
    ensures var t := Touch(s, u, e, r).state;
            Touch(t, u, e, r) == Step(t, Success(()))
  {
    TouchEffect(s, u, e, r, stringify);
    TouchIndexed(Touch(s, u, e, r).state, u, e, r);
  }

  lemma SuffixCancel(a: string, b: string, t: string)
    requires a + t == b + t
    ensures a == b
  {
    assert |a| == |b|;
    assert a == (a + t)[..|a|];
    assert b == (b + t)[..|b|];
  }

  /** Distinct variant directories hold distinct `metadata.json` files. */
  lemma VariantFileDir(sDir: string, u: string, e: string, r: string, v: string,
                       u2: string, e2: string, r2: string, v2: string)
    requires VariantFile(sDir, u, e, r, v) == VariantFile(sDir, u2, e2, r2, v2)
    ensures VariantDir(sDir, u, e, r, v) == VariantDir(sDir, u2, e2, r2, v2)
  {
    SuffixCancel(VariantDir(sDir, u, e, r, v), VariantDir(sDir, u2, e2, r2, v2), "/metadata.json");
  }

  /**
   * `__addEntryRevisionVariant`: an identical document is accepted without
   * change, a different one under an indexed key is refused without change,
   * and a new one ends up indexed under the key.
   */
  lemma AddVariantOutcome(s: Store, u: string, e: string, r: string, v: string, doc: Json,
                          stringify: Json -> Bytes)
    ensures var st := AddVariant(s, u, e, r, v, doc, stringify);
            HasVariant(s, u, e, r, v) && s.urls[u][e][r][v] == doc ==> st == Step(s, Success(()))
    ensures var st := AddVariant(s, u, e, r, v, doc, stringify);
            HasVariant(s, u, e, r, v) && s.urls[u][e][r][v] != doc ==> st == Failed(s, CannotModifyExistingVariant)
    ensures var st := AddVariant(s, u, e, r, v, doc, stringify);
            st.result.Success? ==> HasVariant(st.state, u, e, r, v) && st.state.urls[u][e][r][v] == doc
    ensures var st := AddVariant(s, u, e, r, v, doc, stringify);
            HasVariant(st.state, u, e, r, v) && !HasVariant(s, u, e, r, v) ==> st.state.urls[u][e][r][v] == doc
  {
    if HasRevision(s, u, e, r) && v !in s.urls[u][e][r] {
      var st := AddVariant(s, u, e, r, v, doc, stringify);
      RevisionUpdate(s, st.state, u, e, r, s.urls[u][e][r][v := doc]);
    }
  }

  /** The index after `__addEntryRevisionVariant`: the document is added exactly when its revision is indexed and the variant is new. */
  lemma AddVariantIndex(s: Store, u: string, e: string, r: string, v: string, doc: Json,
                        stringify: Json -> Bytes)
    ensures var t := AddVariant(s, u, e, r, v, doc, stringify).state;
            && t.idServers == s.idServers && t.sDir == s.sDir && t.uuidUrls == s.uuidUrls
            && t.urls == if HasRevision(s, u, e, r) && v !in s.urls[u][e][r]
                         then s.urls[u := s.urls[u][e := s.urls[u][e][r := s.urls[u][e][r][v := doc]]]]
                         else s.urls
  {
  }

  /** `__addEntryRevisionVariant` touches no other document and no other part of the state. */
  lemma AddVariantFrame(s: Store, u: string, e: string, r: string, v: string, doc: Json,
                        stringify: Json -> Bytes)
    ensures var t := AddVariant(s, u, e, r, v, doc, stringify).state;
            forall u2, e2, r2, v2 | HasVariant(s, u2, e2, r2, v2) ::
              HasVariant(t, u2, e2, r2, v2) && t.urls[u2][e2][r2][v2] == s.urls[u2][e2][r2][v2]
    ensures var t := AddVariant(s, u, e, r, v, doc, stringify).state;
            forall u2, e2, r2, v2 | HasVariant(t, u2, e2, r2, v2) ::
              HasVariant(s, u2, e2, r2, v2) || (u2, e2, r2, v2) == (u, e, r, v)
    ensures var t := AddVariant(s, u, e, r, v, doc, stringify).state;
            KeepsLevels(s, t) && t.idServers == s.idServers && t.sDir == s.sDir && t.uuidUrls == s.uuidUrls
  {
    var t := AddVariant(s, u, e, r, v, doc, stringify).state;
    AddVariantIndex(s, u, e, r, v, doc, stringify);
    if HasRevision(s, u, e, r) && v !in s.urls[u][e][r] {
      RevisionUpdate(s, t, u, e, r, s.urls[u][e][r][v := doc]);
    } else {
      assert t.urls == s.urls;
    }
  }

  /** A successful `__addEntryRevisionVariant` keeps the disk mirroring the index. */
  lemma AddVariantMirror(s: Store, u: string, e: string, r: string, v: string, doc: Json,
                         stringify: Json -> Bytes)
    requires Mirrored(s, stringify)
    requires AddVariant(s, u, e, r, v, doc, stringify).result.Success?
    ensures Mirrored(AddVariant(s, u, e, r, v, doc, stringify).state, stringify)
  {
    var st := AddVariant(s, u, e, r, v, doc, stringify);
    if v !in s.urls[u][e][r] {
      var s1 := s.(urls := s.urls[u := s.urls[u][e := s.urls[u][e][r := s.urls[u][e][r][v := doc]]]]);
      assert st == WriteVariant(s1, VariantDir(s.sDir, u, e, r, v), doc, stringify);
      NewVariantMirror(s, st.state, u, e, r, v, doc, stringify);
    }
  }

  /** Indexing a new document while making its directory and writing its `metadata.json` keeps the disk mirroring the index. */
  lemma NewVariantMirror(s: Store, t: Store, u: string, e: string, r: string, v: string, doc: Json,
                         stringify: Json -> Bytes)
    requires Mirrored(s, stringify) && HasRevision(s, u, e, r) && v !in s.urls[u][e][r]
    requires t.urls == s.urls[u := s.urls[u][e := s.urls[u][e][r := s.urls[u][e][r][v := doc]]]] && t.sDir == s.sDir
    requires !Exists(s.fs, VariantDir(s.sDir, u, e, r, v))
    requires t.fs == Fs(s.fs.dirs + {VariantDir(s.sDir, u, e, r, v)},
                        s.fs.files[VariantFile(s.sDir, u, e, r, v) := stringify(doc)])
    ensures Mirrored(t, stringify)
  {
    RevisionUpdate(s, t, u, e, r, s.urls[u][e][r][v := doc]);
    forall u2, e2, r2, v2 | HasVariant(t, u2, e2, r2, v2)
      ensures VariantDir(s.sDir, u2, e2, r2, v2) in t.fs.dirs
      ensures VariantFile(s.sDir, u2, e2, r2, v2) in t.fs.files
      ensures t.fs.files[VariantFile(s.sDir, u2, e2, r2, v2)] == stringify(t.urls[u2][e2][r2][v2])
    {
      if (u2, e2, r2, v2) != (u, e, r, v) {
        assert HasVariant(s, u2, e2, r2, v2);
        if VariantFile(s.sDir, u2, e2, r2, v2) == VariantFile(s.sDir, u, e, r, v) {
          VariantFileDir(s.sDir, u2, e2, r2, v2, u, e, r, v);
        }
      }
    }
  }

  /**
   * The index is written before the disk is checked: when the variant's
   * directory is already on disk the add throws, yet the document stays
   * indexed, with no `metadata.json` written for it.
   */
  lemma IndexBeforeDiskCheck(s: Store, u: string, e: string, r: string, v: string, doc: Json,
                             stringify: Json -> Bytes)
    requires HasRevision(s, u, e, r) && v !in s.urls[u][e][r]
    requires Exists(s.fs, VariantDir(s.sDir, u, e, r, v))
    ensures var st := AddVariant(s, u, e, r, v, doc, stringify);
            && st.result == Failure(Raise(newRevisionDirAlreadyExists))
            && HasVariant(st.state, u, e, r, v) && st.state.urls[u][e][r][v] == doc
            && st.state.fs == s.fs
  {
  }

  /**
   * `addEntryRevisionVariant` once its key is known: on success the document
   * is found under the key and the id-server record it names is recorded
   * under that record's `id`.
   */
  lemma AddAtKeyOutcome(s: Store, k: VariantKey, doc: Json, stringify: Json -> Bytes)
    ensures var st := AddAtKey(s, k, doc, stringify);
            st.result.Success? ==>
              && HasVariant(st.state, k.url, k.entry, k.revision, k.variant)
              && VariantMetadata(st.state, k.url, k.entry, k.revision, k.variant) == Some(doc)
              && IdServerRecordOf(doc).Success?
              && st.state.idServers == s.idServers[IdServerRecordOf(doc).value.0 := IdServerRecordOf(doc).value.1]
  {
    var st := AddAtKey(s, k, doc, stringify);
    var st1 := Touch(s, k.url, k.entry, k.revision);
    if st1.result.Success? {
      var st2 := AddVariant(st1.state, k.url, k.entry, k.revision, k.variant, doc, stringify);
      AddVariantOutcome(st1.state, k.url, k.entry, k.revision, k.variant, doc, stringify);
      if st2.result.Success? {
        assert st == UpdateIdServerRecord(st2.state, doc);
      }
    }
  }

  lemma AddAtKeyFrame(s: Store, k: VariantKey, doc: Json, stringify: Json -> Bytes)
    ensures var t := AddAtKey(s, k, doc, stringify).state;
            forall u, e, r, v | HasVariant(s, u, e, r, v) ::
              HasVariant(t, u, e, r, v) && t.urls[u][e][r][v] == s.urls[u][e][r][v]
    ensures var t := AddAtKey(s, k, doc, stringify).state;
            forall u, e, r, v | HasVariant(t, u, e, r, v) ::
              HasVariant(s, u, e, r, v) || (u, e, r, v) == (k.url, k.entry, k.revision, k.variant)
    ensures var t := AddAtKey(s, k, doc, stringify).state;
            KeepsLevels(s, t) && t.sDir == s.sDir && t.uuidUrls == s.uuidUrls
  {
    var st := AddAtKey(s, k, doc, stringify);
    var st1 := Touch(s, k.url, k.entry, k.revision);
    TouchFrame(s, k.url, k.entry, k.revision);
    if st1.result.Failure? {
      assert st == st1;
    } else {
      var st2 := AddVariant(st1.state, k.url, k.entry, k.revision, k.variant, doc, stringify);
      AddVariantFrame(st1.state, k.url, k.entry, k.revision, k.variant, doc, stringify);
      if st2.result.Failure? {
        assert st == st2;
      } else {
        assert st == UpdateIdServerRecord(st2.state, doc);
      }
      FrameThenAdd(s, st1.state, st2.state, st.state, k);
    }
  }

  /** A variant the add creates holds the added document. */
  lemma AddAtKeyNew(s: Store, k: VariantKey, doc: Json, stringify: Json -> Bytes)
    ensures var t := AddAtKey(s, k, doc, stringify).state;
            HasVariant(t, k.url, k.entry, k.revision, k.variant) && !HasVariant(s, k.url, k.entry, k.revision, k.variant)
            ==> t.urls[k.url][k.entry][k.revision][k.variant] == doc
  {
    var st := AddAtKey(s, k, doc, stringify);
    var st1 := Touch(s, k.url, k.entry, k.revision);
    TouchFrame(s, k.url, k.entry, k.revision);
    if st1.result.Failure? {
      assert st == st1;
    } else {
      var st2 := AddVariant(st1.state, k.url, k.entry, k.revision, k.variant, doc, stringify);
      AddVariantOutcome(st1.state, k.url, k.entry, k.revision, k.variant, doc, stringify);
      if st2.result.Failure? {
        assert st == st2;
      } else {
        assert st == UpdateIdServerRecord(st2.state, doc);
      }
    }
  }

  /** Composing an index-preserving step with one that adds at most the variant `k`. */
  lemma FrameThenAdd(s: Store, t1: Store, t2: Store, t: Store, k: VariantKey)
    requires SameVariants(s, t1) && KeepsLevels(s, t1) && KeepsLevels(t1, t2) && t.urls == t2.urls
    requires forall u, e, r, v | HasVariant(t1, u, e, r, v) ::
               HasVariant(t2, u, e, r, v) && t2.urls[u][e][r][v] == t1.urls[u][e][r][v]
    requires forall u, e, r, v | HasVariant(t2, u, e, r, v) ::
               HasVariant(t1, u, e, r, v) || (u, e, r, v) == (k.url, k.entry, k.revision, k.variant)
    ensures forall u, e, r, v | HasVariant(s, u, e, r, v) ::
              HasVariant(t, u, e, r, v) && t.urls[u][e][r][v] == s.urls[u][e][r][v]
    ensures forall u, e, r, v | HasVariant(t, u, e, r, v) ::
              HasVariant(s, u, e, r, v) || (u, e, r, v) == (k.url, k.entry, k.revision, k.variant)
    ensures KeepsLevels(s, t)
  {
  }

  lemma AddAtKeyMirror(s: Store, k: VariantKey, doc: Json, stringify: Json -> Bytes)
    requires Mirrored(s, stringify)
    requires AddAtKey(s, k, doc, stringify).result.Success?
    ensures Mirrored(AddAtKey(s, k, doc, stringify).state, stringify)
  {
    var st1 := Touch(s, k.url, k.entry, k.revision);
    TouchEffect(s, k.url, k.entry, k.revision, stringify);
    var st2 := AddVariant(st1.state, k.url, k.entry, k.revision, k.variant, doc, stringify);
    AddVariantMirror(st1.state, k.url, k.entry, k.revision, k.variant, doc, stringify);
    var st := AddAtKey(s, k, doc, stringify);
    assert st == UpdateIdServerRecord(st2.state, doc);
    MirroredIgnoresIdServers(st2.state, st.state, stringify);
  }

  /** The id-server records are not mirrored on disk. */
  lemma MirroredIgnoresIdServers(s: Store, t: Store, stringify: Json -> Bytes)
    requires Mirrored(s, stringify) && t == s.(idServers := t.idServers)
    ensures Mirrored(t, stringify)
  {
  }

  /**
   * `addEntryRevisionVariant`: refused without change when no key can be
   * derived; on success the document is found under its key and the
   * id-server record it names is recorded under that record's `id`.
   */
  lemma AddEntryRevisionVariantOutcome(s: Store, doc: Json, variant: Value, stringify: Json -> Bytes)
    ensures var st := AddEntryRevisionVariant(s, doc, variant, stringify);
            KeyOf(doc, variant).None? ==> st == Failed(s, UnableToFindMetadataId)
    ensures var st := AddEntryRevisionVariant(s, doc, variant, stringify);
            st.result.Success? ==>
              && KeyOf(doc, variant).Some?
              && var k := KeyOf(doc, variant).value;
              && VariantMetadata(st.state, k.url, k.entry, k.revision, k.variant) == Some(doc)
              && IdServerRecordOf(doc).Success?
              && st.state.idServers == s.idServers[IdServerRecordOf(doc).value.0 := IdServerRecordOf(doc).value.1]
  {
    if KeyOf(doc, variant).Some? {
      AddAtKeyOutcome(s, KeyOf(doc, variant).value, doc, stringify);
    }
  }

  /** `addEntryRevisionVariant` keeps every document already stored and adds at most the one under the derived key. */
  lemma AddEntryRevisionVariantFrame(s: Store, doc: Json, variant: Value, stringify: Json -> Bytes)
    ensures var t := AddEntryRevisionVariant(s, doc, variant, stringify).state;
            forall u, e, r, v | HasVariant(s, u, e, r, v) ::
              HasVariant(t, u, e, r, v) && t.urls[u][e][r][v] == s.urls[u][e][r][v]
    ensures var t := AddEntryRevisionVariant(s, doc, variant, stringify).state;
            KeyOf(doc, variant).Some? ==>
              var k := KeyOf(doc, variant).value;
              forall u, e, r, v | HasVariant(t, u, e, r, v) ::
                HasVariant(s, u, e, r, v) || (u, e, r, v) == (k.url, k.entry, k.revision, k.variant)
    ensures var t := AddEntryRevisionVariant(s, doc, variant, stringify).state;
            KeyOf(doc, variant).None? ==> t == s
    ensures var t := AddEntryRevisionVariant(s, doc, variant, stringify).state;
            KeepsLevels(s, t) && t.sDir == s.sDir && t.uuidUrls == s.uuidUrls
  {
    if KeyOf(doc, variant).Some? {
      AddAtKeyFrame(s, KeyOf(doc, variant).value, doc, stringify);
    }
  }

  /** A successful `addEntryRevisionVariant` keeps the disk mirroring the index. */
  lemma AddEntryRevisionVariantMirror(s: Store, doc: Json, variant: Value, stringify: Json -> Bytes)
    requires Mirrored(s, stringify)
    requires AddEntryRevisionVariant(s, doc, variant, stringify).result.Success?
    ensures Mirrored(AddEntryRevisionVariant(s, doc, variant, stringify).state, stringify)
  {
    AddAtKeyMirror(s, KeyOf(doc, variant).value, doc, stringify);
  }

  /** A different document under a key already in the store is refused, and nothing changes. */
  lemma ConflictingDocumentRefused(s: Store, doc: Json, variant: Value, stringify: Json -> Bytes)
    requires KeyOf(doc, variant).Some?
    requires var k := KeyOf(doc, variant).value;
             HasVariant(s, k.url, k.entry, k.revision, k.variant) && s.urls[k.url][k.entry][k.revision][k.variant] != doc
    ensures AddEntryRevisionVariant(s, doc, variant, stringify) == Failed(s, CannotModifyExistingVariant)
  {
    var k := KeyOf(doc, variant).value;
    TouchIndexed(s, k.url, k.entry, k.revision);
  }

  /** Adding the same document twice is the same as adding it once. */
  lemma AddEntryRevisionVariantIdempotent(s: Store, doc: Json, variant: Value, stringify: Json -> Bytes)
    requires AddEntryRevisionVariant(s, doc, variant, stringify).result.Success?
    ensures var t := AddEntryRevisionVariant(s, doc, variant, stringify).state;
            AddEntryRevisionVariant(t, doc, variant, stringify) == Step(t, Success(()))
  {
    var k := KeyOf(doc, variant).value;
    var t := AddAtKey(s, k, doc, stringify).state;
    AddAtKeyOutcome(s, k, doc, stringify);
    AddAtKeyStored(t, k, doc, stringify);
  }

  /** Once a document is stored under its key with its id-server record, adding it there again changes nothing. */
  lemma AddAtKeyStored(t: Store, k: VariantKey, doc: Json, stringify: Json -> Bytes)
    requires HasVariant(t, k.url, k.entry, k.revision, k.variant) && t.urls[k.url][k.entry][k.revision][k.variant] == doc
    requires IdServerRecordOf(doc).Success?
    requires var (id, rec) := IdServerRecordOf(doc).value; id in t.idServers && t.idServers[id] == rec
    ensures AddAtKey(t, k, doc, stringify) == Step(t, Success(()))
  {
    TouchIndexed(t, k.url, k.entry, k.revision);
    var (id, rec) := IdServerRecordOf(doc).value;
    assert t.idServers[id := rec] == t.idServers;
  }

  /** Every indexed document is truthy. */
  ghost predicate DocsTruthy(s: Store) {
    forall u, e, r, v | HasVariant(s, u, e, r, v) :: Truthy(Some(s.urls[u][e][r][v]))
  }

  /**
   * The listings and the lookup agree: a variant's document is found exactly
   * when the variant is listed under its revision, each level's listing is
   * the key set of the level below, and a missing level lists as null.
   */
  lemma ListingsAgree(s: Store, u: string, e: string, r: string, v: string)
    requires DocsTruthy(s)
    ensures Truthy(VariantMetadata(s, u, e, r, v))
            <==> IdServerEntryRevisionVariants(s, u, e, r).Some? && v in IdServerEntryRevisionVariants(s, u, e, r).value
    ensures IdServerEntryRevisionVariants(s, u, e, r).Some?
            <==> IdServerEntryRevisions(s, u, e).Some? && r in IdServerEntryRevisions(s, u, e).value
    ensures IdServerEntryRevisions(s, u, e).Some?
            <==> IdServerEntries(s, u).Some? && e in IdServerEntries(s, u).value
    ensures IdServerEntries(s, u).Some? <==> u in IdServerKeys(s)
    ensures IdServerEntryRevisionsVariants(s, u, e).Some? ==>
              forall r2 | r2 in IdServerEntryRevisionsVariants(s, u, e).value ::
                Some(IdServerEntryRevisionsVariants(s, u, e).value[r2]) == IdServerEntryRevisionVariants(s, u, e, r2)
    ensures IdServerEntriesRevisions(s, u).Some? ==>
              forall e2 | e2 in IdServerEntriesRevisions(s, u).value ::
                Some(IdServerEntriesRevisions(s, u).value[e2]) == IdServerEntryRevisions(s, u, e2)
    ensures u in IdServersEntries(s) <==> IdServerEntries(s, u).Some?
    ensures u in IdServersEntries(s) ==> Some(IdServersEntries(s)[u]) == IdServerEntries(s, u)
  {
  }

  /** A successful add keeps every indexed document truthy when the added one is. */
  lemma AddKeepsDocsTruthy(s: Store, doc: Json, variant: Value, stringify: Json -> Bytes)
    requires DocsTruthy(s) && Truthy(Some(doc))
    ensures DocsTruthy(AddEntryRevisionVariant(s, doc, variant, stringify).state)
  {
    AddEntryRevisionVariantFrame(s, doc, variant, stringify);
    var st := AddEntryRevisionVariant(s, doc, variant, stringify);
    if KeyOf(doc, variant).Some? {
      var k := KeyOf(doc, variant).value;
      forall u, e, r, v | HasVariant(st.state, u, e, r, v) ensures Truthy(Some(st.state.urls[u][e][r][v])) {
        if !HasVariant(s, u, e, r, v) {
          assert (u, e, r, v) == (k.url, k.entry, k.revision, k.variant);
          AddAtKeyNew(s, k, doc, stringify);
        }
      }
    }
  }

  /** After a successful add, the details listing shows the document's id-server record for its publisher URL. */
  lemma DetailsShowRecordedServer(s: Store, doc: Json, variant: Value, stringify: Json -> Bytes)
    requires AddEntryRevisionVariant(s, doc, variant, stringify).result.Success?
    requires IdServerRecordOf(doc).value.0 == KeyOf(doc, variant).value.url
    ensures var t := AddEntryRevisionVariant(s, doc, variant, stringify).state;
            var k := KeyOf(doc, variant).value;
            k.url in IdServersDetails(t) && IdServersDetails(t)[k.url] == IdServerRecordOf(doc).value.1
  {
    AddEntryRevisionVariantOutcome(s, doc, variant, stringify);
  }
}


=== FILE: sb01_import.dfy ===
/**
 * The Scripture Burrito 0.1 converter: it builds the `meta`, `idServers`,
 * `identification` and `languages` fields of a 0.2 metadata document from
 * a 0.1 document.
 *
 * The converter takes the first key and the first value of the 0.1
 * `idServer` object, so the key order of that object matters: `order` lists
 * its keys as `Object.keys` would.
 *
 * A JavaScript array element that is `undefined` serialises as `null`, and
 * an object property that is `undefined` is not serialised at all; the
 * documents here are the serialised forms.
 */
module Sb01Import {

  import opened Wrappers
  import opened JsonValue
  import opened Errors
  import opened Js

  type Doc = map<string, Json>

  /** The ordering requirement, for an `idServer` value that is an object. */
  ghost predicate OrderFits(idServer: Value, order: seq<string>) {
    idServer.Some? && idServer.value.JObj? ==> KeyOrder(order, idServer.value.fields)
  }

  /** `obj[k] = v` as serialised: an `undefined` value leaves no property. */
  function Put(m: map<string, Json>, k: string, v: Value): (r: map<string, Json>)
    ensures v.Some? ==> r == m[k := v.value]
    ensures v.None? ==> r == m - {k}
  {
    if v.Some? then m[k := v.value] else m - {k}
  }

  /** `doc[k]` on the parsed 0.1 document: a `TypeError` when the document is `null`. */
  function Prop(doc: Json, k: string): (r: Res<Value>)
    ensures r.Failure? <==> doc == JNull
    ensures r.Success? ==> r.value == Field(Some(doc), k)
  {
    if doc == JNull then Fail(TypeError) else Success(Field(Some(doc), k))
  }

  /** An array element as serialised: `undefined` becomes `null`. */
  function Element(v: Value): Json {
    if v.Some? then v.value else JNull
  }

  // ---------------------------------------------------------------------
  // meta

  /** `buildMeta`: a `source` variant of version 0.2.0 whose one comment is the 0.1 snapshot's comment. */
  function BuildMeta(sb01: Json): (r: Res<Json>)
    ensures r.Success? <==> GetPath(Some(sb01), ["snapshot", "comments"]).Success?
    ensures r.Success? ==>
              && r.value.JObj?
              && {"variant", "version", "comments"} <= r.value.fields.Keys
              && r.value.fields["variant"] == JStr("source")
              && r.value.fields["version"] == JStr("0.2.0")
              && r.value.fields["comments"] == JArr([Element(GetPath(Some(sb01), ["snapshot", "comments"]).value)])
  {
    var snapshot :- Prop(sb01, "snapshot");
    var comments :- Get(snapshot, "comments");
    Success(JObj(map["variant" := JStr("source"), "version" := JStr("0.2.0"),
                     "dateCreated" := JStr("2020-03-31T09:04:10.3+02:00"),
                     "generator" := JObj(map["softwareName" := JStr("SB01Import"), "softwareVersion" := JStr("0.0.0")]),
                     "comments" := JArr([Element(comments)])]))
  }

  // ---------------------------------------------------------------------
  // idServers

  /** `Object.keys(v)[0]`: a `TypeError` on `undefined` or `null`, `undefined` when there is no key. */
  function FirstKey(v: Value, order: seq<string>): (r: Res<Value>)
    requires OrderFits(v, order)
    ensures r.Failure? <==> Nullish(v)
    ensures r.Success? && r.value.Some? ==> v.value.JObj? && r.value.value.JStr? && r.value.value.s in v.value.fields
    ensures r.Success? && v.value.JObj? && |v.value.fields| > 0 ==> r.value.Some?
  {
    if Nullish(v) then Fail(TypeError)
    else if v.value.JObj? && |order| > 0 then
      assert order[0] in v.value.fields;
      Success(Str(order[0]))
    else
      if v.value.JObj? then
        NoOrderNoKeys(order, v.value.fields);
        Success(None)
      else
        Success(None)
  }

  lemma NoOrderNoKeys(order: seq<string>, m: map<string, Json>)
    requires KeyOrder(order, m) && |order| == 0
    ensures |m| == 0
  {
    assert m.Keys == {};
  }

  /** `Object.values(v)[0]`: the value of the first key. */
  function FirstValue(v: Value, order: seq<string>): (r: Res<Value>)
    requires OrderFits(v, order)
    ensures r.Failure? <==> Nullish(v)
    ensures r.Success? ==> FirstKey(v, order).Success?
    ensures r.Success? && FirstKey(v, order).value.Some? ==> r.value == Some(v.value.fields[FirstKey(v, order).value.value.s])
  {
    var k :- FirstKey(v, order);
    if k.Some? then Success(Some(v.value.fields[k.value.s])) else Success(None)
  }

  /**
   * `buildIdServers` as written: the object literal `{idServerKey: …}` names
   * its key literally, so the one id server is always called `idServerKey`.
   */
  function BuildIdServersAsWritten(sb01: Json, order: seq<string>): (r: Res<Json>)
    requires OrderFits(Field(Some(sb01), "idServer"), order)
    ensures r.Success? ==> r.value.JObj? && r.value.fields.Keys == {"idServerKey"}
  {
    var idServer :- Prop(sb01, "idServer");
    var url :- FirstValue(idServer, order);
    Success(Obj1("idServerKey", JObj(Put(map[], "id", url))))
  }

  /** `buildIdServers` as intended: the one id server is named by the 0.1 document's first id server key. */
  function BuildIdServers(sb01: Json, order: seq<string>): (r: Res<Json>)
    requires OrderFits(Field(Some(sb01), "idServer"), order)
    ensures r.Success? <==> FirstKey(Field(Some(sb01), "idServer"), order).Success?
    ensures r.Success? ==>
              var key := FirstKey(Field(Some(sb01), "idServer"), order).value;
              && r.value.JObj? && r.value.fields.Keys == {ToStr(key)}
              && r.value.fields[ToStr(key)] == JObj(Put(map[], "id", FirstValue(Field(Some(sb01), "idServer"), order).value))
  {
    var idServer :- Prop(sb01, "idServer");
    var key :- FirstKey(idServer, order);
    var url := FirstValue(idServer, order).value;
    Success(Obj1(ToStr(key), JObj(Put(map[], "id", url))))
  }

  // ---------------------------------------------------------------------
  // identification

  const IdentificationFields: seq<string> := ["name", "abbreviation", "description", "systemId"]

  /** The fields of the 0.1 identification among `fields` that are present, copied onto `m`. */
  function CopyPresent(m: map<string, Json>, source: Value, fields: seq<string>): (r: Res<map<string, Json>>)
    ensures r.Success? <==> |fields| == 0 || (source.Some? && (source.value.JObj? || source.value.JArr?))
    ensures r.Success? ==> forall k :: k in r.value <==> k in m || (k in fields && Field(source, k).Some?)
    ensures r.Success? ==> forall k | k in r.value :: r.value[k] == if k in fields && Field(source, k).Some? then Field(source, k).value else m[k]
    decreases |fields|
  {
    if |fields| == 0 then Success(m)
    else
      var present :- HasProperty(source, fields[0]);
      var m1 := if present then m[fields[0] := source.value.fields[fields[0]]] else m;
      CopyPresent(m1, source, fields[1..])
  }

  /**
   * `buildIdentification`: the first id server key as `idServer`, and
   * those of name, abbreviation, description and system id that the 0.1
   * identification has.
   */
  function BuildIdentification(sb01: Json, order: seq<string>): (r: Res<Json>)
    requires OrderFits(Field(Some(sb01), "idServer"), order)
    ensures r.Success? ==> FirstKey(Field(Some(sb01), "idServer"), order).Success?
    ensures r.Success? ==>
              && r.value.JObj?
              && var source := Field(Some(sb01), "identification");
              && (forall k :: k in r.value.fields <==>
                    (k in IdentificationFields && Field(source, k).Some?)
                    || (k == "idServer" && FirstKey(Field(Some(sb01), "idServer"), order).value.Some?))
              && (forall k | k in IdentificationFields && Field(source, k).Some? :: r.value.fields[k] == Field(source, k).value)
  {
    var idServer :- Prop(sb01, "idServer");
    var key :- FirstKey(idServer, order);
    // The document is not null here, so reading `identification` cannot fail.
    var source := Field(Some(sb01), "identification");
    var fields :- CopyPresent(Put(map[], "idServer", key), source, IdentificationFields);
    Success(JObj(fields))
  }

  // ---------------------------------------------------------------------
  // languages

  /**
   * `v[0]`: a `TypeError` on `undefined` or `null`, the first element of a
   * non-empty array, the property `"0"` of an object, otherwise `undefined`.
   */
  function First(v: Value): (r: Res<Value>)
    ensures r.Failure? <==> Nullish(v)
    ensures v.Some? && v.value.JArr? && |v.value.items| > 0 ==> r == Success(Some(v.value.items[0]))
    ensures v.Some? && v.value.JArr? && |v.value.items| == 0 ==> r == Success(None)
    ensures v.Some? && v.value.JObj? ==> r == Success(if "0" in v.value.fields then Some(v.value.fields["0"]) else None)
  {
    if Nullish(v) then Fail(TypeError)
    else if v.value.JArr? && |v.value.items| > 0 then Success(Some(v.value.items[0]))
    else if v.value.JObj? then Success(Field(v, "0"))
    else Success(None)
  }

  /** `buildLanguages`: the first 0.1 language, as its BCP 47 tag and its name. */
  function BuildLanguages(sb01: Json): (r: Res<Json>)
    ensures r.Success? ==>
              && First(Field(Some(sb01), "languages")).Success?
              && var lang := First(Field(Some(sb01), "languages")).value;
              && !Nullish(lang)
              && r.value == JArr([JObj(Put(Put(map[], "tag", Field(lang, "bcp47")), "name", Field(lang, "name")))])
  {
    var languages :- Prop(sb01, "languages");
    var lang :- First(languages);
    var tag :- Get(lang, "bcp47");
    var name :- Get(lang, "name");
    Success(JArr([JObj(Put(Put(map[], "tag", tag), "name", name))]))
  }

  /** A `languages` object read by index: its property `"0"` is the first language. */
  lemma ObjectLanguagesRead()
    ensures var lang := JObj(map["bcp47" := JStr("fr"), "name" := JStr("French")]);
            BuildLanguages(JObj(map["languages" := JObj(map["0" := lang])]))
              == Success(JArr([JObj(map["tag" := JStr("fr"), "name" := JStr("French")])]))
  {
  }

  // ---------------------------------------------------------------------
  // The conversion

  /**
   * `new SB01Import(doc).sb02Metadata`: meta, id servers, identification
   * and languages, built in that order; `meta.defaultLanguage` is the tag
   * of the one language. `literalKey` chooses the id-server builder: the
   * code as written, or the computed key it evidently intends.
   */
  function ConvertWith(sb01: Json, order: seq<string>, literalKey: bool): (r: Res<Doc>)
    requires OrderFits(Field(Some(sb01), "idServer"), order)
    ensures r.Success? ==> r.value.Keys == {"meta", "idServers", "identification", "languages"}
  {
    var meta :- BuildMeta(sb01);
    var idServers :- if literalKey then BuildIdServersAsWritten(sb01, order) else BuildIdServers(sb01, order);
    var identification :- BuildIdentification(sb01, order);
    var languages :- BuildLanguages(sb01);
    var tag := Field(Some(languages.items[0]), "tag");
    Success(map["meta" := JObj(Put(meta.fields, "defaultLanguage", tag)), "idServers" := idServers,
                "identification" := identification, "languages" := languages])
  }

  /** The constructor as written: the one id server is keyed `idServerKey`. */
  function ConvertAsWritten(sb01: Json, order: seq<string>): (r: Res<Doc>)
    requires OrderFits(Field(Some(sb01), "idServer"), order)
    ensures r.Success? ==> r.value.Keys == {"meta", "idServers", "identification", "languages"}
  {
    ConvertWith(sb01, order, true)
  }

  /** The constructor with the id server keyed by the 0.1 document's first key, as intended. */
  function Convert(sb01: Json, order: seq<string>): (r: Res<Doc>)
    requires OrderFits(Field(Some(sb01), "idServer"), order)
    ensures r.Success? ==> r.value.Keys == {"meta", "idServers", "identification", "languages"}
  {
    ConvertWith(sb01, order, false)
  }

  // ---------------------------------------------------------------------
  // Properties

  /** The document's `identification.idServer` names one of its `idServers`. */
  ghost predicate IdServerNamed(idServers: Json, identification: Json) {
    && identification.JObj? && "idServer" in identification.fields
    && identification.fields["idServer"].JStr?
    && idServers.JObj? && identification.fields["idServer"].s in idServers.fields
  }

  /**
   * As written, `identification.idServer` names an id server of the new
   * document exactly when the 0.1 document's first id server key is
   * literally `idServerKey`.
   */
  lemma IdServerNamedAsWritten(sb01: Json, order: seq<string>)
    requires OrderFits(Field(Some(sb01), "idServer"), order)
    requires BuildIdServersAsWritten(sb01, order).Success? && BuildIdentification(sb01, order).Success?
    requires FirstKey(Field(Some(sb01), "idServer"), order).value.Some?
    ensures IdServerNamed(BuildIdServersAsWritten(sb01, order).value, BuildIdentification(sb01, order).value)
            <==> FirstKey(Field(Some(sb01), "idServer"), order).value == Str("idServerKey")
  {
  }

  /** A 0.1 document whose one id server is `ebible`. */
  const EbibleDocument: Json :=
    JObj(map["idServer" := Obj1("ebible", JStr("https://ebible.org")),
             "identification" := JObj(map[])])

  /** The as-written converter names an id server that the document it builds does not define. */
  lemma EbibleServerMissingAsWritten()
    ensures OrderFits(Field(Some(EbibleDocument), "idServer"), ["ebible"])
    ensures BuildIdServersAsWritten(EbibleDocument, ["ebible"]) == Success(Obj1("idServerKey", Obj1("id", JStr("https://ebible.org"))))
    ensures BuildIdentification(EbibleDocument, ["ebible"]) == Success(Obj1("idServer", JStr("ebible")))
    ensures !IdServerNamed(BuildIdServersAsWritten(EbibleDocument, ["ebible"]).value, BuildIdentification(EbibleDocument, ["ebible"]).value)
  {
    var ids := Field(Some(EbibleDocument), "idServer");
    assert ids == Some(Obj1("ebible", JStr("https://ebible.org")));
    assert KeyOrder(["ebible"], ids.value.fields);
    assert FirstKey(ids, ["ebible"]) == Success(Str("ebible"));
    var source := Field(Some(EbibleDocument), "identification");
    assert source == Some(JObj(map[]));
    CopyNothingPresent(Put(map[], "idServer", Str("ebible")), source, IdentificationFields);
    IdServerNamedAsWritten(EbibleDocument, ["ebible"]);
  }

  /** With none of the fields present in the source, nothing is copied. */
  lemma {:induction false} CopyNothingPresent(m: map<string, Json>, source: Value, fields: seq<string>)
    requires source.Some? && source.value.JObj?
    requires forall i | 0 <= i < |fields| :: fields[i] !in source.value.fields
    ensures CopyPresent(m, source, fields) == Success(m)
    decreases |fields|
  {
    if |fields| > 0 {
      CopyNothingPresent(m, source, fields[1..]);
    }
  }

  /**
   * With the id servers as intended, `identification.idServer` always names
   * an id server of the new document, whose id is the 0.1 document's first
   * id server value.
   */
  lemma IdServerNamedCorrected(sb01: Json, order: seq<string>)
    requires OrderFits(Field(Some(sb01), "idServer"), order)
    requires BuildIdServers(sb01, order).Success? && BuildIdentification(sb01, order).Success?
    requires FirstKey(Field(Some(sb01), "idServer"), order).value.Some?
    ensures IdServerNamed(BuildIdServers(sb01, order).value, BuildIdentification(sb01, order).value)
    ensures var key := BuildIdentification(sb01, order).value.fields["idServer"].s;
            Field(Some(BuildIdServers(sb01, order).value.fields[key]), "id") == FirstValue(Field(Some(sb01), "idServer"), order).value
  {
  }

  /** A converted document's default language is the tag of its one language. */
  lemma DefaultLanguageIsTag(sb01: Json, order: seq<string>)
    requires OrderFits(Field(Some(sb01), "idServer"), order)
    requires Convert(sb01, order).Success?
    ensures var d := Convert(sb01, order).value;
            var lang := First(Field(Some(sb01), "languages")).value;
            && d["languages"] == JArr([JObj(Put(Put(map[], "tag", Field(lang, "bcp47")), "name", Field(lang, "name")))])
            && Field(Some(d["meta"]), "defaultLanguage") == Field(lang, "bcp47")
            && Field(Some(d["meta"]), "variant") == Str("source")
  {
    ConvertParts(sb01, order, false);
    var languages := BuildLanguages(sb01).value;
    var lang := First(Field(Some(sb01), "languages")).value;
    var tag := Field(Some(languages.items[0]), "tag");
    assert tag == Field(lang, "bcp47");
    DefaultLanguageMeta(BuildMeta(sb01).value.fields, tag);
  }

  /** Setting the default language of a `source` meta block keeps its variant. */
  lemma DefaultLanguageMeta(meta: map<string, Json>, tag: Value)
    requires "variant" in meta && meta["variant"] == JStr("source")
    ensures var m := Some(JObj(Put(meta, "defaultLanguage", tag)));
            Field(m, "defaultLanguage") == tag && Field(m, "variant") == Str("source")
  {
  }

  /**
   * A successful conversion's parts are what the builders give: `meta`
   * with the default language, the chosen id servers, the identification
   * and the languages.
   */
  lemma ConvertParts(sb01: Json, order: seq<string>, literalKey: bool)
    requires OrderFits(Field(Some(sb01), "idServer"), order)
    requires ConvertWith(sb01, order, literalKey).Success?
    ensures BuildMeta(sb01).Success? && BuildLanguages(sb01).Success? && BuildIdentification(sb01, order).Success?
    ensures literalKey ==> BuildIdServersAsWritten(sb01, order).Success?
    ensures !literalKey ==> BuildIdServers(sb01, order).Success?
    ensures var d := ConvertWith(sb01, order, literalKey).value;
            var languages := BuildLanguages(sb01).value;
            && d["languages"] == languages
            && d["meta"] == JObj(Put(BuildMeta(sb01).value.fields, "defaultLanguage", Field(Some(languages.items[0]), "tag")))
            && d["identification"] == BuildIdentification(sb01, order).value
            && d["idServers"] == (if literalKey then BuildIdServersAsWritten(sb01, order) else BuildIdServers(sb01, order)).value
  {
    ConvertBuilt(sb01, order, literalKey);
    ConvertAssembled(sb01, order, literalKey);
  }

  /** A conversion succeeds only when each of its builders does. */
  lemma ConvertBuilt(sb01: Json, order: seq<string>, literalKey: bool)
    requires OrderFits(Field(Some(sb01), "idServer"), order)
    requires ConvertWith(sb01, order, literalKey).Success?
    ensures BuildMeta(sb01).Success? && BuildLanguages(sb01).Success? && BuildIdentification(sb01, order).Success?
    ensures (if literalKey then BuildIdServersAsWritten(sb01, order) else BuildIdServers(sb01, order)).Success?
  {
  }

  /** When every builder succeeds, the conversion assembles their results. */
  lemma ConvertAssembled(sb01: Json, order: seq<string>, literalKey: bool)
    requires OrderFits(Field(Some(sb01), "idServer"), order)
    requires BuildMeta(sb01).Success? && BuildLanguages(sb01).Success? && BuildIdentification(sb01, order).Success?
    requires (if literalKey then BuildIdServersAsWritten(sb01, order) else BuildIdServers(sb01, order)).Success?
    ensures var languages := BuildLanguages(sb01).value;
            ConvertWith(sb01, order, literalKey)
              == Success(map["meta" := JObj(Put(BuildMeta(sb01).value.fields, "defaultLanguage", Field(Some(languages.items[0]), "tag"))),
                             "idServers" := (if literalKey then BuildIdServersAsWritten(sb01, order) else BuildIdServers(sb01, order)).value,
                             "identification" := BuildIdentification(sb01, order).value, "languages" := languages])
  {
  }

  /**
   * As written, a converted document's `identification.idServer` names one
   * of its `idServers` exactly when the 0.1 document's first id server key
   * is literally `idServerKey`.
   */
  lemma ConvertedNamedAsWritten(sb01: Json, order: seq<string>)
    requires OrderFits(Field(Some(sb01), "idServer"), order)
    requires ConvertAsWritten(sb01, order).Success?
    ensures var d := ConvertAsWritten(sb01, order).value;
            IdServerNamed(d["idServers"], d["identification"])
            <==> FirstKey(Field(Some(sb01), "idServer"), order).value == Str("idServerKey")
  {
    ConvertParts(sb01, order, true);
    var key := FirstKey(Field(Some(sb01), "idServer"), order);
    if key.value.Some? {
      IdServerNamedAsWritten(sb01, order);
    } else {
      IdentificationWithoutKey(sb01, order);
    }
  }

  /** An id server object without keys gives an identification without `idServer`. */
  lemma IdentificationWithoutKey(sb01: Json, order: seq<string>)
    requires OrderFits(Field(Some(sb01), "idServer"), order)
    requires BuildIdentification(sb01, order).Success?
    requires FirstKey(Field(Some(sb01), "idServer"), order).value.None?
    ensures "idServer" !in BuildIdentification(sb01, order).value.fields
  {
  }

  /**
   * With the id servers as intended, a converted document whose 0.1 id
   * server object has a key names one of its own id servers, and that
   * server's id is the first 0.1 id server value.
   */
  lemma ConvertedNamed(sb01: Json, order: seq<string>)
    requires OrderFits(Field(Some(sb01), "idServer"), order)
    requires Convert(sb01, order).Success?
    ensures var d := Convert(sb01, order).value;
            FirstKey(Field(Some(sb01), "idServer"), order).value.Some? ==>
              && IdServerNamed(d["idServers"], d["identification"])
              && Field(Some(d["idServers"].fields[d["identification"].fields["idServer"].s]), "id")
                 == FirstValue(Field(Some(sb01), "idServer"), order).value
  {
    ConvertParts(sb01, order, false);
    if FirstKey(Field(Some(sb01), "idServer"), order).value.Some? {
      IdServerNamedCorrected(sb01, order);
    }
  }
}

=== FILE: store_state.dfy ===
/**
 * The state of one file-system burrito store and the collaborators it calls
 * but that are not modelled here.
 *
 * The three component stores share one storage directory `sDir`:
 * - the metadata store keeps the in-memory index `urls`
 *   (publisher URL -> entry id -> revision -> variant -> document) and the
 *   id-server records `idServers`, mirrored on disk under `sDir/metadata`;
 * - the ingredient buffer keeps `uuidUrls` (staging handle -> ingredient
 *   url) with staged files under `sDir/buffer`;
 * - the ingredients store keeps content files under `sDir/ingredients`.
 */
module StoreState {

  import opened Wrappers
  import opened JsonValue
  import opened Errors
  import opened FileTree

  type Index = map<string, map<string, map<string, map<string, Json>>>>

  datatype Store = Store(
    sDir: string,
    urls: Index,
    idServers: map<string, Json>,
    uuidUrls: map<string, string>,
    fs: Fs)

  /**
   * The outcome of an operation: the state afterwards and what it returned
   * or threw. A throw after a mutation keeps the mutation, as in the source.
   */
  datatype Step<T> = Step(state: Store, result: Res<T>)

  /** A schema validator's verdict; a rejection carries the validator's error list. */
  datatype Report = Accepted | Rejected(schemaErrors: Value)

  /**
   * Library calls: the md5 digest (hex) of file content, `JSON.stringify`,
   * `semver.satisfies(version, range)` and the JSON-schema validator that
   * checks a document against the schema of the given name.
   */
  datatype Env = Env(
    md5: Bytes -> string,
    stringify: Json -> Bytes,
    satisfies: (Value, Value) -> bool,
    validate: (string, Json) -> Report)

  predicate HasEntry(s: Store, u: string, e: string) {
    u in s.urls && e in s.urls[u]
  }

  predicate HasRevision(s: Store, u: string, e: string, r: string) {
    HasEntry(s, u, e) && r in s.urls[u][e]
  }

  predicate HasVariant(s: Store, u: string, e: string, r: string, v: string) {
    HasRevision(s, u, e, r) && v in s.urls[u][e][r]
  }

  function Failed<T>(s: Store, kind: Kind): Step<T> {
    Step(s, Failure(Raise(kind)))
  }
}

=== FILE: uri.dfy ===
/**
 * `encodeURIComponent` and `decodeURIComponent` (section 19.2.6 of ECMA-262).
 *
 * The store names every directory level after an identifier passed through
 * `encodeURIComponent`, and reads directory names back through
 * `decodeURIComponent`. Encoding keeps the unreserved characters
 * `A-Z a-z 0-9 - _ . ! ~ * ' ( )` and writes every other code point as the
 * `%XX` escapes (upper-case hex) of its UTF-8 bytes. A `char` here is a
 * Unicode scalar value, so the lone surrogate on which `encodeURIComponent`
 * throws `URIError` is not a string this module can be given.
 */
module Uri {

  import opened Wrappers
  import opened Errors

  predicate Unreserved(c: char) {
    ('A' <= c <= 'Z') || ('a' <= c <= 'z') || ('0' <= c <= '9')
    || c == '-' || c == '_' || c == '.' || c == '!' || c == '~'
    || c == '*' || c == '\'' || c == '(' || c == ')'
  }

  function HexDigit(d: nat): char
    requires d < 16
  {
    if d < 10 then ('0' as int + d) as char else ('A' as int + d - 10) as char
  }

  function HexValue(c: char): Option<nat> {
    if '0' <= c <= '9' then Some(c as int - '0' as int)
    else if 'A' <= c <= 'F' then Some(c as int - 'A' as int + 10)
    else if 'a' <= c <= 'f' then Some(c as int - 'a' as int + 10)
    else None
  }

  /** The escape `%XX` of one byte. */
  function Escape(b: nat): string
    requires b < 256
  {
    ['%', HexDigit(b / 16), HexDigit(b % 16)]
  }

  /** The UTF-8 encoding of a Unicode scalar value. */
  function Utf8(c: char): seq<nat> {
    var cp := c as int;
    if cp < 0x80 then [cp]
    else if cp < 0x800 then [0xC0 + cp / 64, 0x80 + cp % 64]
    else if cp < 0x10000 then [0xE0 + cp / 4096, 0x80 + (cp / 64) % 64, 0x80 + cp % 64]
    else [0xF0 + cp / 262144, 0x80 + (cp / 4096) % 64, 0x80 + (cp / 64) % 64, 0x80 + cp % 64]
  }

  function EscapeAll(bytes: seq<nat>): string
    requires forall i | 0 <= i < |bytes| :: bytes[i] < 256
    decreases |bytes|
  {
    if |bytes| == 0 then "" else Escape(bytes[0]) + EscapeAll(bytes[1..])
  }

  lemma Utf8Bytes(c: char)
    ensures forall i | 0 <= i < |Utf8(c)| :: Utf8(c)[i] < 256
  {
  }

  function EncodeChar(c: char): string {
    if Unreserved(c) then [c]
    else
      Utf8Bytes(c);
      EscapeAll(Utf8(c))
  }

  /** `encodeURIComponent(s)` */
  function Encode(s: string): string
    decreases |s|
  {
    if |s| == 0 then "" else EncodeChar(s[0]) + Encode(s[1..])
  }

  /** The byte written as `%XX` at position `i`, if there is one. */
  function ByteAt(s: string, i: nat): Option<nat> {
    if i + 3 <= |s| && s[i] == '%' && HexValue(s[i + 1]).Some? && HexValue(s[i + 2]).Some?
    then Some(HexValue(s[i + 1]).value * 16 + HexValue(s[i + 2]).value)
    else None
  }

  /** The low six bits of the continuation byte `10xxxxxx` written at position `i`. */
  function ContinuationAt(s: string, i: nat): Option<nat> {
    match ByteAt(s, i)
    case Some(b) => if 0x80 <= b < 0xC0 then Some(b - 0x80) else None
    case None => None
  }

  /** The number of bytes announced by a lead byte (its leading one bits), or 0 when it cannot start a sequence. */
  function SequenceLength(b0: nat): nat {
    if b0 < 0x80 then 1
    else if b0 < 0xC0 then 0
    else if b0 < 0xE0 then 2
    else if b0 < 0xF0 then 3
    else if b0 < 0xF8 then 4
    else 0
  }

  /** The scalar value of the `n`-byte sequence starting with lead byte `b0`, when it is a valid UTF-8 encoding. */
  function DecodeSequence(s: string, b0: nat, n: nat): Option<char>
    requires 2 <= n <= 4 && SequenceLength(b0) == n
  {
    var c1 := ContinuationAt(s, 3);
    var c2 := ContinuationAt(s, 6);
    var c3 := ContinuationAt(s, 9);
    if n == 2 then
      if c1.None? then None
      else
        var cp := (b0 - 0xC0) * 64 + c1.value;
        if cp < 0x80 then None else Some(cp as char)
    else if n == 3 then
      if c1.None? || c2.None? then None
      else
        var cp := (b0 - 0xE0) * 4096 + c1.value * 64 + c2.value;
        if cp < 0x800 || (0xD800 <= cp < 0xE000) then None else Some(cp as char)
    else
      if c1.None? || c2.None? || c3.None? then None
      else
        var cp := (b0 - 0xF0) * 262144 + c1.value * 4096 + c2.value * 64 + c3.value;
        if cp < 0x10000 || 0x110000 <= cp then None else Some(cp as char)
  }

  /** `decodeURIComponent(s)`: a `URIError` on a malformed escape or an invalid UTF-8 sequence. */
  function Decode(s: string): Res<string>
    decreases |s|
  {
    if |s| == 0 then Success("")
    else if s[0] != '%' then
      var rest :- Decode(s[1..]);
      Success([s[0]] + rest)
    else
      match ByteAt(s, 0)
      case None => Failure(Raise(URIError))
      case Some(b0) =>
        var n := SequenceLength(b0);
        if n == 1 then
          var rest :- Decode(s[3..]);
          Success([b0 as char] + rest)
        else if n == 0 || |s| < 3 * n then Failure(Raise(URIError))
        else
          match DecodeSequence(s, b0, n)
          case None => Failure(Raise(URIError))
          case Some(c) =>
            var rest :- Decode(s[3 * n..]);
            Success([c] + rest)
  }

  // ---------------------------------------------------------------------
  // Properties

  lemma HexRoundTrip(d: nat)
    requires d < 16
    ensures HexValue(HexDigit(d)) == Some(d)
  {
  }

  lemma EscapeRead(b: nat, t: string)
    requires b < 256
    ensures ByteAt(Escape(b) + t, 0) == Some(b)
  {
    HexRoundTrip(b / 16);
    HexRoundTrip(b % 16);
  }

  /** Reading the escape of byte `bytes[k]` back out of the escaped sequence. */
  lemma {:induction false} EscapeAllRead(bytes: seq<nat>, t: string, k: nat)
    requires forall i | 0 <= i < |bytes| :: bytes[i] < 256
    requires k < |bytes|
    ensures |EscapeAll(bytes)| == 3 * |bytes|
    ensures ByteAt(EscapeAll(bytes) + t, 3 * k) == Some(bytes[k])
    decreases |bytes|
  {
    var e := Escape(bytes[0]);
    var rest := EscapeAll(bytes[1..]);
    assert EscapeAll(bytes) + t == e + (rest + t);
    if k == 0 {
      EscapeRead(bytes[0], rest + t);
      if |bytes| > 1 {
        EscapeAllRead(bytes[1..], t, 0);
      } else {
        assert rest == "";
      }
    } else {
      EscapeAllRead(bytes[1..], t, k - 1);
      ByteAtAfter(e, rest + t, 3 * (k - 1));
    }
  }

  /** An escape read past a three-character prefix is read in what follows it. */
  lemma ByteAtAfter(e: string, s: string, i: nat)
    requires |e| == 3
    ensures ByteAt(e + s, i + 3) == ByteAt(s, i)
  {
    if i + 3 <= |s| {
      assert (e + s)[i + 3] == s[i] && (e + s)[i + 4] == s[i + 1] && (e + s)[i + 5] == s[i + 2];
    }
  }

  /** Every escape sequence is three characters per byte. */
  lemma {:induction false} EscapeAllLength(bytes: seq<nat>)
    requires forall i | 0 <= i < |bytes| :: bytes[i] < 256
    ensures |EscapeAll(bytes)| == 3 * |bytes|
    decreases |bytes|
  {
    if |bytes| > 0 {
      EscapeAllLength(bytes[1..]);
    }
  }

  lemma Combine2(cp: int)
    requires 0x80 <= cp < 0x800
    ensures SequenceLength(0xC0 + cp / 64) == 2
    ensures (cp / 64) * 64 + cp % 64 == cp
  {
  }

  lemma Combine3(cp: int)
    requires 0x800 <= cp < 0x10000
    ensures SequenceLength(0xE0 + cp / 4096) == 3
    ensures (cp / 4096) * 4096 + ((cp / 64) % 64) * 64 + cp % 64 == cp
  {
    assert cp / 64 == (cp / 4096) * 64 + (cp / 64) % 64;
  }

  lemma Combine4(cp: int)
    requires 0x10000 <= cp < 0x110000
    ensures SequenceLength(0xF0 + cp / 262144) == 4
    ensures (cp / 262144) * 262144 + ((cp / 4096) % 64) * 4096 + ((cp / 64) % 64) * 64 + cp % 64 == cp
  {
    assert cp / 4096 == (cp / 262144) * 64 + (cp / 4096) % 64;
    assert cp / 64 == (cp / 4096) * 64 + (cp / 64) % 64;
  }

  /** A Dafny `char` is a Unicode scalar value: never a surrogate, never above U+10FFFF. */
  lemma ScalarRange(c: char)
    ensures 0 <= c as int < 0xD800 || 0xE000 <= c as int < 0x110000
  {
  }

  lemma DecodeSequence2(c: char, t: string)
    requires 0x80 <= c as int < 0x800
    ensures SequenceLength(Utf8(c)[0]) == 2
    ensures (Utf8Bytes(c); DecodeSequence(EscapeAll(Utf8(c)) + t, Utf8(c)[0], 2) == Some(c))
  {
    Utf8Bytes(c);
    var bytes := Utf8(c);
    var s := EscapeAll(bytes) + t;
    var cp := c as int;
    EscapeAllRead(bytes, t, 1);
    Combine2(cp);
    assert ContinuationAt(s, 3) == Some(cp % 64);
  }

  lemma DecodeSequence3(c: char, t: string)
    requires 0x800 <= c as int < 0x10000
    ensures SequenceLength(Utf8(c)[0]) == 3
    ensures (Utf8Bytes(c); DecodeSequence(EscapeAll(Utf8(c)) + t, Utf8(c)[0], 3) == Some(c))
  {
    Utf8Bytes(c);
    ScalarRange(c);
    var bytes := Utf8(c);
    var s := EscapeAll(bytes) + t;
    var cp := c as int;
    EscapeAllRead(bytes, t, 1);
    EscapeAllRead(bytes, t, 2);
    Combine3(cp);
    assert ContinuationAt(s, 3) == Some((cp / 64) % 64);
    assert ContinuationAt(s, 6) == Some(cp % 64);
  }

  lemma DecodeSequence4(c: char, t: string)
    requires 0x10000 <= c as int
    ensures SequenceLength(Utf8(c)[0]) == 4
    ensures (Utf8Bytes(c); DecodeSequence(EscapeAll(Utf8(c)) + t, Utf8(c)[0], 4) == Some(c))
  {
    Utf8Bytes(c);
    ScalarRange(c);
    var bytes := Utf8(c);
    var s := EscapeAll(bytes) + t;
    var cp := c as int;
    EscapeAllRead(bytes, t, 1);
    EscapeAllRead(bytes, t, 2);
    EscapeAllRead(bytes, t, 3);
    Combine4(cp);
    assert ContinuationAt(s, 3) == Some((cp / 4096) % 64);
    assert ContinuationAt(s, 6) == Some((cp / 64) % 64);
    assert ContinuationAt(s, 9) == Some(cp % 64);
  }

  /** Decoding the encoding of one character and then the tail `t` yields the character before the decoded tail. */
  lemma DecodeEncodeChar(c: char, t: string)
    ensures Decode(EncodeChar(c) + t) == (var rest :- Decode(t); Success([c] + rest))
  {
    var s := EncodeChar(c) + t;
    if Unreserved(c) {
      assert s[1..] == t;
    } else {
      Utf8Bytes(c);
      var bytes := Utf8(c);
      var n := |bytes|;
      EscapeAllLength(bytes);
      assert s[3 * n..] == t;
      EscapeAllRead(bytes, t, 0);
      if c as int < 0x80 {
        assert (bytes[0] as char) == c;
      } else if c as int < 0x800 {
        DecodeSequence2(c, t);
      } else if c as int < 0x10000 {
        DecodeSequence3(c, t);
      } else {
        DecodeSequence4(c, t);
      }
    }
  }

  /** `decodeURIComponent(encodeURIComponent(s)) === s` for every string. */
  lemma {:induction false} DecodeEncode(s: string)
    ensures Decode(Encode(s)) == Success(s)
    decreases |s|
  {
    if |s| > 0 {
      DecodeEncode(s[1..]);
      DecodeEncodeChar(s[0], Encode(s[1..]));
      assert [s[0]] + s[1..] == s;
    }
  }

  /** Distinct identifiers get distinct directory names. */
  lemma EncodeInjective(a: string, b: string)
    requires Encode(a) == Encode(b)
    ensures a == b
  {
    DecodeEncode(a);
    DecodeEncode(b);
  }

  /** An escape is `%` and two hex digits, none of them a `/`. */
  lemma EscapeNoSlash(b: nat)
    requires b < 256
    ensures '/' !in Escape(b)
  {
    var e := Escape(b);
    assert e[0] == '%' && e[1] == HexDigit(b / 16) && e[2] == HexDigit(b % 16);
    assert forall i | 0 <= i < |e| :: e[i] != '/';
  }

  lemma {:induction false} EscapeAllNoSlash(bytes: seq<nat>)
    requires forall i | 0 <= i < |bytes| :: bytes[i] < 256
    ensures '/' !in EscapeAll(bytes)
    decreases |bytes|
  {
    if |bytes| > 0 {
      EscapeNoSlash(bytes[0]);
      EscapeAllNoSlash(bytes[1..]);
      assert EscapeAll(bytes) == Escape(bytes[0]) + EscapeAll(bytes[1..]);
    }
  }

  /** An encoded identifier is one path segment: it never contains a `/`. */
  lemma {:induction false} EncodeNoSlash(s: string)
    ensures '/' !in Encode(s)
    decreases |s|
  {
    if |s| > 0 {
      EncodeNoSlash(s[1..]);
      if !Unreserved(s[0]) {
        Utf8Bytes(s[0]);
        EscapeAllNoSlash(Utf8(s[0]));
      }
    }
  }

  /** Only the empty string encodes to the empty string. */
  lemma EncodeNonEmpty(s: string)
    requires s != ""
    ensures Encode(s) != ""
  {
    Utf8Bytes(s[0]);
    EscapeAllLength(Utf8(s[0]));
  }
}

=== FILE: validator.dfy ===
/**
 * The schema validator the store consults. The JSON-Schema engine itself is
 * a parameter: `compiled` is the one schema the validator is built with.
 *
 * The store calls `schemaValidate(name, doc)` with a schema name and a
 * document, but the validator takes a single argument and so checks the
 * NAME against its schema and never looks at the document. The rest of the
 * model uses the two-argument validator of `Env`, which checks the document
 * against the named schema.
 */
module Validator {

  import opened Wrappers
  import opened JsonValue
  import opened Errors
  import opened StoreState
  import opened Config

  /** `schemaValidate` as written: the first argument, a schema name, is the data validated. */
  function SchemaValidateAsWritten(compiled: Json -> Report): (v: (string, Json) -> Report)
    ensures forall name, doc1, doc2 :: v(name, doc1) == v(name, doc2)
  {
    (name: string, doc: Json) => compiled(JStr(name))
  }

  const MinimalConfig: Json := Obj1("storeClass", JStr("FSBurritoStore"))

  /** A configuration with a key no configuration schema allows. */
  const ConfigWithUnknownKey: Json := JObj(map["storeClass" := JStr("FSBurritoStore"), "foo" := JStr("baa")])

  /**
   * With the validator as written, a configuration with an unknown key is
   * accepted whenever the minimal configuration is, and both read to the
   * same settings: the configuration schema is never applied.
   */
  lemma UnknownKeyAcceptedAsWritten(compiled: Json -> Report)
    requires ReadConfig(Some(MinimalConfig), SchemaValidateAsWritten(compiled)).Success?
    ensures ReadConfig(Some(ConfigWithUnknownKey), SchemaValidateAsWritten(compiled))
            == ReadConfig(Some(MinimalConfig), SchemaValidateAsWritten(compiled))
  {
    var v := SchemaValidateAsWritten(compiled);
    assert ConfigWithUnknownKey == JObj(MinimalConfig.fields["foo" := JStr("baa")]);
    assert "foo" !in SettingKeys;
    ExtraKeyIgnored(MinimalConfig.fields, "foo", JStr("baa"), v);
  }

  /** The keys a configuration is read through. */
  const SettingKeys: set<string> := {
    "storeClass", "acceptedVersion", "acceptedFlavors", "allowXFlavors", "ownedEntryIDServers",
    "acceptedIdServers", "creatableDerivedVariants", "acceptedDerivedVariants", "validation", "subclassSettings"}

  /** A key the reader does not look at changes nothing, provided the validator gives the same verdict. */
  lemma ExtraKeyIgnored(m: map<string, Json>, k: string, x: Json, validate: (string, Json) -> Report)
    requires k !in SettingKeys
    requires validate("config", JObj(m[k := x])) == validate("config", JObj(m))
    ensures ReadConfig(Some(JObj(m[k := x])), validate) == ReadConfig(Some(JObj(m)), validate)
  {
    var c1 := JObj(m[k := x]);
    var c2 := JObj(m);
    assert Js.Field(Some(c1), "storeClass") == Js.Field(Some(c2), "storeClass");
    forall key, d | key in SettingKeys ensures Setting(c1, key, d) == Setting(c2, key, d) {
    }
  }

  /** A validator that checks the document rejects the configuration with an unknown key, whatever the minimal one gets. */
  lemma UnknownKeyRejected(validate: (string, Json) -> Report)
    requires validate("config", ConfigWithUnknownKey).Rejected?
    ensures ReadConfig(Some(ConfigWithUnknownKey), validate).Failure?
    ensures ReadConfig(Some(ConfigWithUnknownKey), validate).error.kind == ConfigFileInvalid
  {
    assert Js.Field(Some(ConfigWithUnknownKey), "storeClass") == Str("FSBurritoStore");
  }
}

=== FILE: wrappers.dfy ===
/**
 * Option and Result, with the failure-propagation members that let `:-`
 * short-circuit on a failure the way a JavaScript `throw` does.
 */
module Wrappers {

  datatype Option<+T> = None | Some(value: T)

  datatype Result<+T, +E> = Success(value: T) | Failure(error: E)
  {
    predicate IsFailure() {
      Failure?
    }

    function PropagateFailure<U>(): Result<U, E>
      requires Failure?
    {
      Failure(error)
    }

    function Extract(): T
      requires Success?
    {
      value
    }
  }
}

=== FILE: xml_tree.dfy ===
/**
 * The parsed XML document the converters read, as an element tree. An
 * element has a tag name, attributes and child nodes; every other node
 * (text, comment, processing instruction) carries only its node value.
 * The DOM calls the converters make become functions over this tree:
 * `getElementsByTagName`, `getAttribute`, `hasAttribute` and the
 * `childNodes[0].nodeValue` idiom that reads an element's text.
 *
 * `parseInt` is here as well, since the converters only apply it to
 * attribute and element text.
 */
module XmlTree {

  import opened Wrappers
  import opened JsonValue
  import opened Errors
  import Js

  datatype Node =
    | Element(tag: string, attrs: map<string, string>, children: seq<Node>)
    | Text(text: string)

  /** `childNodes`: a non-element node has none. */
  function ChildNodes(n: Node): seq<Node> {
    if n.Element? then n.children else []
  }

  /** Every element with the tag in a node list, at any depth, in document order. */
  function ElementsIn(ns: seq<Node>, tag: string): (r: seq<Node>)
    ensures forall i | 0 <= i < |r| :: r[i].Element? && r[i].tag == tag
    ensures forall i | 0 <= i < |ns| && ns[i].Element? && ns[i].tag == tag :: ns[i] in r
    decreases ns
  {
    if |ns| == 0 then []
    else
      var here := if ns[0].Element? && ns[0].tag == tag then [ns[0]] else [];
      var below := if ns[0].Element? then ElementsIn(ns[0].children, tag) else [];
      var rest := ElementsIn(ns[1..], tag);
      assert forall i | 1 <= i < |ns| :: ns[i] == ns[1..][i - 1];
      here + below + rest
  }

  /** `n` is one of the nodes of `ns` or of their descendants. */
  ghost predicate Occurs(n: Node, ns: seq<Node>)
    decreases ns
  {
    && |ns| > 0
    && (ns[0] == n || (ns[0].Element? && Occurs(n, ns[0].children)) || Occurs(n, ns[1..]))
  }

  /**
   * The search finds exactly the elements with the tag that occur in the
   * node list, at any depth.
   */
  lemma {:induction false} ElementsInExact(ns: seq<Node>, tag: string, n: Node)
    ensures n in ElementsIn(ns, tag) <==> Occurs(n, ns) && n.Element? && n.tag == tag
    decreases ns
  {
    if |ns| > 0 {
      var here := if ns[0].Element? && ns[0].tag == tag then [ns[0]] else [];
      var below := if ns[0].Element? then ElementsIn(ns[0].children, tag) else [];
      var rest := ElementsIn(ns[1..], tag);
      assert ElementsIn(ns, tag) == here + below + rest;
      if ns[0].Element? {
        ElementsInExact(ns[0].children, tag, n);
      }
      ElementsInExact(ns[1..], tag, n);
    }
  }

  /** `parent.getElementsByTagName(tag)`: the descendants with the tag, the parent itself excluded. */
  function ElementsByName(parent: Node, tag: string): seq<Node> {
    ElementsIn(ChildNodes(parent), tag)
  }

  /** `childElementByName`: the first descendant with the tag, if any. */
  function ChildElementByName(parent: Node, tag: string): (r: Option<Node>)
    ensures r.None? <==> |ElementsByName(parent, tag)| == 0
    ensures r.Some? ==> r.value.Element? && r.value.tag == tag
  {
    var found := ElementsByName(parent, tag);
    if |found| == 0 then None else Some(found[0])
  }

  /** `getAttribute`: the empty string when the attribute is absent, as xmldom answers. */
  function GetAttribute(n: Node, name: string): string {
    if n.Element? && name in n.attrs then n.attrs[name] else ""
  }

  predicate HasAttribute(n: Node, name: string) {
    n.Element? && name in n.attrs
  }

  /**
   * `n.childNodes[0].nodeValue`: a `TypeError` when `n` has no child, the text
   * of a first child that is a text node, and `null` for a first child that is
   * an element.
   */
  function TextOf(n: Node): (r: Res<Value>)
    ensures r.Failure? <==> |ChildNodes(n)| == 0
    ensures r.Success? ==> r.value.Some? && (r.value.value.JStr? || r.value.value == JNull)
  {
    var kids := ChildNodes(n);
    if |kids| == 0 then Fail(TypeError)
    else if kids[0].Text? then Success(Str(kids[0].text))
    else Success(Some(JNull))
  }

  /** The `TextOf` an optional element that an `assert.isNotNull` guards. */
  function RequiredText(n: Option<Node>): (r: Res<Value>)
    ensures n.None? ==> r == Fail(AssertionError)
    ensures n.Some? ==> r == TextOf(n.value)
  {
    if n.None? then Fail(AssertionError) else TextOf(n.value)
  }

  // ---------------------------------------------------------------------
  // parseInt

  /** The white space `parseInt` skips before the number. */
  predicate IsSpace(c: char) {
    c == ' ' || c == '\t' || c == '\n' || c == '\r' || c == '\U{B}' || c == '\U{C}'
    || c == '\U{A0}' || c == '\U{1680}' || ('\U{2000}' <= c <= '\U{200A}') || c == '\U{2028}' || c == '\U{2029}'
    || c == '\U{202F}' || c == '\U{205F}' || c == '\U{3000}' || c == '\U{FEFF}'
  }

  /** The value of `c` as a digit in base `radix` (10 or 16), or -1. */
  function DigitValue(c: char, radix: nat): (d: int)
    ensures -1 <= d < radix || d == -1
  {
    if '0' <= c <= '9' && (c as int - '0' as int) < radix then c as int - '0' as int
    else if radix == 16 && 'a' <= c <= 'f' then c as int - 'a' as int + 10
    else if radix == 16 && 'A' <= c <= 'F' then c as int - 'A' as int + 10
    else -1
  }

  predicate IsDigitIn(c: char, radix: nat) {
    DigitValue(c, radix) >= 0
  }

  function TrimStart(s: string): (t: string)
    ensures |t| <= |s| && t == s[|s| - |t|..]
    ensures |t| > 0 ==> !IsSpace(t[0])
    decreases |s|
  {
    if |s| > 0 && IsSpace(s[0]) then TrimStart(s[1..]) else s
  }

  /** The longest prefix of `s` made of digits of the radix. */
  function DigitPrefix(s: string, radix: nat): (p: string)
    ensures |p| <= |s| && p == s[..|p|]
    ensures forall i | 0 <= i < |p| :: IsDigitIn(p[i], radix)
    ensures |p| < |s| ==> !IsDigitIn(s[|p|], radix)
    decreases |s|
  {
    if |s| > 0 && IsDigitIn(s[0], radix) then [s[0]] + DigitPrefix(s[1..], radix) else ""
  }

  /** The number a string of digits writes, most significant digit first. */
  function DigitsValue(ds: string, radix: nat): nat
    requires forall i | 0 <= i < |ds| :: IsDigitIn(ds[i], radix)
    decreases |ds|
  {
    if |ds| == 0 then 0
    else
      assert IsDigitIn(ds[|ds| - 1], radix);
      assert DigitsValue(ds[..|ds| - 1], radix) * radix >= 0 by { MulNat(DigitsValue(ds[..|ds| - 1], radix), radix); }
      DigitsValue(ds[..|ds| - 1], radix) * radix + DigitValue(ds[|ds| - 1], radix)
  }

  lemma MulNat(a: nat, b: nat)
    ensures a * b >= 0
  {
  }

  /**
   * `parseInt(s)` with no radix: leading white space, an optional sign, a
   * `0x`/`0X` prefix selecting hexadecimal, then the longest run of digits.
   * With no digit the answer is `NaN`, which a JSON document holds as `null`.
   */
  function ParseInt(s: string): Json {
    var t := TrimStart(s);
    var neg := |t| > 0 && t[0] == '-';
    var unsigned := if |t| > 0 && (t[0] == '-' || t[0] == '+') then t[1..] else t;
    var hex := |unsigned| >= 2 && unsigned[0] == '0' && (unsigned[1] == 'x' || unsigned[1] == 'X');
    var radix := if hex then 16 else 10;
    var ds := DigitPrefix(if hex then unsigned[2..] else unsigned, radix);
    if |ds| == 0 then JNull
    else
      var n: int := DigitsValue(ds, radix);
      JNum(if neg then -n else n)
  }

  // ---------------------------------------------------------------------
  // Properties

  lemma {:induction false} DigitsOfDecimal(n: nat)
    ensures forall i | 0 <= i < |Js.NatToString(n)| :: IsDigitIn(Js.NatToString(n)[i], 10)
    ensures DigitsValue(Js.NatToString(n), 10) == n
    decreases n
  {
    var s := Js.NatToString(n);
    if n >= 10 {
      DigitsOfDecimal(n / 10);
      var front := Js.NatToString(n / 10);
      assert s == front + [Js.DigitChar(n % 10)];
      assert s[..|s| - 1] == front;
    }
  }

  lemma DigitPrefixOfDigits(s: string, radix: nat)
    requires forall i | 0 <= i < |s| :: IsDigitIn(s[i], radix)
    ensures DigitPrefix(s, radix) == s
  {
  }

  /** `parseInt` reads back the decimal notation of every integer: the sizes a manifest records survive the conversion. */
  lemma ParseIntRoundTrip(i: int)
    ensures ParseInt(Js.IntToString(i)) == JNum(i)
  {
    var n: nat := if i < 0 then -i else i;
    var digits := Js.NatToString(n);
    DigitsOfDecimal(n);
    SignedNotation(i);
    NoLeadingZero(n);
    ParseDecimal(Js.IntToString(i), i < 0, digits);
    SignedValue(i, DigitsValue(digits, 10));
  }

  lemma SignedNotation(i: int)
    ensures var n: nat := if i < 0 then -i else i;
            Js.IntToString(i) == if i < 0 then "-" + Js.NatToString(n) else Js.NatToString(n)
  {
  }

  lemma NoLeadingZero(n: nat)
    ensures |Js.NatToString(n)| >= 2 ==> Js.NatToString(n)[0] != '0'
  {
    if n >= 10 {
      NatToStringLeads(n);
    }
  }

  lemma SignedValue(i: int, d: nat)
    requires d == if i < 0 then -i else i
    ensures JNum(if i < 0 then -(d as int) else d) == JNum(i)
  {
  }

  /** An optional `-` and decimal digits without a leading zero parse as the number they write. */
  lemma ParseDecimal(s: string, neg: bool, digits: string)
    requires |digits| > 0 && forall i | 0 <= i < |digits| :: IsDigitIn(digits[i], 10)
    requires |digits| >= 2 ==> digits[0] != '0'
    requires s == if neg then "-" + digits else digits
    ensures var n: int := DigitsValue(digits, 10);
            ParseInt(s) == JNum(if neg then -n else n)
  {
    DecimalUntrimmed(s, neg, digits);
    DigitPrefixOfDigits(digits, 10);
    ParseUntrimmed(s, neg, digits);
  }

  /** A numeral starts with a sign or a digit, so `parseInt` skips nothing. */
  lemma DecimalUntrimmed(s: string, neg: bool, digits: string)
    requires |digits| > 0 && forall i | 0 <= i < |digits| :: IsDigitIn(digits[i], 10)
    requires |digits| >= 2 ==> digits[0] != '0'
    requires s == if neg then "-" + digits else digits
    ensures TrimStart(s) == s
  {
    assert IsDigitIn(digits[0], 10);
    assert !IsSpace(s[0]);
  }

  lemma ParseUntrimmed(s: string, neg: bool, digits: string)
    requires |digits| > 0 && forall i | 0 <= i < |digits| :: IsDigitIn(digits[i], 10)
    requires |digits| >= 2 ==> digits[0] != '0'
    requires s == if neg then "-" + digits else digits
    requires TrimStart(s) == s
    requires DigitPrefix(digits, 10) == digits
    ensures var n: int := DigitsValue(digits, 10);
            ParseInt(s) == JNum(if neg then -n else n)
  {
    if neg {
      assert s[1..] == digits;
    }
  }

  /** Decimal notation of a number of two digits or more does not start with `0`. */
  lemma {:induction false} NatToStringLeads(n: nat)
    requires n >= 10
    ensures |Js.NatToString(n)| >= 2 && Js.NatToString(n)[0] != '0'
    decreases n
  {
    if n / 10 >= 10 {
      NatToStringLeads(n / 10);
    }
  }

  /** Every element with the tag in either half of a node list is found, the first half's before the second's. */
  lemma {:induction false} ElementsInConcat(a: seq<Node>, b: seq<Node>, tag: string)
    ensures ElementsIn(a + b, tag) == ElementsIn(a, tag) + ElementsIn(b, tag)
    decreases a
  {
    if |a| == 0 {
      assert a + b == b;
    } else {
      assert (a + b)[0] == a[0];
      assert (a + b)[1..] == a[1..] + b;
      ElementsInConcat(a[1..], b, tag);
      ElementsInCons(a + b, tag);
      ElementsInCons(a, tag);
    }
  }

  /** The search over a non-empty list: the first node if it matches, its descendants, then the rest of the list. */
  lemma ElementsInCons(ns: seq<Node>, tag: string)
    requires |ns| > 0
    ensures ElementsIn(ns, tag) ==
              (if ns[0].Element? && ns[0].tag == tag then [ns[0]] else [])
              + (if ns[0].Element? then ElementsIn(ns[0].children, tag) else [])
              + ElementsIn(ns[1..], tag)
  {
  }
}
